=== FILE: README.md ===
# JenkinsMobile core in Dafny

This project models the client logic of JenkinsMobile, a Jenkins client with
two independent implementations: an Android app in Kotlin and an iOS app in
Swift. Only logic that can be stated without I/O is modelled. Network replies,
decoded bodies and the clock are inputs.

What is modelled:

- **Domain records.** Job status from the ball colour, the building flag and
  the health score (`Jobs`). Build results, durations and relative start times
  (`Builds`). The health weather icon (`Weather`). View titles (`Views`). Build
  parameter definitions, type sniffing and defaults (`Parameters`).
- **Server record** (`Servers`). The validity check, the base-URL
  normalisation and the HTTP Basic `Authorization` value of section 2 of
  RFC 7617. The base64 of section 4 of RFC 4648 (`Base64`) and UTF-8 as in
  RFC 3629 (`Utf8`) are concrete, so the header's round trip is proved. The
  base64 decoder refuses non-zero pad bits (section 3.5 of RFC 4648), so
  each octet string has exactly one encoding and the header is pinned.
- **Android repository** (`AndroidRepository`):
  - status-code classification;
  - `login`, and `configureApi`/`logout` with crumb invalidation;
  - the memoised CSRF crumb and the requests a build trigger sends;
  - the per-host cookie jar (`CookieJar`);
  - `buildJobApiUrl` (`UrlPath`).
- **iOS API service** (`IosApi`):
  - `performRequest`'s status switch and `APIError` descriptions;
  - the crumb cache that `configure` clears;
  - GET and POST requests, including the crumb tolerance and form body;
  - `buildURL` and `parseQueryString` (`UrlPath`);
  - `validateConnection`.
- **View models** as sequential steps `(state, replies) -> (state, calls)`:
  - the dashboards (`Dashboard`, `AndroidDashboard`, `IosDashboard`);
  - the build-detail screens (`BuildActions`, `AndroidBuildDetail`,
    `IosBuildDetail`);
  - the Android job detail (`AndroidJobDetail`);
  - the logins (`AndroidLogin`, `IosLogin`);
  - the build-parameters form shared by the Android dialog and the iOS sheet
    (`ParameterForm`).

Strings are sequences of Unicode scalar values. Where Swift compares
grapheme clusters instead (`hasPrefix`, `hasSuffix`, `dropLast`, `split`),
the iOS model is the scalar reading; "## Left out" names the inputs where
that differs.

Where the two platforms implement the same rule, a lemma proves that they
agree on scalar strings. Where they differ, a lemma pins the difference to a concrete input:

- the result string "building";
- blank versus empty fields;
- "ALL" as a view name;
- health scores above 100;
- U+0085 in a server URL;
- a line break as a login field;
- a failed parameterised trigger;
- an empty choice list;
- a stale load error.

Two behaviours of the code are easy to misread:

- **Base-URL scheme.** A server URL of "", "http://" or "https://"
  normalises to a string without a scheme ("https:/" or "http:/"), because one
  trailing slash is dropped after the prefix is added. `Servers.NormalizeKeepsScheme`
  states exactly when the scheme survives.
- **Query-string splitting.** Swift's `split(separator:maxSplits:)` with
  empty pieces omitted does not count empty pieces towards `maxSplits`. So
  "=a=b" yields the item a=b rather than being dropped (`UrlPath.ParseSkipsLeadingEquals`).

## Model

| member | source | states |
|---|---|---|
| Base64.Encode | android/app/src/main/java/com/by/android/data/model/Server.kt:28 | the padded encoding has four characters for every started group of three octets; with `DecodeEncode` and `EncodeDecode` it is the one string the canonical decoder maps to the octets |
| Base64.EncodeDecode | android/app/src/main/java/com/by/android/data/model/Server.kt:28 | every string the decoder accepts (pad bits zero, as section 3.5 of RFC 4648 allows a decoder to demand) is the encoding of what it decodes to |
| Base64.DecodeInjective | android/app/src/main/java/com/by/android/data/model/Server.kt:28 | no two strings decode to the same octets |
| Base64.NonZeroPadBitsRejected | android/app/src/main/java/com/by/android/data/model/Server.kt:28 | "Og==" decodes to the colon octet and "Oh==", whose pad bits are not zero, is refused |
| Base64.DecodeEncode | android/app/src/main/java/com/by/android/data/model/Server.kt:25-30 | decoding base64 gives back every octet string that was encoded |
| Utf8.EncodeChar | ios/ios/Models/Server.swift:32 | one scalar becomes 1 to 4 octets: a lead octet announcing the length, then continuation octets |
| Utf8.DecodeEncode | ios/ios/Models/Server.swift:30-34 | strict UTF-8 decoding gives back every encoded string |
| Utf8.EncodeDecode | ios/ios/Models/Server.swift:32 | every octet string the decoder accepts is the encoding of what it yields, so the encoding is a bijection onto well-formed input |
| Servers.AndroidIsValid | android/app/src/main/java/com/by/android/data/model/Server.kt:10-11 | valid iff no field trims to empty under Kotlin's whitespace class |
| Servers.IosIsValid | ios/ios/Models/Server.swift:15-17 | every server Android accepts is accepted here too, and the logged-out placeholder never is |
| Servers.AndroidValidIsIosValid | ios/ios/Models/Server.swift:15-17 | every server Android accepts, iOS accepts; " " as url is accepted by iOS only |
| Servers.EmptyIsInvalid | android/app/src/main/java/com/by/android/data/model/Server.kt:10-33 | the empty placeholder server is invalid on both platforms |
| Servers.Normalize | android/app/src/main/java/com/by/android/data/model/Server.kt:15-22 | "https://" is prefixed iff no accepted scheme is present, then exactly one trailing "/" is dropped |
| Servers.NormalizeKeepsScheme | android/app/src/main/java/com/by/android/data/model/Server.kt:16-21 | the result starts with a scheme iff the trimmed url is not "", "http://" or "https://" |
| Servers.NormalizeKeepsExistingScheme | android/app/src/main/java/com/by/android/data/model/Server.kt:16-18 | a url that already has a scheme and no trailing slash is kept verbatim |
| Servers.NormalizeExamples | android/app/src/main/java/com/by/android/data/model/Server.kt:19-21 | "http://x/" becomes "http://x" and "http://x//" becomes "http://x/"; a bare host gets "https://"; the scheme test is case-sensitive |
| Servers.AndroidBaseUrl | android/app/src/main/java/com/by/android/data/model/Server.kt:13-23 | the base url keeps a scheme exactly when the trimmed url is not "", "http://" or "https://"; a trimmed url with a scheme and no trailing "/" is kept as it is |
| Servers.IosBaseUrlString | ios/ios/Models/Server.swift:19-27 | the same two promises with Swift's whitespace-and-newline trimming (read over scalars; see "## Left out") |
| Servers.BaseUrlsAgree | ios/ios/Models/Server.swift:20-26 | both platforms build the same base url unless it holds a character only one of them counts as whitespace |
| Servers.BaseUrlsDiverge | ios/ios/Models/Server.swift:20 | a trailing U+0085 is trimmed by iOS and kept by Android |
| Servers.ParseAuthHeader | android/app/src/main/java/com/by/android/data/model/Server.kt:25-30 | a server reading the header per RFC 7617 recovers username and token whenever the username has no colon |
| Servers.AuthHeader | ios/ios/Models/Server.swift:30-34 | the value starts with "Basic " and the rest decodes under RFC 4648 to the UTF-8 octets of "username:apiToken" |
| Servers.AuthHeaderUnique | android/app/src/main/java/com/by/android/data/model/Server.kt:25-30 | any "Basic " value whose payload decodes to those octets is the header itself, so the header is exactly "Basic " followed by the base64 of the credentials |
| Servers.ColonInUserNameIsAmbiguous | ios/ios/Models/Server.swift:30-34 | a colon in the username lets two different credentials produce the same header |
| Jobs.StatusFollowsPalette | android/app/src/main/java/com/by/android/data/model/Job.kt:16-25 | a colour has a known status iff it is a palette entry or its `_anime` variant, and then it has that entry's status |
| Jobs.AndroidStatus | android/app/src/main/java/com/by/android/data/model/Job.kt:16-25 | a colour read as any known status is a palette entry or its `_anime` variant; null reads as unknown |
| Jobs.AnimeKeepsStatus | android/app/src/main/java/com/by/android/data/model/Job.kt:17-23 | each base colour and its `_anime` variant give the same status |
| Jobs.OffPaletteIsUnknown | android/app/src/main/java/com/by/android/data/model/Job.kt:24 | null, "BLUE", "blue_anime_x" and "foo_anime" are all unknown |
| Jobs.StatusesAgree | ios/ios/Models/Job.swift:24-42 | the iOS status equals the Android status for every colour, nil included |
| Jobs.IosStatus | ios/ios/Models/Job.swift:24-42 | the Swift switch gives the Android status for every colour, null included |
| Jobs.IsBuilding | android/app/src/main/java/com/by/android/data/model/Job.kt:27-28 | building iff a colour is present and "_anime" occurs in it somewhere |
| Jobs.BuildingIndependentOfStatus | android/app/src/main/java/com/by/android/data/model/Job.kt:16-28 | "foo_anime" is unknown yet building; "blue" is success and not building |
| Jobs.HealthScore | ios/ios/Models/Job.swift:48-50 | the first report's score, or 0 for no or empty reports |
| Builds.FromRawValueRawValue | ios/ios/Models/Build.swift:70-77 | every case is recovered from its raw value |
| Builds.AndroidBuildResult | android/app/src/main/java/com/by/android/data/model/Build.kt:21-30 | no result gives building iff the flag is true and unknown otherwise; a present result ignores the flag and is matched exactly |
| Builds.BuildResultsDiffer | ios/ios/Models/Build.swift:25-30 | the platforms disagree exactly on the result string "building" |
| Builds.IosBuildResult | ios/ios/Models/Build.swift:25-30 | agrees with Android exactly when the result is not the string "building"; a known result has the result string as its raw value |
| Builds.TDiv | android/app/src/main/java/com/by/android/data/model/Build.kt:37 | integer division truncates toward zero, for negative values too |
| Builds.AndroidDuration | android/app/src/main/java/com/by/android/data/model/Build.kt:35-52 | null gives "-"; otherwise the fields shown describe the truncated whole seconds |
| Builds.DescribesSecondsUnique | android/app/src/main/java/com/by/android/data/model/Build.kt:41-50 | at most one text describes a number of seconds, so the minute field is below 60 and leftover seconds are dropped past an hour |
| Builds.DurationsAgree | ios/ios/Models/Build.swift:37-51 | iOS shows the same duration text as Android for every input |
| Builds.IosDuration | ios/ios/Models/Build.swift:37-51 | the same text as Android for every duration, hence the fields that describe the truncated seconds |
| Builds.DurationExamples | android/app/src/main/java/com/by/android/data/model/Build.kt:37-50 | 59 999 ms is 59 s; 61 000 ms is 1 min 1 s; 3 661 000 ms is 1 h 1 min; -1 500 ms is -1 s |
| Builds.AndroidAge | android/app/src/main/java/com/by/android/data/model/Build.kt:54-73 | null gives "-"; "just now" iff under a minute (negative included); otherwise each unit's count brackets the difference, months included (30 days each, under a year) |
| Builds.AgeMonotone | android/app/src/main/java/com/by/android/data/model/Build.kt:58-72 | as the clock advances the phrase never falls back to a shorter unit |
| Builds.AgeExamples | android/app/src/main/java/com/by/android/data/model/Build.kt:56-72 | sample differences give "just now", 12 months and 2 years |
| Weather.AndroidIntervals | android/app/src/main/java/com/by/android/ui/components/WeatherIcon.kt:25-31 | each bucket covers exactly one interval: above 80, 61-80, 41-60, 21-40, and 20 or below |
| Weather.AndroidBucket | android/app/src/main/java/com/by/android/ui/components/WeatherIcon.kt:25-31 | up to 100 the bucket is the one iOS shows; above 100 it is sunny where iOS shows a storm |
| Weather.AndroidMonotone | android/app/src/main/java/com/by/android/ui/components/WeatherIcon.kt:25-31 | a higher score never gives a worse bucket |
| Weather.IosIconAndColorAgree | ios/ios/Views/Components/WeatherIcon.swift:20-48 | icon and colour are functions of one bucket chosen by the same ranges |
| Weather.IosBucket | ios/ios/Views/Components/WeatherIcon.swift:20-48 | the icon name and the colour are both those of the chosen bucket |
| Weather.BucketsAgreeUpTo100 | ios/ios/Views/Components/WeatherIcon.swift:22-31 | the platforms agree on every score up to 100; above it iOS shows a storm and Android the sun |
| Views.IgnoreCaseAllSpellings | android/app/src/main/java/com/by/android/data/model/JenkinsView.kt:9 | a case-blind match with "all" holds for exactly its eight ASCII case variants |
| Views.AndroidDisplayName | android/app/src/main/java/com/by/android/data/model/JenkinsView.kt:8-9 | the title is "所有" iff the name is a case variant of "all" or already "所有"; otherwise it is the name |
| Views.IosDisplayName | ios/ios/Models/JenkinsView.swift:17-22 | the title is "所有" iff the name is "all", "All" or "所有"; otherwise it is the name |
| Views.DisplayNamesDiffer | ios/ios/Models/JenkinsView.swift:18-21 | the platforms disagree exactly on the six other case variants, such as "ALL" |
| Views.DisplayNameOnlyReadsName | android/app/src/main/java/com/by/android/data/model/JenkinsView.kt:8-9 | views with the same name get the same title on both platforms |
| Views.DisplayNameIdempotent | ios/ios/Models/JenkinsView.swift:17-22 | titling a title changes nothing, on either platform |
| Parameters.FirstMarker | ios/ios/Models/Build.swift:165-177 | reference reading: the earliest marker contained in the type name wins, none gives string |
| Parameters.ParamTypeIsFirstMarker | ios/ios/Models/Build.swift:165-177 | the source's type sniffing is the first-marker rule, a missing type giving string |
| Parameters.ExtendedChoiceRedundant | ios/ios/Models/Build.swift:167 | a type containing "ExtendedChoice" contains "Choice" |
| Parameters.ChoiceBeforeBoolean | ios/ios/Models/Build.swift:167-170 | "BooleanChoice" is a choice |
| Parameters.PasswordSniffed | ios/ios/Models/Build.swift:173-174 | "Password" is a password parameter |
| Parameters.StringSniffed | ios/ios/Models/Build.swift:166-176 | "String" and a missing type are string parameters |
| Parameters.DecodeValue | ios/ios/Models/Build.swift:189-200 | a JSON string is kept verbatim, a bool becomes "true"/"false", anything else or no key gives nil |
| Parameters.DefaultValue | ios/ios/Models/Build.swift:180-182 | the default's value, or "" when the default or its value is missing |
| Parameters.Definitions | ios/ios/Models/Build.swift:135-137 | no properties give no definitions |
| Parameters.CollectAppend | ios/ios/Models/Build.swift:136 | collecting distributes over concatenation, so the lists keep property order |
| Parameters.CollectMembers | ios/ios/Models/Build.swift:136 | a definition is collected iff some property lists it |
| Parameters.HasParametersIff | ios/ios/Models/Build.swift:140-142 | a job has parameters iff some property carries a non-empty list |
| Parameters.FirstByName | android/app/src/main/java/com/by/android/ui/builddetail/BuildDetailViewModel.kt:141 | `find` gives the first build parameter with the name, and none iff no parameter has it |
| Parameters.Prefill | android/app/src/main/java/com/by/android/ui/builddetail/BuildDetailViewModel.kt:139-150 | same length, order, names, types, descriptions and choices; a default is replaced iff the first same-name build parameter has a value |
| Parameters.PrefillDefaultValue | ios/ios/Views/BuildDetailView.swift:421-433 | after prefill an editor starts from the build's value where there is one, else from the definition's default |
| Parameters.PrefillWithoutBuildParameters | android/app/src/main/java/com/by/android/ui/builddetail/BuildDetailViewModel.kt:139-150 | with no build parameters prefill changes nothing |
| Parameters.PrefillUsesFirstMatch | android/app/src/main/java/com/by/android/ui/builddetail/BuildDetailViewModel.kt:141-142 | a first same-name parameter with no value blocks a later one that has a value |
| ParameterForm.InitialValues | android/app/src/main/java/com/by/android/ui/components/BuildParametersDialog.kt:31-37 | one key per declared name, holding the default of the last definition with that name |
| ParameterForm.InitialValuesDuplicate | ios/ios/Views/BuildParametersView.swift:26-30 | with a duplicate name the later default wins |
| ParameterForm.Update | android/app/src/main/java/com/by/android/ui/components/BuildParametersDialog.kt:93 | an edit adds its key to the map's keys |
| ParameterForm.LookupUpdate | ios/ios/Views/BuildParametersView.swift:78-83 | an edit is read back at its key and changes no other key; a missing key reads as "" |
| ParameterForm.ApplyEditsLookup | android/app/src/main/java/com/by/android/ui/components/BuildParametersDialog.kt:92-93 | after a series of edits each key holds its last edit's value, or its initial value when never edited |
| ParameterForm.ApplyEditsKeys | ios/ios/Views/BuildParametersView.swift:78-83 | editing never removes a field |
| ParameterForm.Toggle | android/app/src/main/java/com/by/android/ui/components/BuildParametersDialog.kt:228-229 | flipping the switch writes exactly "true" or "false" |
| ParameterForm.CheckedToggle | ios/ios/Views/BuildParametersView.swift:122-125 | the switch reads back the position just written |
| ParameterForm.CheckedDecodedBool | ios/ios/Views/BuildParametersView.swift:123 | a boolean default decoded from Jenkins shows as the switch position it encodes |
| ParameterForm.CheckedExamples | android/app/src/main/java/com/by/android/ui/components/BuildParametersDialog.kt:227 | any casing of "true" turns the switch on; "1", "yes" and "" leave it off |
| ParameterForm.EditorsAgree | ios/ios/Views/BuildParametersView.swift:106-117 | the platforms offer the same control except for a choice parameter with no options |
| ParameterForm.EmptyChoiceFrozenOnAndroid | android/app/src/main/java/com/by/android/ui/components/BuildParametersDialog.kt:120-124 | such a parameter can be given no value on Android and any text on iOS |
| ParameterForm.AndroidBooleanSubmits | android/app/src/main/java/com/by/android/ui/components/BuildParametersDialog.kt:227-230 | a boolean parameter with a unique name submits "true", "false" or its untouched default |
| CookieJar.RemoveNamed | android/app/src/main/java/com/by/android/data/repository/JenkinsRepository.kt:136 | keeps exactly the cookies with another name |
| CookieJar.SaveFromResponse | android/app/src/main/java/com/by/android/data/repository/JenkinsRepository.kt:132-140 | the host gets a list and every other host is unchanged |
| CookieJar.LoadForRequest | android/app/src/main/java/com/by/android/data/repository/JenkinsRepository.kt:142-144 | a host never seen gets no cookies |
| CookieJar.FindSaveOne | android/app/src/main/java/com/by/android/data/repository/JenkinsRepository.kt:135-138 | after one save the cookie's name finds it and other names find what they found before |
| CookieJar.FindSaveAll | android/app/src/main/java/com/by/android/data/repository/JenkinsRepository.kt:132-140 | after a response each name finds the latest received cookie of that name, or the old one |
| CookieJar.SaveAllUnique | android/app/src/main/java/com/by/android/data/repository/JenkinsRepository.kt:135-138 | saving keeps names unique within a list |
| CookieJar.SaveFromResponseWellFormed | android/app/src/main/java/com/by/android/data/repository/JenkinsRepository.kt:132-140 | every host keeps at most one cookie per name |
| CookieJar.SaveThenLoad | android/app/src/main/java/com/by/android/data/repository/JenkinsRepository.kt:132-144 | a later request to the host carries, name by name, the latest cookie received |
| CookieJar.ReplacesSameName | android/app/src/main/java/com/by/android/data/repository/JenkinsRepository.kt:136-137 | a second session cookie replaces the first |
| UrlPath.JoinPath | android/app/src/main/java/com/by/android/data/repository/JenkinsRepository.kt:386-390 | the result is the path, one "/" unless the path ends with one, then the suffix |
| UrlPath.JoinPathExamples | ios/ios/Services/JenkinsAPI.swift:181-187 | no doubled slash; an empty path gives "/" plus the suffix |
| UrlPath.BuildJobApiUrl | android/app/src/main/java/com/by/android/data/repository/JenkinsRepository.kt:382-398 | the suffix is joined to the path (an absent path read as ""); the query is replaced only when supplied; nothing else changes |
| UrlPath.BuildComponents | ios/ios/Services/JenkinsAPI.swift:181-193 | the path is joined only when given; the query items are replaced by the parsed query only when given |
| UrlPath.PathsAgree | ios/ios/Services/JenkinsAPI.swift:181-187 | both clients put the suffix at the same place |
| UrlPath.SplitIsFields | ios/ios/Services/JenkinsAPI.swift:167 | Swift's unbounded split gives exactly the non-empty runs between separators |
| UrlPath.SplitOnceIsRef | ios/ios/Services/JenkinsAPI.swift:168 | the one-split skips leading separators and cuts at the first later separator |
| UrlPath.KeyValue | ios/ios/Services/JenkinsAPI.swift:168-170 | a kept item has a non-empty name without "=" and a non-empty value |
| UrlPath.ItemOfIsKeyValue | ios/ios/Services/JenkinsAPI.swift:168-170 | a field is kept exactly when it has that key/value shape |
| UrlPath.ParseRender | ios/ios/Services/JenkinsAPI.swift:166-172 | parsing rendered items with non-empty names and values free of "&" (names also free of "=") gives them back |
| UrlPath.ParseQueryString | ios/ios/Services/JenkinsAPI.swift:166-172 | the items are those of the non-empty runs between `&`, each read by the one-split on `=` |
| UrlPath.ParseDropsEmptyValue | ios/ios/Services/JenkinsAPI.swift:169 | "a=" is dropped |
| UrlPath.ParseDropsEmptyName | ios/ios/Services/JenkinsAPI.swift:169 | "=b" is dropped |
| UrlPath.ParseKeepsLaterEquals | ios/ios/Services/JenkinsAPI.swift:168-170 | "a=b=c" gives a with value "b=c" |
| UrlPath.ParseSkipsLeadingEquals | ios/ios/Services/JenkinsAPI.swift:168-170 | "=a=b" gives a with value "b" |
| AndroidRepository.HandleError | android/app/src/main/java/com/by/android/data/repository/JenkinsRepository.kt:375-380 | always an error carrying the input code; "认证失败" iff 401 or 403 |
| AndroidRepository.ServerErrorInjective | android/app/src/main/java/com/by/android/data/repository/JenkinsRepository.kt:378 | different codes give different server-error messages |
| AndroidRepository.TriggerStatus | android/app/src/main/java/com/by/android/data/repository/JenkinsRepository.kt:306-310 | success(true) iff 2xx or 302; every other code is reported as `handleError` reports it |
| AndroidRepository.TriggerStatusExamples | android/app/src/main/java/com/by/android/data/repository/JenkinsRepository.kt:306-310 | 204 and 302 succeed; 301 fails with its code; 403 is an authentication failure |
| AndroidRepository.ConfigureApi | android/app/src/main/java/com/by/android/data/repository/JenkinsRepository.kt:123-178 | corrected: a same-server call with an API object changes nothing; otherwise a fresh client, no crumb, the new server; a refused URL changes nothing |
| AndroidRepository.Logout | android/app/src/main/java/com/by/android/data/repository/JenkinsRepository.kt:84-92 | clears the flag, API object, client, server and crumb; keeps the stored server |
| AndroidRepository.Login | android/app/src/main/java/com/by/android/data/repository/JenkinsRepository.kt:94-111 | success iff the server answered 2xx; only then is the server stored and logged in; 401/403 and other codes give their messages; the request goes to the server logged in to |
| AndroidRepository.LoginToOtherServer | android/app/src/main/java/com/by/android/data/repository/JenkinsRepository.kt:123-177 | as written, a refused URL followed by a retry logs in to that server after asking a different one |
| AndroidRepository.ConfigureApiAsWritten | android/app/src/main/java/com/by/android/data/repository/JenkinsRepository.kt:123-177 | a same-server call with an API object is a no-op; any other call records the new server and clears the crumb even when the URL is refused, leaving the old API object in place; with the URL accepted it is the corrected `ConfigureApi` |
| AndroidRepository.LoginAsWritten | android/app/src/main/java/com/by/android/data/repository/JenkinsRepository.kt:94-113 | whenever the URL is accepted, or the server is already configured, it is the corrected `Login` |
| AndroidRepository.LoginToOtherServerFixed | android/app/src/main/java/com/by/android/data/repository/JenkinsRepository.kt:94-111 | with the fix the same calls never log in |
| AndroidRepository.FetchCrumbDirect | android/app/src/main/java/com/by/android/data/repository/JenkinsRepository.kt:321-359 | a cached crumb is returned with no request; only a 2xx reply with a crumb body fills the cache; everything else returns null and leaves it empty |
| AndroidRepository.ExecuteTriggerBuild | android/app/src/main/java/com/by/android/data/repository/JenkinsRepository.kt:264-316 | unconfigured sends nothing; otherwise the crumb GET when needed, then one POST with the form, credentials and crumb header only when obtained |
| AndroidRepository.FirstTrigger | android/app/src/main/java/com/by/android/data/repository/JenkinsRepository.kt:274-291 | with nothing cached a trigger fetches the crumb once, caches it and sends it |
| AndroidRepository.CachedTrigger | android/app/src/main/java/com/by/android/data/repository/JenkinsRepository.kt:322 | with a cached crumb only the POST is sent, carrying it |
| AndroidRepository.TwoTriggersOneCrumbRequest | android/app/src/main/java/com/by/android/data/repository/JenkinsRepository.kt:275-299 | two triggers after a successful crumb fetch send one crumb request in total |
| AndroidRepository.MissingCrumbStillPosts | android/app/src/main/java/com/by/android/data/repository/JenkinsRepository.kt:289-294 | without a crumb the POST still goes out without the header, and the next trigger asks again |
| AndroidRepository.CrumbInvalidation | android/app/src/main/java/com/by/android/data/repository/JenkinsRepository.kt:84-127 | reconfiguring the same server keeps the crumb; another server or a logout drops it |
| IosApi.DescriptionInjective | ios/ios/Services/JenkinsAPI.swift:18-33 | different errors never show the same text |
| IosApi.DescriptionsMatchAndroid | ios/ios/Services/JenkinsAPI.swift:24-31 | the unauthorized, server and network texts equal the Android repository's |
| IosApi.PerformRequest | ios/ios/Services/JenkinsAPI.swift:301-324 | data iff 2xx, or 302 when redirects are allowed; 401/403 unauthorized; other codes a server error; non-HTTP invalid response; thrown errors wrapped as network errors |
| IosApi.GetRejectsRedirect | ios/ios/Services/JenkinsAPI.swift:309-317 | a GET answered 302 is a server error, a POST answered 302 succeeds |
| IosApi.PostAgreesWithAndroid | ios/ios/Services/JenkinsAPI.swift:309-317 | a POST succeeds on exactly the codes the Android trigger accepts, and failures read the same except for 401/403 |
| IosApi.BuildUrl | ios/ios/Services/JenkinsAPI.swift:175-199 | fails with `invalidURL` iff the base does not parse; otherwise the path is joined and the query kept unless given |
| IosApi.Configure | ios/ios/Services/JenkinsAPI.swift:53-56 | the new server and no crumb |
| IosApi.Fetch | ios/ios/Services/JenkinsAPI.swift:201-220 | no server or base URL sends nothing; otherwise one signed GET to the joined path, judged without redirects |
| IosApi.FetchCrumb | ios/ios/Services/JenkinsAPI.swift:139-149 | a cached crumb is returned with no request; otherwise one GET, and only a reply that succeeds and decodes fills the cache |
| IosApi.CrumbRetriedAfterFailure | ios/ios/Services/JenkinsAPI.swift:145-147 | a failed crumb fetch leaves the cache empty, so the next one asks again |
| IosApi.ConfigureForcesFetch | ios/ios/Services/JenkinsAPI.swift:53-56 | after `configure` the crumb is fetched afresh |
| IosApi.Form | ios/ios/Services/JenkinsAPI.swift:259-263 | a body is attached iff the parameters are present and non-empty |
| IosApi.SendPost | ios/ios/Services/JenkinsAPI.swift:248-269 | the crumb fetch's requests, then the POST with the crumb only if one was obtained; the POST's reply decides |
| IosApi.PostPath | ios/ios/Services/JenkinsAPI.swift:242-270 | no server or base URL sends nothing; otherwise the last request is the POST to the joined path with its form |
| IosApi.PostByUrl | ios/ios/Services/JenkinsAPI.swift:272-299 | the same from the job's own URL; only a missing server or an unparseable URL stops it |
| IosApi.CrumbFailureStillPosts | ios/ios/Services/JenkinsAPI.swift:253-256 | a failed crumb fetch only drops the header; the POST is sent and decides |
| IosApi.CachedCrumbReused | ios/ios/Services/JenkinsAPI.swift:139-143 | with a cached crumb a POST sends no GET and carries the crumb |
| IosApi.FormExamples | ios/ios/Services/JenkinsAPI.swift:288-292 | nil and empty parameters attach no body; one pair attaches it |
| IosApi.ValidateConnection | ios/ios/Services/JenkinsAPI.swift:60-82 | `invalidURL` for an unparseable base; true iff 2xx; 401/403 and other codes throw; a transport error escapes unwrapped; never false |
| IosApi.ValidateAgreesWithGet | ios/ios/Services/JenkinsAPI.swift:74-81 | the connection check judges every status like a plain GET |
| Dashboard.ViewAt | ios/ios/ViewModels/DashboardViewModel.swift:30-33 | no view iff the index is out of range, else the view at the index |
| Dashboard.NamesAllViewIff | ios/ios/ViewModels/DashboardViewModel.swift:84 | lower-casing to "all" is Android's case-blind test, passed by the eight case variants |
| AndroidDashboard.SourceFor | android/app/src/main/java/com/by/android/ui/dashboard/DashboardViewModel.kt:80-89 | a view's jobs by name iff a view is selected and it is not "all" in any case; all jobs otherwise |
| AndroidDashboard.LoadJobs | android/app/src/main/java/com/by/android/ui/dashboard/DashboardViewModel.kt:76-103 | one list call; a reply replaces the jobs, a failure keeps them and shows its message; nothing else changes |
| AndroidDashboard.LoadData | android/app/src/main/java/com/by/android/ui/dashboard/DashboardViewModel.kt:41-57 | a failed views load ends loading with its message and keeps the jobs; otherwise the views are replaced, the old error cleared and the selected list of the new views loaded; only views, jobs, the error and the loading flag change |
| AndroidDashboard.Refresh | android/app/src/main/java/com/by/android/ui/dashboard/DashboardViewModel.kt:59-103 | reloads the selected list and ends refreshing: a reply replaces the jobs, a failure keeps them and shows its message; nothing but jobs, the error and the two loading flags changes, and no further refresh is scheduled |
| AndroidDashboard.SelectView | android/app/src/main/java/com/by/android/ui/dashboard/DashboardViewModel.kt:67-103 | the current index is a no-op; another index is set, and its list replaces the jobs or a failure keeps them with its message; nothing but the index, jobs, the error and the loading flag changes |
| AndroidDashboard.RefreshReloadsSelectedTab | android/app/src/main/java/com/by/android/ui/dashboard/DashboardViewModel.kt:59-103 | after a tab switch a refresh asks for the list the new tab showed |
| AndroidDashboard.RefreshSameJobsIsIdle | android/app/src/main/java/com/by/android/ui/dashboard/DashboardViewModel.kt:59-103 | a refresh that brings back the shown list leaves the screen as it was apart from the loading flags |
| AndroidDashboard.ExecuteTriggerBuild | android/app/src/main/java/com/by/android/ui/dashboard/DashboardViewModel.kt:144-165 | one trigger; the pending job is cleared either way; "已触发构建" or "触发失败: msg"; refresh only after success |
| AndroidDashboard.TriggerBuild | android/app/src/main/java/com/by/android/ui/dashboard/DashboardViewModel.kt:106-165 | a detail with parameters opens the dialog with the job and its definitions and sends no POST; otherwise (also when the detail fetch fails) one trigger without parameters, "已触发构建" or "触发失败: " and the message, a refresh only after success, and only the pending job and the message change |
| AndroidDashboard.TriggerBuildWithParameters | android/app/src/main/java/com/by/android/ui/dashboard/DashboardViewModel.kt:135-165 | no pending job does nothing; otherwise the dialog closes and the pending job is triggered with the values, with the same message, refresh and frame as a direct trigger |
| AndroidDashboard.HideParametersDialog | android/app/src/main/java/com/by/android/ui/dashboard/DashboardViewModel.kt:168-176 | the dialog flag, pending job and parameters reset together; nothing else changes |
| AndroidDashboard.DialogSubmitTriggersOnce | android/app/src/main/java/com/by/android/ui/dashboard/DashboardViewModel.kt:106-141 | opening the dialog and submitting it triggers exactly once, with the values |
| AndroidDashboard.HideCancelsSubmit | android/app/src/main/java/com/by/android/ui/dashboard/DashboardViewModel.kt:135-176 | after hiding the dialog a submit sends nothing |
| AndroidDashboard.TriggerBuildTriggers | android/app/src/main/java/com/by/android/ui/dashboard/DashboardViewModel.kt:109-129 | a tap triggers once unless the detail arrived with parameters, then zero times |
| IosDashboard.SelectedView | ios/ios/ViewModels/DashboardViewModel.swift:30-33 | nil iff the index is out of range |
| IosDashboard.SourcesAgree | ios/ios/ViewModels/DashboardViewModel.swift:72-88 | iOS asks for the same job list as Android in every state |
| IosDashboard.LoadJobs | ios/ios/ViewModels/DashboardViewModel.swift:72-96 | a reply replaces the jobs; a failure is silent with no view selected and shows its description otherwise |
| IosDashboard.NoViewFailureDiverges | ios/ios/ViewModels/DashboardViewModel.swift:73-80 | with no views a failed load shows no error on iOS and its message on Android |
| IosDashboard.LoadData | ios/ios/ViewModels/DashboardViewModel.swift:35-55 | a load in progress makes it a no-op; otherwise the old error is cleared and the views are fetched; a failure shows its description; on success the list for the selected tab of the new views is fetched: a reply replaces the jobs, a failure is silent with no tab selected and shown otherwise; only views, jobs, the error and the loading flag change |
| IosDashboard.LoadDataCallsAgree | ios/ios/ViewModels/DashboardViewModel.swift:35-96 | once the views arrive, iOS sends the same two requests as Android |
| IosDashboard.LoadDataGuard | ios/ios/ViewModels/DashboardViewModel.swift:36 | while loading no call is made; otherwise one is |
| IosDashboard.Refresh | ios/ios/ViewModels/DashboardViewModel.swift:57-96 | reloads the selected list and ends refreshing: a reply replaces the jobs; a failure is silent with no tab selected and shown with its description otherwise; nothing but jobs, the error, the alert flag and refreshing changes |
| IosDashboard.SelectView | ios/ios/ViewModels/DashboardViewModel.swift:63-96 | the current index is a no-op; another index is set and its list loaded with the same outcomes as a refresh at that index; nothing else changes |
| IosDashboard.RefreshAndSelectCallsAgree | ios/ios/ViewModels/DashboardViewModel.swift:57-96 | refresh and a tab switch send the same request as on Android |
| IosDashboard.RefreshAndSelectJobsAgree | ios/ios/ViewModels/DashboardViewModel.swift:57-96 | after a successful reply both platforms show the same jobs |
| IosDashboard.DirectTrigger | ios/ios/ViewModels/DashboardViewModel.swift:113-118 | one trigger without parameters; the alert shows "已触发构建: name" or the failure; refresh only after success |
| IosDashboard.FailedTriggerIsRepeated | ios/ios/ViewModels/DashboardViewModel.swift:99-138 | as written, a failed direct trigger of a job without parameters sends a second POST |
| IosDashboard.TriggerBuildAsWritten | ios/ios/ViewModels/DashboardViewModel.swift:99-138 | agrees with the corrected `TriggerBuild` except for a job without parameters whose trigger fails: then one more trigger call is sent and the state is the one the second reply gives |
| IosDashboard.TriggerBuild | ios/ios/ViewModels/DashboardViewModel.swift:99-138 | corrected: parameters open the sheet with no POST; otherwise, or on a failed detail, one direct trigger |
| IosDashboard.TriggerBuildTriggersOnce | ios/ios/ViewModels/DashboardViewModel.swift:99-138 | the corrected flow triggers at most once and makes the same calls as Android |
| IosDashboard.TriggerBuildWithParameters | ios/ios/ViewModels/DashboardViewModel.swift:141-163 | no pending job does nothing; success clears the sheet, job and parameters and refreshes; a failure keeps all three |
| IosDashboard.HideParametersSheet | ios/ios/ViewModels/DashboardViewModel.swift:166-170 | the sheet flag, pending job and parameters reset together; nothing else changes |
| IosDashboard.FailedSubmitDiverges | ios/ios/ViewModels/DashboardViewModel.swift:146-161 | a failed submit keeps the sheet, job and parameters on iOS; Android closes the dialog and clears the job |
| IosDashboard.SheetSubmitTriggersOnce | ios/ios/ViewModels/DashboardViewModel.swift:99-163 | opening the sheet and submitting it triggers exactly once, with the values |
| BuildActions.RebuildDefinitions | android/app/src/main/java/com/by/android/ui/builddetail/BuildDetailViewModel.kt:139-150 | the rebuild dialog lists the job's definitions with their names in order, unchanged when no build is loaded |
| BuildActions.RebuildStartsFromBuild | ios/ios/Views/BuildDetailView.swift:421-433 | each editor starts from the loaded build's value when it has one, else the default |
| AndroidBuildDetail.LoadBuildDetail | android/app/src/main/java/com/by/android/ui/builddetail/BuildDetailViewModel.kt:47-70 | the old error is cleared; a reply replaces the detail, a failure keeps it and shows its message |
| AndroidBuildDetail.LoadLog | android/app/src/main/java/com/by/android/ui/builddetail/BuildDetailViewModel.kt:72-95 | a reply replaces the log; a failure keeps it and reports through the action message; nothing else in the screen state changes |
| AndroidBuildDetail.DeleteBuild | android/app/src/main/java/com/by/android/ui/builddetail/BuildDetailViewModel.kt:105-129 | the confirmation closes; navigating back iff the delete succeeded; "删除成功" or "删除失败: msg" |
| AndroidBuildDetail.Rebuild | android/app/src/main/java/com/by/android/ui/builddetail/BuildDetailViewModel.kt:175-198 | one trigger with the values; the dialog closes and rebuilding ends either way |
| AndroidBuildDetail.ShowRebuildDialog | android/app/src/main/java/com/by/android/ui/builddetail/BuildDetailViewModel.kt:131-169 | parameters open the dialog on the prefilled definitions; none rebuild at once with no values; a failed detail reports "获取参数失败" |
| AndroidBuildDetail.RebuildOnce | android/app/src/main/java/com/by/android/ui/builddetail/BuildDetailViewModel.kt:131-198 | opening the dialog and submitting it rebuilds exactly once and ends closed |
| AndroidBuildDetail.ShowRebuildDialogTriggers | android/app/src/main/java/com/by/android/ui/builddetail/BuildDetailViewModel.kt:131-169 | a tap rebuilds directly exactly when the detail arrived without parameters |
| IosBuildDetail.LoadBuildDetail | ios/ios/Views/BuildDetailView.swift:387-401 | a reply replaces the detail; a failure shows its description; an older error is not cleared |
| IosBuildDetail.LoadLog | ios/ios/Views/BuildDetailView.swift:403-413 | a reply replaces the log; a failure is silent |
| IosBuildDetail.LogLoadedLazily | ios/ios/Views/BuildDetailView.swift:127-133 | a loaded log is not fetched again; a failed one is fetched on the next visit; a load in progress blocks another |
| IosBuildDetail.ShouldLoadLog | ios/ios/Views/BuildDetailView.swift:127-133 | the log is fetched only on the log tab, never while one is held or loading, and the first visit from the initial state fetches it |
| IosBuildDetail.DeleteBuild | ios/ios/Views/BuildDetailView.swift:467-484 | dismissal iff the delete succeeded; the outcome is always announced |
| IosBuildDetail.Rebuild | ios/ios/Views/BuildDetailView.swift:446-465 | one trigger; the sheet closes, rebuilding ends and the outcome is announced |
| IosBuildDetail.ShowRebuildDialog | ios/ios/Views/BuildDetailView.swift:415-444 | parameters open the sheet on the prefilled definitions; none rebuild at once; a failed detail is announced without a sheet |
| IosBuildDetail.RebuildAgrees | ios/ios/Views/BuildDetailView.swift:415-444 | from corresponding states both platforms make the same calls and offer the same prefilled definitions |
| IosBuildDetail.StaleErrorKept | ios/ios/Views/BuildDetailView.swift:387-401 | after a failed then a successful load iOS still shows the old error; Android has cleared it |
| AndroidJobDetail.ShownParameters | android/app/src/main/java/com/by/android/ui/jobdetail/JobDetailViewModel.kt:30-31 | no definitions before a detail has loaded |
| AndroidJobDetail.ShownParametersListed | android/app/src/main/java/com/by/android/ui/jobdetail/JobDetailViewModel.kt:30-31 | a loaded detail shows exactly the definitions its properties list |
| AndroidJobDetail.ShowsParametersIff | android/app/src/main/java/com/by/android/ui/jobdetail/JobDetailViewModel.kt:26-31 | parameters are shown exactly when there are some to show |
| AndroidJobDetail.LoadData | android/app/src/main/java/com/by/android/ui/jobdetail/JobDetailViewModel.kt:47-69 | a reply replaces the detail and its builds (none when null) and clears the error; a failure shows its message and keeps the rest; nothing but the detail, the builds, the error and the loading flag changes |
| AndroidJobDetail.Refresh | android/app/src/main/java/com/by/android/ui/jobdetail/JobDetailViewModel.kt:71-90 | like the load on success; a failure only ends refreshing |
| AndroidJobDetail.TriggerBuild | android/app/src/main/java/com/by/android/ui/jobdetail/JobDetailViewModel.kt:109-127 | the dialog closes, one trigger; "已触发构建" or "触发失败: msg"; refresh only after success; nothing else changes |
| AndroidJobDetail.OnTriggerBuildTapped | android/app/src/main/java/com/by/android/ui/jobdetail/JobDetailViewModel.kt:93-101 | parameters open the dialog with no call; otherwise one trigger without parameters |
| AndroidJobDetail.TapAgreesWithDashboard | android/app/src/main/java/com/by/android/ui/jobdetail/JobDetailViewModel.kt:93-101 | for the same detail the job screen and the dashboard decide alike, and the dialog offers the definitions the dashboard would show |
| AndroidLogin.UpdateServerUrl | android/app/src/main/java/com/by/android/ui/login/LoginViewModel.kt:48-50 | sets the field and clears the error; nothing else changes |
| AndroidLogin.UpdateUsername | android/app/src/main/java/com/by/android/ui/login/LoginViewModel.kt:52-54 | sets the field and clears the error; nothing else changes |
| AndroidLogin.UpdateApiToken | android/app/src/main/java/com/by/android/ui/login/LoginViewModel.kt:56-58 | sets the field and clears the error; nothing else changes |
| AndroidLogin.FormValidIffServerValid | android/app/src/main/java/com/by/android/ui/login/LoginViewModel.kt:60-79 | the form passes iff the trimmed server it submits is valid, and its fields are already trimmed |
| AndroidLogin.IsFormValid | android/app/src/main/java/com/by/android/ui/login/LoginViewModel.kt:60-64 | the form passes exactly when the trimmed server it submits is valid |
| AndroidLogin.Login | android/app/src/main/java/com/by/android/ui/login/LoginViewModel.kt:66-92 | an invalid form is refused with "请填写所有字段" and no call; otherwise no error iff a 2xx came back, and only then logged in |
| AndroidLogin.LoggedInServerIsValid | android/app/src/main/java/com/by/android/ui/login/LoginViewModel.kt:75-79 | a successful login stored a valid server |
| IosLogin.FormValidIffServerValid | ios/ios/ViewModels/LoginViewModel.swift:31-51 | the form passes iff the trimmed server it submits is valid |
| IosLogin.IsFormValid | ios/ios/ViewModels/LoginViewModel.swift:31-35 | the form passes exactly when the server it submits, trimmed of Swift's whitespace but not of line breaks, is valid |
| IosLogin.SwiftBlankIsKotlinBlank | ios/ios/ViewModels/LoginViewModel.swift:32-34 | every string iOS trims away, Android trims away too |
| IosLogin.AndroidValidFormIsIosValid | ios/ios/ViewModels/LoginViewModel.swift:31-35 | a form Android accepts, iOS accepts |
| IosLogin.LineBreakFieldDiverges | ios/ios/ViewModels/LoginViewModel.swift:31-35 | a field holding only "\n" is refused by Android and accepted by iOS |
| IosLogin.Conclude | ios/ios/ViewModels/LoginViewModel.swift:53-75 | only a `true` answer logs in, saving and configuring the server; the rejection text appears iff the answer was `false`; other failures keep storage and service |
| IosLogin.Login | ios/ios/ViewModels/LoginViewModel.swift:37-76 | an invalid form is refused with no request; success stores and configures the trimmed server; failure leaves storage and service alone; loading ends on every path |
| IosLogin.DescriptionIsNotRejection | ios/ios/ViewModels/LoginViewModel.swift:60-66 | no service error reads like "连接验证失败" |
| IosLogin.LoginSucceedsOn2xx | ios/ios/ViewModels/LoginViewModel.swift:53-58 | a 2xx from a parseable base URL always logs in, so the rejection branch is dead |

## Left out

- Rendering, navigation, layout, icons and colours of the screens are left
  out: they are UI. The weather icon is modelled by its bucket and, on iOS,
  its symbol name and colour.
- HTTP transport, timeouts, logging and JSON decoding are left out. Replies,
  status codes and decoded bodies are inputs.
- DataStore and UserDefaults persistence are not modelled as storage. The
  persisted server and logged-in flag are record fields.
- Concurrency and timing are left out. Each view-model action is one
  sequential step. The 1 s refresh after a successful trigger is the flag
  `refreshLater`.
- `Uri.parse`, `URLComponents(string:)`, `URL(string:)` and URL rendering
  are foreign parsers. The model takes their parsed form as an input.
- Servers.BaseUrlsAgree: agreement is proved over Unicode scalars. Swift's
  `hasPrefix`, `hasSuffix` and `dropLast` compare grapheme clusters, so a
  combining mark right after the scheme's last "/" ("http://\u{301}x") or a
  prepend mark before the trailing "/" ("x\u{600}/") makes the iOS base url
  differ from Android's, and no agreement is promised there.
- Servers.IosBaseUrlString: reads the url scalar by scalar, as Kotlin does,
  not Character by Character, so on the inputs above it gives Android's
  result rather than the one iOS computes.
- UrlPath.ParseQueryString: splits on the scalars `&` and `=`. Swift's
  `split` compares Characters, so a combining mark right after a separator
  ("a=b&\u{301}c=d") hides that separator on iOS, and the model yields one
  item more than iOS does.
- Percent-encoding is left out. The by-name endpoints (`triggerBuild(jobName:)`,
  `fetchJobDetail(jobName:)`, `getViewJobs`, console output by name) are left
  out because they rest on it.
- Android `triggerBuildByUrl` joins `buildJobApiUrl` and
  `executeTriggerBuild` through `Uri.toString()`, a foreign rendering. Both
  halves are modelled; the join is not.
- The list endpoints (`getViews`, `getAllJobs`, `getViewJobs`,
  `getJobDetailByUrl`, `fetchViews`, `fetchAllJobs`, `fetchViewJobs`) are
  not modelled. Their replies enter the view models as inputs. This covers
  the empty-list fallbacks on a null body and "数据为空".
- Repository and service methods that the build-detail screens call are not
  shown: `getBuildDetailByUrl`, `getConsoleOutputByUrl`,
  `deleteBuildByUrl`, `fetchBuildDetailByURL` and `deleteBuild`. Their
  replies are inputs. Only the `buildParameters` field of a build detail is
  modelled.
- The Android `JobDetailResponse` in Build.kt has no `property` field and no
  `hasParameters`, yet the Android view models read `hasParameters` and the
  parameter definitions, and `ParameterDefinition` and `ParameterType` are
  not shown. The model gives Android the iOS shape for all three.
- iOS `formattedTimestamp` and `detailedTimestamp` use
  `RelativeDateTimeFormatter` and date formatters, so they are left out.
  Android's is modelled with the clock as a parameter.
- `Int`/`Long`/`Int64` overflow is not modelled. Durations, timestamps and
  status codes are unbounded integers.
- Case folding is ASCII-only. Both the Kotlin `ignoreCase` comparison and the
  Swift `lowercased()` are modelled that way.
- The selected view index is a natural number. A negative index would throw
  in the source.
- `restoreSession`, `loadSavedServer` and the login screens' initialisation
  are left out: they only read persisted values.
- The OkHttp client's interceptors and timeouts are left out. The client is
  represented by its cookie jar.
- Trivial setters are left out: `showDeleteConfirm`, `hideDeleteConfirm`,
  `hideRebuildDialog`, `clearActionMessage`, `clearError`,
  `clearTriggerMessage` and the job-detail `hideParametersDialog`.
- The order of the form body's pairs is left out. A Swift dictionary's
  iteration order is unspecified, so the form is modelled as a map.
- The `201` cases in the trigger status switches add nothing to the 2xx
  range, so they are folded into it.
- iOS `triggerBuild` has an outer `catch` for non-`APIError` errors. It is
  unreachable, because every error the service throws is an `APIError`.
- Builds.AndroidDuration: states the fields shown rather than the rendered
  string; `RenderDuration` maps fields to text.

## Findings

| source | as written | input that shows it | evidently intended | confidence | as-written member | corrected member |
|---|---|---|---|---|---|---|
| android/app/src/main/java/com/by/android/data/repository/JenkinsRepository.kt:123-177 | `configureApi` records the new server, clears the crumb and replaces the client before Retrofit builds the API object. When Retrofit refuses the base URL, the old API object stays behind with the new server recorded as current. | A login to a server answering 503, then two logins to a server whose url is "http://". The third call skips configuration, asks the first server, and on its 200 stores and logs in the refused server. | A refused URL leaves the repository as it was, so every login asks the server it logs in to. | not executed | AndroidRepository.LoginToOtherServer | AndroidRepository.Login |
| ios/ios/ViewModels/DashboardViewModel.swift:99-138 | The `catch let error as APIError` meant for a failed detail fetch also catches the `APIError` thrown by the direct trigger at line 113, and triggers again at line 123. | A job without parameters whose trigger POST is answered 500: two POSTs are sent. | One POST per tap; a failed trigger is reported as "触发失败". | not executed | IosDashboard.FailedTriggerIsRepeated | IosDashboard.TriggerBuildTriggersOnce |

=== FILE: android_build_detail.dfy ===
/** The Android `BuildDetailViewModel`: loading a build and its log,
    deleting it, and rebuilding it with its own parameters prefilled. Each
    action is one step over `UiState` whose repository replies are
    arguments. */
module AndroidBuildDetail {
  import opened Wrappers
  import opened Parameters
  import opened BuildActions
  import opened AndroidRepository

  datatype UiState = UiState(
    buildDetail: Option<BuildDetail>,
    logContent: Option<string>,
    isLoading: bool,
    isLoadingLog: bool,
    isDeleting: bool,
    isRebuilding: bool,
    errorMessage: Option<string>,
    showDeleteConfirm: bool,
    showRebuildDialog: bool,
    rebuildParameters: seq<ParameterDefinition>,
    actionMessage: Option<string>,
    shouldNavigateBack: bool)

  const Initial := UiState(None, None, false, false, false, false, None, false, false, [], None, false)

  const Deleted := "删除成功"
  const RebuildTriggered := "重新构建已触发"

  function LogFailed(msg: string): string { "加载日志失败: " + msg }
  function DeleteFailed(msg: string): string { "删除失败: " + msg }
  function ParametersFailed(msg: string): string { "获取参数失败: " + msg }
  function RebuildFailed(msg: string): string { "重新构建失败: " + msg }

  /** `loadBuildDetail`: the old error is cleared; a reply replaces the
      detail, a failure keeps it and shows its message. */
  function LoadBuildDetail(s: UiState, reply: ApiResult<BuildDetail>): (r: Step<UiState>)
    ensures r.calls == [GetBuildDetail] && !r.state.isLoading
    ensures reply.Success? ==> r.state.buildDetail == Some(reply.data) && r.state.errorMessage.None?
    ensures reply.Error? ==> r.state.buildDetail == s.buildDetail && r.state.errorMessage == Some(reply.message)
    ensures r.state.(buildDetail := s.buildDetail, isLoading := s.isLoading, errorMessage := s.errorMessage) == s
  {
    match reply
    case Success(d) => Step(s.(buildDetail := Some(d), isLoading := false, errorMessage := None), [GetBuildDetail])
    case Error(msg, _) => Step(s.(isLoading := false, errorMessage := Some(msg)), [GetBuildDetail])
  }

  /** `loadLog`: a failure is reported as an action message, not an error. */
  function LoadLog(s: UiState, reply: ApiResult<string>): (r: Step<UiState>)
    ensures r.calls == [GetLog] && !r.state.isLoadingLog
    ensures reply.Success? ==> r.state.logContent == Some(reply.data) && r.state.actionMessage == s.actionMessage
    ensures reply.Error? ==> r.state.logContent == s.logContent && r.state.actionMessage == Some(LogFailed(reply.message))
    ensures r.state.(logContent := s.logContent, isLoadingLog := s.isLoadingLog, actionMessage := s.actionMessage) == s
  {
    match reply
    case Success(log) => Step(s.(logContent := Some(log), isLoadingLog := false), [GetLog])
    case Error(msg, _) => Step(s.(isLoadingLog := false, actionMessage := Some(LogFailed(msg))), [GetLog])
  }

  /** `deleteBuild`: the confirmation closes; only a successful delete
      navigates back. */
  function DeleteBuild(s: UiState, reply: ApiResult<()>): (r: Step<UiState>)
    ensures r.calls == [Delete] && !r.state.isDeleting && !r.state.showDeleteConfirm
    ensures r.state.shouldNavigateBack <==> reply.Success? || s.shouldNavigateBack
    ensures r.state.actionMessage == Some(if reply.Success? then Deleted else DeleteFailed(reply.message))
    ensures r.state.buildDetail == s.buildDetail && r.state.errorMessage == s.errorMessage
  {
    var s1 := s.(isDeleting := true, showDeleteConfirm := false);
    match reply
    case Success(_) => Step(s1.(isDeleting := false, actionMessage := Some(Deleted), shouldNavigateBack := true), [Delete])
    case Error(msg, _) => Step(s1.(isDeleting := false, actionMessage := Some(DeleteFailed(msg))), [Delete])
  }

  /** `rebuild`: the dialog closes and the job is triggered once with the
      given values; the outcome becomes the action message. */
  function Rebuild(s: UiState, parameters: map<string, string>, reply: ApiResult<bool>): (r: Step<UiState>)
    ensures r.calls == [TriggerRebuild(parameters)]
    ensures !r.state.isRebuilding && !r.state.showRebuildDialog
    ensures r.state.actionMessage == Some(if reply.Success? then RebuildTriggered else RebuildFailed(reply.message))
    ensures r.state.(isRebuilding := s.isRebuilding, showRebuildDialog := s.showRebuildDialog, actionMessage := s.actionMessage) == s
  {
    var s1 := s.(isRebuilding := true, showRebuildDialog := false);
    match reply
    case Success(_) => Step(s1.(isRebuilding := false, actionMessage := Some(RebuildTriggered)), [TriggerRebuild(parameters)])
    case Error(msg, _) => Step(s1.(isRebuilding := false, actionMessage := Some(RebuildFailed(msg))), [TriggerRebuild(parameters)])
  }

  /** `showRebuildDialog`: the job's detail decides. With parameters the
      dialog opens on the prefilled definitions; without, the job is rebuilt
      at once with no values; a failed detail only reports. */
  function ShowRebuildDialog(s: UiState, detail: ApiResult<JobDetail>, reply: ApiResult<bool>): (r: Step<UiState>)
    ensures |r.calls| > 0 && r.calls[0] == GetJobDetail
    ensures detail.Success? && HasParameters(detail.data) ==>
      r == Step(s.(showRebuildDialog := true, rebuildParameters := RebuildDefinitions(s.buildDetail, detail.data)), [GetJobDetail])
    ensures detail.Success? && !HasParameters(detail.data) ==>
      r.calls == [GetJobDetail, TriggerRebuild(map[])] && r.state == Rebuild(s, map[], reply).state
    ensures detail.Error? ==>
      r == Step(s.(actionMessage := Some(ParametersFailed(detail.message))), [GetJobDetail])
  {
    match detail
    case Success(d) =>
      if HasParameters(d) then
        Step(s.(showRebuildDialog := true, rebuildParameters := RebuildDefinitions(s.buildDetail, d)), [GetJobDetail])
      else
        var t := Rebuild(s, map[], reply);
        Step(t.state, [GetJobDetail] + t.calls)
    case Error(msg, _) => Step(s.(actionMessage := Some(ParametersFailed(msg))), [GetJobDetail])
  }

  /** Opening the rebuild dialog and submitting it triggers the job exactly
      once, with the submitted values, and the dialog ends closed. */
  lemma {:induction false} RebuildOnce(s: UiState, d: JobDetail, unused: ApiResult<bool>,
                                       values: map<string, string>, reply: ApiResult<bool>)
    requires HasParameters(d)
    ensures var t := ShowRebuildDialog(s, ApiResult.Success(d), unused);
            var u := Rebuild(t.state, values, reply);
            t.state.showRebuildDialog && !u.state.showRebuildDialog &&
            Rebuilds(t.calls + u.calls) == 1
  {
    var t := ShowRebuildDialog(s, ApiResult.Success(d), unused);
    var u := Rebuild(t.state, values, reply);
    var c := t.calls + u.calls;
    assert c == [GetJobDetail, TriggerRebuild(values)];
    assert c[1..][1..] == [];
    assert Rebuilds(c[1..]) == 1 + Rebuilds(c[1..][1..]);
  }

  /** A tap on rebuild triggers directly exactly when the job has no
      parameters and its detail arrived. */
  lemma {:induction false} ShowRebuildDialogTriggers(s: UiState, detail: ApiResult<JobDetail>, reply: ApiResult<bool>)
    ensures Rebuilds(ShowRebuildDialog(s, detail, reply).calls) ==
      if detail.Success? && !HasParameters(detail.data) then 1 else 0
  {
    var c := ShowRebuildDialog(s, detail, reply).calls;
    if detail.Success? && !HasParameters(detail.data) {
      assert c[1..] == [TriggerRebuild(map[])] && c[1..][1..] == [];
      assert Rebuilds(c[1..]) == 1 + Rebuilds(c[1..][1..]);
    } else {
      assert c[1..] == [];
    }
    assert Rebuilds(c) == Rebuilds(c[1..]);
  }
}

=== FILE: android_dashboard.dfy ===
/** The Android `DashboardViewModel`: loading the views and the job list of
    the selected tab, and the trigger flow that first asks whether the job
    takes parameters and then either opens the parameters dialog or
    triggers directly. Each action is one step over `UiState`; the
    repository's replies are its arguments. */
module AndroidDashboard {
  import opened Wrappers
  import opened Strings
  import opened Dashboard
  import opened Jobs
  import opened Views
  import opened Parameters
  import opened AndroidRepository

  datatype UiState = UiState(
    views: seq<JenkinsView>,
    jobs: seq<Job>,
    selectedViewIndex: nat,
    isLoading: bool,
    isRefreshing: bool,
    errorMessage: Option<string>,
    triggerMessage: Option<string>,
    showParametersDialog: bool,
    pendingJob: Option<Job>,
    parameters: seq<ParameterDefinition>)

  const Initial := UiState([], [], 0, false, false, None, None, false, None, [])

  const Triggered := "已触发构建"

  function TriggerFailed(msg: string): string {
    "触发失败: " + msg
  }

  // ---------------------------------------------------------------- loading

  /** The job list `loadJobsForSelectedView` asks for: all jobs when no view
      is selected or the selected view is "all" in any case, otherwise the
      selected view's jobs by name. */
  function SourceFor(views: seq<JenkinsView>, index: nat): (r: JobsSource)
    ensures r.ViewJobs? <==> index < |views| && !(views[index].name in AllSpellings)
    ensures r.ViewJobs? ==> r.name == views[index].name
  {
    if |views| == 0 || index >= |views| then AllJobs
    else
      var v := views[index];
      IgnoreCaseAllSpellings(v.name);
      if EqualsIgnoreCase(v.name, "all") then AllJobs else ViewJobs(v.name)
  }

  /** `loadJobsForSelectedView`: a reply replaces the jobs, a failure keeps
      them and shows its message; loading ends either way. */
  function LoadJobs(s: UiState, reply: ApiResult<seq<Job>>): (r: Step<UiState>)
    ensures r.calls == [ListJobs(SourceFor(s.views, s.selectedViewIndex))] && !r.refreshLater
    ensures !r.state.isLoading
    ensures reply.Success? ==> r.state.jobs == reply.data && r.state.errorMessage == s.errorMessage
    ensures reply.Error? ==> r.state.jobs == s.jobs && r.state.errorMessage == Some(reply.message)
    ensures r.state.(jobs := s.jobs, isLoading := s.isLoading, errorMessage := s.errorMessage) == s
  {
    var call := [ListJobs(SourceFor(s.views, s.selectedViewIndex))];
    match reply
    case Success(jobs) => Step(s.(jobs := jobs, isLoading := false), call, false)
    case Error(msg, _) => Step(s.(isLoading := false, errorMessage := Some(msg)), call, false)
  }

  /** `loadData`: the views first; only when they arrive is the job list
      fetched, and a failure leaves views and jobs as they were. */
  function LoadData(s: UiState, views: ApiResult<seq<JenkinsView>>, jobs: ApiResult<seq<Job>>): (r: Step<UiState>)
    ensures !r.state.isLoading && !r.refreshLater
    ensures views.Error? ==>
      r.calls == [ListViews] && r.state == s.(isLoading := false, errorMessage := Some(views.message))
    ensures views.Success? ==>
      r.state.views == views.data &&
      r.calls == [ListViews, ListJobs(SourceFor(views.data, s.selectedViewIndex))] &&
      (jobs.Success? ==> r.state.jobs == jobs.data && r.state.errorMessage.None?) &&
      (jobs.Error? ==> r.state.jobs == s.jobs && r.state.errorMessage == Some(jobs.message))
    ensures r.state.(views := s.views, jobs := s.jobs, isLoading := s.isLoading, errorMessage := s.errorMessage) == s
  {
    var s1 := s.(isLoading := true, errorMessage := None);
    match views
    case Error(msg, _) => Step(s1.(isLoading := false, errorMessage := Some(msg)), [ListViews], false)
    case Success(vs) =>
      var l := LoadJobs(s1.(views := vs), jobs);
      Step(l.state, [ListViews] + l.calls, false)
  }

  /** `refresh`: the job list again, with the refreshing flag down at the
      end: a reply replaces the jobs, a failure keeps them and shows its
      message, and nothing else but the loading flag changes. */
  function Refresh(s: UiState, jobs: ApiResult<seq<Job>>): (r: Step<UiState>)
    ensures !r.state.isRefreshing && !r.state.isLoading && !r.refreshLater
    ensures r.calls == [ListJobs(SourceFor(s.views, s.selectedViewIndex))]
    ensures jobs.Success? ==> r.state.jobs == jobs.data && r.state.errorMessage == s.errorMessage
    ensures jobs.Error? ==> r.state.jobs == s.jobs && r.state.errorMessage == Some(jobs.message)
    ensures r.state.(jobs := s.jobs, isLoading := s.isLoading, errorMessage := s.errorMessage,
                     isRefreshing := s.isRefreshing) == s
  {
    var l := LoadJobs(s.(isRefreshing := true), jobs);
    Step(l.state.(isRefreshing := false), l.calls, false)
  }

  /** `selectView`: tapping the current tab does nothing; another tab is
      selected before its jobs are fetched, and shows them, or keeps the old
      list with the failure's message. */
  function SelectView(s: UiState, index: nat, jobs: ApiResult<seq<Job>>): (r: Step<UiState>)
    ensures index == s.selectedViewIndex ==> r == Step(s, [], false)
    ensures index != s.selectedViewIndex ==>
      r.state.selectedViewIndex == index && r.calls == [ListJobs(SourceFor(s.views, index))] &&
      !r.refreshLater && !r.state.isLoading &&
      (jobs.Success? ==> r.state.jobs == jobs.data && r.state.errorMessage == s.errorMessage) &&
      (jobs.Error? ==> r.state.jobs == s.jobs && r.state.errorMessage == Some(jobs.message)) &&
      r.state.(selectedViewIndex := s.selectedViewIndex, jobs := s.jobs, isLoading := s.isLoading,
               errorMessage := s.errorMessage) == s
  {
    if index == s.selectedViewIndex then Step(s, [], false)
    else LoadJobs(s.(selectedViewIndex := index), jobs)
  }

  // ---------------------------------------------------------------- triggering

  /** `executeTriggerBuild`: one trigger call; the pending job is cleared
      whatever the outcome, and only success schedules a refresh. */
  function ExecuteTriggerBuild(s: UiState, url: string, parameters: Option<map<string, string>>,
                               reply: ApiResult<bool>): (r: Step<UiState>)
    ensures r.calls == [Trigger(url, parameters)]
    ensures r.state.pendingJob.None?
    ensures r.refreshLater <==> reply.Success?
    ensures r.state.triggerMessage == Some(if reply.Success? then Triggered else TriggerFailed(reply.message))
    ensures r.state.(pendingJob := s.pendingJob, triggerMessage := s.triggerMessage) == s
  {
    match reply
    case Success(_) => Step(s.(triggerMessage := Some(Triggered), pendingJob := None), [Trigger(url, parameters)], true)
    case Error(msg, _) => Step(s.(triggerMessage := Some(TriggerFailed(msg)), pendingJob := None), [Trigger(url, parameters)], false)
  }

  /** `triggerBuild`: a job whose detail shows parameters opens the dialog
      and triggers nothing; otherwise, and also when the detail could not be
      fetched, the job is triggered once without parameters. */
  function TriggerBuild(s: UiState, job: Job, detail: ApiResult<JobDetail>, reply: ApiResult<bool>): (r: Step<UiState>)
    ensures detail.Success? && HasParameters(detail.data) ==>
      r.calls == [Dashboard.JobDetail(job.url)] && !r.refreshLater &&
      r.state == s.(showParametersDialog := true, pendingJob := Some(job), parameters := Definitions(detail.data))
    ensures !(detail.Success? && HasParameters(detail.data)) ==>
      r.calls == [Dashboard.JobDetail(job.url), Trigger(job.url, None)] && r.state.pendingJob.None? &&
      r.state.triggerMessage == Some(if reply.Success? then Triggered else TriggerFailed(reply.message)) &&
      (r.refreshLater <==> reply.Success?) &&
      r.state.(pendingJob := s.pendingJob, triggerMessage := s.triggerMessage) == s
  {
    match detail
    case Success(d) =>
      if HasParameters(d) then
        Step(s.(showParametersDialog := true, pendingJob := Some(job), parameters := Definitions(d)), [Dashboard.JobDetail(job.url)], false)
      else
        var t := ExecuteTriggerBuild(s, job.url, None, reply);
        Step(t.state, [Dashboard.JobDetail(job.url)] + t.calls, t.refreshLater)
    case Error(_, _) =>
      var t := ExecuteTriggerBuild(s, job.url, None, reply);
      Step(t.state, [Dashboard.JobDetail(job.url)] + t.calls, t.refreshLater)
  }

  /** `triggerBuildWithParameters`: nothing without a pending job; otherwise
      the dialog closes and the pending job is triggered with the form's
      values. The definitions stay in the state. */
  function TriggerBuildWithParameters(s: UiState, values: map<string, string>, reply: ApiResult<bool>): (r: Step<UiState>)
    ensures s.pendingJob.None? ==> r == Step(s, [], false)
    ensures s.pendingJob.Some? ==>
      r.calls == [Trigger(s.pendingJob.value.url, Some(values))] &&
      !r.state.showParametersDialog && r.state.pendingJob.None? && r.state.parameters == s.parameters &&
      r.state.triggerMessage == Some(if reply.Success? then Triggered else TriggerFailed(reply.message)) &&
      (r.refreshLater <==> reply.Success?) &&
      r.state.(showParametersDialog := s.showParametersDialog, pendingJob := s.pendingJob,
               triggerMessage := s.triggerMessage) == s
  {
    match s.pendingJob
    case None => Step(s, [], false)
    case Some(job) => ExecuteTriggerBuild(s.(showParametersDialog := false), job.url, Some(values), reply)
  }

  /** `hideParametersDialog`: the dialog, the pending job and the
      definitions are reset together, and nothing else changes. */
  function HideParametersDialog(s: UiState): (r: UiState)
    ensures !r.showParametersDialog && r.pendingJob.None? && r.parameters == []
    ensures r.(showParametersDialog := s.showParametersDialog, pendingJob := s.pendingJob, parameters := s.parameters) == s
  {
    s.(showParametersDialog := false, pendingJob := None, parameters := [])
  }

  // ---------------------------------------------------------------- flows

  /** A tap on a parameterised job and a submit of the dialog trigger that
      job exactly once, with the submitted values. */
  lemma DialogSubmitTriggersOnce(s: UiState, job: Job, d: JobDetail, unused: ApiResult<bool>,
                                 values: map<string, string>, reply: ApiResult<bool>)
    requires HasParameters(d)
    ensures var t := TriggerBuild(s, job, ApiResult.Success(d), unused);
            var u := TriggerBuildWithParameters(t.state, values, reply);
            Triggers(t.calls + u.calls) == 1 && u.calls == [Trigger(job.url, Some(values))]
  {
    var t := TriggerBuild(s, job, ApiResult.Success(d), unused);
    var u := TriggerBuildWithParameters(t.state, values, reply);
    assert t.calls[1..] == [];
    assert u.calls[1..] == [];
    TriggersAppend(t.calls, u.calls);
  }

  /** Dismissing the dialog cancels: a later submit triggers nothing. */
  lemma HideCancelsSubmit(s: UiState, values: map<string, string>, reply: ApiResult<bool>)
    ensures TriggerBuildWithParameters(HideParametersDialog(s), values, reply).calls == []
  {
  }

  /** A tap triggers once, unless the job's parameters open the dialog. */
  lemma TriggerBuildTriggers(s: UiState, job: Job, detail: ApiResult<JobDetail>, reply: ApiResult<bool>)
    ensures Triggers(TriggerBuild(s, job, detail, reply).calls) ==
      if detail.Success? && HasParameters(detail.data) then 0 else 1
  {
    var r := TriggerBuild(s, job, detail, reply);
    if detail.Success? && HasParameters(detail.data) {
      assert r.calls[1..] == [];
    } else {
      var c := r.calls;
      assert c[1..] == [Trigger(job.url, None)] && c[1..][1..] == [];
      assert Triggers(c[1..]) == 1 + Triggers(c[1..][1..]);
      assert Triggers(c) == Triggers(c[1..]);
    }
  }

  /** After switching tabs, a pull to refresh asks again for the list the
      new tab showed. */
  lemma RefreshReloadsSelectedTab(s: UiState, index: nat, first: ApiResult<seq<Job>>, second: ApiResult<seq<Job>>)
    requires index != s.selectedViewIndex
    ensures var t := SelectView(s, index, first);
            Refresh(t.state, second).calls == t.calls
  {
  }

  /** A refresh that brings the same list as the last one leaves the screen
      as it was, apart from the loading flags. */
  lemma RefreshSameJobsIsIdle(s: UiState)
    ensures Refresh(s, ApiResult.Success(s.jobs)).state == s.(isLoading := false, isRefreshing := false)
  {
  }
}

=== FILE: android_job_detail.dfy ===
/** The Android `JobDetailViewModel`: a job's detail and builds, and the
    trigger button, which opens the parameters dialog when the loaded detail
    shows parameters and triggers directly otherwise. Each action is one
    step over `UiState`; the job's URL and the repository's replies are
    arguments. */
module AndroidJobDetail {
  import opened Wrappers
  import opened Dashboard
  import opened Parameters
  import Builds
  import Jobs
  import opened AndroidRepository
  import AndroidDashboard

  datatype UiState = UiState(
    jobDetail: Option<JobDetail>,
    builds: seq<Builds.Build>,
    isLoading: bool,
    isRefreshing: bool,
    errorMessage: Option<string>,
    triggerMessage: Option<string>,
    showParametersDialog: bool)

  const Initial := UiState(None, [], false, false, None, None, false)

  /** `hasParameters`: only a loaded detail can show parameters. */
  predicate ShowsParameters(s: UiState) {
    s.jobDetail.Some? && HasParameters(s.jobDetail.value)
  }

  /** `parameters`: the loaded detail's definitions, none before it arrived. */
  function ShownParameters(s: UiState): (r: seq<ParameterDefinition>)
    ensures s.jobDetail.None? ==> r == []
  {
    if s.jobDetail.Some? then Definitions(s.jobDetail.value) else []
  }

  /** A loaded detail shows exactly the definitions its properties list. */
  lemma ShownParametersListed(s: UiState, d: ParameterDefinition)
    requires s.jobDetail.Some? && s.jobDetail.value.property.Some?
    ensures var ps := s.jobDetail.value.property.value;
      d in ShownParameters(s) <==>
      exists i :: 0 <= i < |ps| && ps[i].parameterDefinitions.Some? && d in ps[i].parameterDefinitions.value
  {
    CollectMembers(s.jobDetail.value.property.value, d);
  }

  /** The two derived properties agree: parameters are shown exactly when
      there are some to show. */
  lemma ShowsParametersIff(s: UiState)
    ensures ShowsParameters(s) <==> ShownParameters(s) != []
  {
  }

  /** `loadData`: the old error is cleared; a reply replaces the detail and
      its builds (none when the reply lists none), a failure shows its
      message and keeps what was shown. */
  function LoadData(s: UiState, url: string, reply: ApiResult<JobDetail>): (r: Step<UiState>)
    ensures r.calls == [Dashboard.JobDetail(url)] && !r.state.isLoading && !r.refreshLater
    ensures reply.Success? ==>
      r.state.jobDetail == Some(reply.data) && r.state.errorMessage.None? &&
      r.state.builds == reply.data.builds.GetOr([])
    ensures reply.Error? ==>
      r.state == s.(isLoading := false, errorMessage := Some(reply.message))
    ensures r.state.(jobDetail := s.jobDetail, builds := s.builds, isLoading := s.isLoading,
                     errorMessage := s.errorMessage) == s
  {
    match reply
    case Success(d) =>
      Step(s.(jobDetail := Some(d), builds := d.builds.GetOr([]), isLoading := false, errorMessage := None),
           [Dashboard.JobDetail(url)], false)
    case Error(msg, _) => Step(s.(isLoading := false, errorMessage := Some(msg)), [Dashboard.JobDetail(url)], false)
  }

  /** `refresh`: like `loadData` on success, but a failure is silent. */
  function Refresh(s: UiState, url: string, reply: ApiResult<JobDetail>): (r: Step<UiState>)
    ensures r.calls == [Dashboard.JobDetail(url)] && !r.state.isRefreshing && !r.refreshLater
    ensures reply.Success? ==>
      r.state == s.(jobDetail := Some(reply.data), builds := reply.data.builds.GetOr([]), isRefreshing := false)
    ensures reply.Error? ==> r.state == s.(isRefreshing := false)
  {
    match reply
    case Success(d) =>
      Step(s.(jobDetail := Some(d), builds := d.builds.GetOr([]), isRefreshing := false), [Dashboard.JobDetail(url)], false)
    case Error(_, _) => Step(s.(isRefreshing := false), [Dashboard.JobDetail(url)], false)
  }

  /** `triggerBuild`: the dialog closes and the job is triggered once; only
      success schedules the delayed refresh. */
  function TriggerBuild(s: UiState, url: string, parameters: Option<map<string, string>>, reply: ApiResult<bool>): (r: Step<UiState>)
    ensures r.calls == [Trigger(url, parameters)] && !r.state.showParametersDialog
    ensures r.refreshLater <==> reply.Success?
    ensures r.state.triggerMessage ==
      Some(if reply.Success? then AndroidDashboard.Triggered else AndroidDashboard.TriggerFailed(reply.message))
    ensures r.state.(showParametersDialog := s.showParametersDialog, triggerMessage := s.triggerMessage) == s
  {
    var s1 := s.(showParametersDialog := false);
    match reply
    case Success(_) => Step(s1.(triggerMessage := Some(AndroidDashboard.Triggered)), [Trigger(url, parameters)], true)
    case Error(msg, _) => Step(s1.(triggerMessage := Some(AndroidDashboard.TriggerFailed(msg))), [Trigger(url, parameters)], false)
  }

  /** `onTriggerBuildTapped`: the loaded detail decides between the dialog
      and a direct trigger without parameters. */
  function OnTriggerBuildTapped(s: UiState, url: string, reply: ApiResult<bool>): (r: Step<UiState>)
    ensures ShowsParameters(s) ==> r == Step(s.(showParametersDialog := true), [], false)
    ensures !ShowsParameters(s) ==> r.calls == [Trigger(url, None)] && !r.state.showParametersDialog
  {
    if ShowsParameters(s) then Step(s.(showParametersDialog := true), [], false)
    else TriggerBuild(s, url, None, reply)
  }

  /** After a detail has loaded, a tap opens the dialog exactly when that
      detail shows parameters, and otherwise triggers once: the decision the
      dashboard takes for the same detail. */
  lemma {:induction false} TapAgreesWithDashboard(s: UiState, d: JobDetail, reply: ApiResult<bool>,
                                                  a: AndroidDashboard.UiState, job: Jobs.Job, unused: ApiResult<bool>)
    requires job.url == d.url && !a.showParametersDialog
    ensures var loaded := LoadData(s, d.url, ApiResult.Success(d)).state;
            var t := OnTriggerBuildTapped(loaded, d.url, reply);
            var k := AndroidDashboard.TriggerBuild(a, job, ApiResult.Success(d), unused);
            t.state.showParametersDialog == k.state.showParametersDialog &&
            (HasParameters(d) ==> ShownParameters(loaded) == k.state.parameters) &&
            Triggers(t.calls) == Triggers(k.calls) &&
            Triggers(t.calls) == (if HasParameters(d) then 0 else 1)
  {
    var loaded := LoadData(s, d.url, ApiResult.Success(d)).state;
    var t := OnTriggerBuildTapped(loaded, d.url, reply);
    var k := AndroidDashboard.TriggerBuild(a, job, ApiResult.Success(d), unused);
    AndroidDashboard.TriggerBuildTriggers(a, job, ApiResult.Success(d), unused);
    if HasParameters(d) {
      assert t.calls == [];
    } else {
      assert t.calls == [Trigger(d.url, None)] && t.calls[1..] == [];
      assert Triggers(t.calls) == 1 + Triggers(t.calls[1..]);
    }
  }
}

=== FILE: android_login.dfy ===
/** The Android `LoginViewModel`: the three form fields, the blank check
    that guards submission, and the login that sends the trimmed fields to
    the repository. */
module AndroidLogin {
  import opened Wrappers
  import opened Strings
  import opened Servers
  import AndroidRepository

  datatype LoginState = LoginState(
    serverUrl: string,
    username: string,
    apiToken: string,
    isLoading: bool,
    errorMessage: Option<string>,
    isLoggedIn: bool)

  const FillAllFields := "请填写所有字段"

  /** Editing a field clears the error shown under the form. */
  function UpdateServerUrl(s: LoginState, url: string): (r: LoginState)
    ensures r.serverUrl == url && r.errorMessage.None?
    ensures r.(serverUrl := s.serverUrl, errorMessage := s.errorMessage) == s
  {
    s.(serverUrl := url, errorMessage := None)
  }

  function UpdateUsername(s: LoginState, username: string): (r: LoginState)
    ensures r.username == username && r.errorMessage.None?
    ensures r.(username := s.username, errorMessage := s.errorMessage) == s
  {
    s.(username := username, errorMessage := None)
  }

  function UpdateApiToken(s: LoginState, token: string): (r: LoginState)
    ensures r.apiToken == token && r.errorMessage.None?
    ensures r.(apiToken := s.apiToken, errorMessage := s.errorMessage) == s
  {
    s.(apiToken := token, errorMessage := None)
  }

  /** `isFormValid`: no field is blank. */
  function IsFormValid(s: LoginState): (r: bool)
    ensures r <==> AndroidIsValid(Submitted(s))
  {
    BlankIffTrimEmpty(KotlinWhitespace, s.serverUrl);
    BlankIffTrimEmpty(KotlinWhitespace, s.username);
    BlankIffTrimEmpty(KotlinWhitespace, s.apiToken);
    TrimIdempotent(KotlinWhitespace, s.serverUrl);
    TrimIdempotent(KotlinWhitespace, s.username);
    TrimIdempotent(KotlinWhitespace, s.apiToken);
    !IsBlank(KotlinWhitespace, s.serverUrl) && !IsBlank(KotlinWhitespace, s.username)
    && !IsBlank(KotlinWhitespace, s.apiToken)
  }

  /** The server `login` submits: every field trimmed. */
  function Submitted(s: LoginState): Server {
    Server(Trim(KotlinWhitespace, s.serverUrl), Trim(KotlinWhitespace, s.username), Trim(KotlinWhitespace, s.apiToken))
  }

  /** The form guard and the server record's own check agree: a form passes
      exactly when the server it submits is valid, and trimming again would
      change none of its fields. */
  lemma FormValidIffServerValid(s: LoginState)
    ensures IsFormValid(s) <==> AndroidIsValid(Submitted(s))
    ensures Trim(KotlinWhitespace, Submitted(s).url) == Submitted(s).url
    ensures Trim(KotlinWhitespace, Submitted(s).username) == Submitted(s).username
    ensures Trim(KotlinWhitespace, Submitted(s).apiToken) == Submitted(s).apiToken
  {
    BlankIffTrimEmpty(KotlinWhitespace, s.serverUrl);
    BlankIffTrimEmpty(KotlinWhitespace, s.username);
    BlankIffTrimEmpty(KotlinWhitespace, s.apiToken);
    TrimIdempotent(KotlinWhitespace, s.serverUrl);
    TrimIdempotent(KotlinWhitespace, s.username);
    TrimIdempotent(KotlinWhitespace, s.apiToken);
  }

  /** The screen state after `login`, the repository after it, and the
      server the repository asked (none when nothing was sent). */
  datatype LoginStep = LoginStep(state: LoginState, repo: AndroidRepository.Repo, asked: Option<Server>)

  /** `login`: an incomplete form is refused before anything is sent;
      otherwise the repository logs in to the submitted server, and only its
      success marks the screen logged in. `rejected` and `reply` are passed
      through to the repository. */
  function Login(s: LoginState, repo: AndroidRepository.Repo, rejected: Option<string>,
                 reply: AndroidRepository.Reply): (r: LoginStep)
    ensures !IsFormValid(s) ==> r == LoginStep(s.(errorMessage := Some(FillAllFields)), repo, None)
    ensures IsFormValid(s) ==> !r.state.isLoading
    ensures IsFormValid(s) && AndroidRepository.Coherent(repo) && r.asked.Some? ==> r.asked == Some(Submitted(s))
    ensures IsFormValid(s) ==>
      (r.state.errorMessage.None? <==> r.asked.Some? && reply.Status? && AndroidRepository.IsSuccessful(reply.code))
    ensures r.state.errorMessage.None? ==> r.state.isLoggedIn && r.repo.stored == Submitted(s) && r.repo.loggedIn
    ensures r.state.errorMessage.Some? ==>
      r.state.isLoggedIn == s.isLoggedIn && r.repo.stored == repo.stored && r.repo.loggedIn == repo.loggedIn
  {
    if !IsFormValid(s) then LoginStep(s.(errorMessage := Some(FillAllFields)), repo, None)
    else
      var o := AndroidRepository.Login(repo, Submitted(s), rejected, reply);
      match o.result
      case Success(_) => LoginStep(s.(isLoading := false, errorMessage := None, isLoggedIn := true), o.repo, o.asked)
      case Error(msg, _) => LoginStep(s.(isLoading := false, errorMessage := Some(msg)), o.repo, o.asked)
  }

  /** A login that leaves no error stored a valid server in the repository. */
  lemma LoggedInServerIsValid(s: LoginState, repo: AndroidRepository.Repo, rejected: Option<string>,
                              reply: AndroidRepository.Reply)
    requires Login(s, repo, rejected, reply).state.errorMessage.None?
    ensures AndroidIsValid(Login(s, repo, rejected, reply).repo.stored)
  {
    FormValidIffServerValid(s);
  }
}

=== FILE: android_repository.dfy ===
/** The decision logic of the Android `JenkinsRepository`: how HTTP status
    codes become `ApiResult`s, what `login` stores, how the API client is
    (re)configured and torn down, the memoised CSRF crumb, and the requests a
    build trigger sends. Every network reply is an input; the repository's
    mutable fields are a `Repo` record that each operation returns updated. */
module AndroidRepository {
  import opened Wrappers
  import opened Strings
  import opened Servers
  import CookieJar

  datatype ApiResult<+T> = Success(data: T) | Error(message: string, code: Option<int>)

  const AuthFailed := "认证失败"
  const LoginAuthFailed := "认证失败，请检查用户名和API Token"
  const NotConfigured := "未配置服务器"

  function ServerError(code: int): string {
    "服务器错误: " + IntToString(code)
  }

  function NetworkError(msg: string): string {
    "网络错误: " + msg
  }

  /** OkHttp's `isSuccessful`. */
  predicate IsSuccessful(code: int) {
    200 <= code <= 299
  }

  predicate IsAuthFailure(code: int) {
    code == 401 || code == 403
  }

  // ---------------------------------------------------------------- status codes

  /** `handleError`: the code is always reported, with a message that says
      whether it was an authentication failure. */
  function HandleError<T>(code: int): (r: ApiResult<T>)
    ensures r.Error? && r.code == Some(code)
    ensures r.message == AuthFailed <==> IsAuthFailure(code)
  {
    assert ServerError(code)[0] != AuthFailed[0];
    if IsAuthFailure(code) then Error(AuthFailed, Some(code)) else Error(ServerError(code), Some(code))
  }

  /** Distinct server errors are told apart by their message alone. */
  lemma ServerErrorInjective(a: int, b: int)
    ensures ServerError(a) == ServerError(b) ==> a == b
  {
    var p := "服务器错误: ";
    if ServerError(a) == ServerError(b) {
      assert IntToString(a) == ServerError(a)[|p|..];
      assert IntToString(b) == ServerError(b)[|p|..];
      IntToStringInjective(a, b);
    }
  }

  /** The status switch of `executeTriggerBuild`: any 2xx or a 302 redirect is
      success, and every other code is reported as `handleError` reports it. */
  function TriggerStatus(code: int): (r: ApiResult<bool>)
    ensures r.Success? <==> IsSuccessful(code) || code == 302
    ensures r.Success? ==> r.data
    ensures r.Error? ==> r == HandleError(code)
  {
    if IsSuccessful(code) || code == 201 || code == 302 then Success(true)
    else if IsAuthFailure(code) then Error(AuthFailed, Some(code))
    else Error(ServerError(code), Some(code))
  }

  lemma TriggerStatusExamples()
    ensures TriggerStatus(204) == Success(true) && TriggerStatus(302) == Success(true)
    ensures TriggerStatus(301).Error? && TriggerStatus(301).code == Some(301)
    ensures TriggerStatus(403) == Error(AuthFailed, Some(403))
  {
  }

  // ---------------------------------------------------------------- repository state

  datatype Crumb = Crumb(field: string, value: string)

  /** The repository's fields: the persisted server and logged-in flag, the
      server the client was configured for, the server whose URL and
      credentials the Retrofit API object was built with, the OkHttp client
      (represented by its cookie jar), and the cached crumb. */
  datatype Repo = Repo(
    stored: Server,
    loggedIn: bool,
    current: Option<Server>,
    api: Option<Server>,
    client: Option<CookieJar.Jar>,
    crumb: Option<Crumb>)

  /** The API object, when present, talks to the configured server. */
  predicate Coherent(r: Repo) {
    r.api.Some? ==> r.current == r.api && r.client.Some?
  }

  /** `configureApi` as written. `rejected` is the exception Retrofit throws
      when it refuses the base URL (`None` when it accepts it). The server
      and a fresh client are committed before the API object is built, so a
      refusal leaves an old API object in place under the new server. */
  function ConfigureApiAsWritten(r: Repo, s: Server, rejected: Option<string>): (out: (Repo, Option<string>))
    ensures r.current == Some(s) && r.api.Some? ==> out == (r, None)
    ensures rejected.None? ==> out == ConfigureApi(r, s, rejected)
    ensures !(r.current == Some(s) && r.api.Some?) ==> out.0.current == Some(s) && out.0.crumb.None? && out.1 == rejected
    ensures !(r.current == Some(s) && r.api.Some?) && rejected.Some? ==> out.0.api == r.api
  {
    if r.current == Some(s) && r.api.Some? then (r, None)
    else
      var r1 := r.(current := Some(s), crumb := None, client := Some(map[]));
      if rejected.None? then (r1.(api := Some(s)), None) else (r1, rejected)
  }

  /** `configureApi` with the refusal taking effect before anything is
      committed: a same-server call with an API object is a no-op that keeps
      the crumb; any other call installs the new server with a fresh client
      and clears the crumb, or changes nothing when the URL is refused. */
  function ConfigureApi(r: Repo, s: Server, rejected: Option<string>): (out: (Repo, Option<string>))
    ensures r.current == Some(s) && r.api.Some? ==> out == (r, None)
    ensures !(r.current == Some(s) && r.api.Some?) && rejected.None? ==>
      out.1.None? && out.0 == r.(current := Some(s), api := Some(s), client := Some(map[]), crumb := None)
    ensures !(r.current == Some(s) && r.api.Some?) && rejected.Some? ==> out == (r, rejected)
    ensures out.0.stored == r.stored && out.0.loggedIn == r.loggedIn
    ensures Coherent(r) ==> Coherent(out.0)
  {
    if r.current == Some(s) && r.api.Some? then (r, None)
    else if rejected.Some? then (r, rejected)
    else (r.(current := Some(s), api := Some(s), client := Some(map[]), crumb := None), None)
  }

  /** `logout` clears the session and the flag but keeps the stored server. */
  function Logout(r: Repo): (r': Repo)
    ensures !r'.loggedIn && r'.api.None? && r'.client.None? && r'.current.None? && r'.crumb.None?
    ensures r'.stored == r.stored
  {
    Repo(r.stored, false, None, None, None, None)
  }

  // ---------------------------------------------------------------- login

  /** What answered the server-info request. */
  datatype Reply = Transport(message: string) | Status(code: int)

  /** The repository after the call, the result, and the server whose
      credentials and URL the server-info request was sent with (`None` when
      no request was sent). */
  datatype LoginOutcome = LoginOutcome(repo: Repo, result: ApiResult<bool>, asked: Option<Server>)

  function LoginWith(r1: Repo, thrown: Option<string>, s: Server, reply: Reply): LoginOutcome {
    if thrown.Some? then LoginOutcome(r1, Error(NetworkError(thrown.value), None), None)
    else if r1.api.None? then LoginOutcome(r1, Error(NetworkError("null"), None), None)
    else
      match reply
      case Transport(msg) => LoginOutcome(r1, Error(NetworkError(msg), None), r1.api)
      case Status(c) =>
        if IsSuccessful(c) then LoginOutcome(r1.(stored := s, loggedIn := true), Success(true), r1.api)
        else if IsAuthFailure(c) then LoginOutcome(r1, Error(LoginAuthFailed, Some(c)), r1.api)
        else LoginOutcome(r1, Error(ServerError(c), Some(c)), r1.api)
  }

  /** `login` as written, on top of `ConfigureApiAsWritten`. */
  function LoginAsWritten(r: Repo, s: Server, rejected: Option<string>, reply: Reply): (o: LoginOutcome)
    ensures rejected.None? || (r.current == Some(s) && r.api.Some?) ==> o == Login(r, s, rejected, reply)
  {
    var (r1, thrown) := ConfigureApiAsWritten(r, s, rejected);
    LoginWith(r1, thrown, s, reply)
  }

  /** `login`: only a 2xx answer stores the server and sets the flag; the
      request, when sent, goes to the server being logged in to. */
  function Login(r: Repo, s: Server, rejected: Option<string>, reply: Reply): (o: LoginOutcome)
    ensures Coherent(r) ==> Coherent(o.repo) && (o.asked.Some? ==> o.asked == Some(s))
    ensures o.result.Success? <==> o.asked.Some? && reply.Status? && IsSuccessful(reply.code)
    ensures o.result.Success? ==> o.repo.stored == s && o.repo.loggedIn
    ensures o.result.Error? ==> o.repo.stored == r.stored && o.repo.loggedIn == r.loggedIn
    ensures o.asked.Some? && reply.Status? && IsAuthFailure(reply.code) ==>
      o.result == Error(LoginAuthFailed, Some(reply.code))
    ensures o.asked.Some? && reply.Status? && !IsSuccessful(reply.code) && !IsAuthFailure(reply.code) ==>
      o.result == Error(ServerError(reply.code), Some(reply.code))
  {
    var (r1, thrown) := ConfigureApi(r, s, rejected);
    LoginWith(r1, thrown, s, reply)
  }

  /** A server whose URL Retrofit refuses. */
  const BadServer := Server("http://", "u", "t")
  const GoodServer := Server("https://ci.example", "u", "t")

  /** As written: a login to a server that answered 503, then a login to a
      server whose URL is refused, then the same login again. The third call
      finds the refused server already "current" with an API object, skips
      configuration, asks the first server, and on its 200 stores and logs in
      to the refused server it never contacted. */
  lemma LoginToOtherServer()
    ensures
      var r0 := Repo(Servers.Empty, false, None, None, None, None);
      var o1 := LoginAsWritten(r0, GoodServer, None, Status(503));
      var o2 := LoginAsWritten(o1.repo, BadServer, Some("Invalid URL host"), Status(200));
      var o3 := LoginAsWritten(o2.repo, BadServer, Some("Invalid URL host"), Status(200));
      o1.result.Error? && o2.result.Error? &&
      o3.result == Success(true) && o3.asked == Some(GoodServer) &&
      o3.repo.stored == BadServer && o3.repo.loggedIn
  {
  }

  /** With the fix, the same three calls never log in to the refused server. */
  lemma LoginToOtherServerFixed()
    ensures
      var r0 := Repo(Servers.Empty, false, None, None, None, None);
      var o1 := Login(r0, GoodServer, None, Status(503));
      var o2 := Login(o1.repo, BadServer, Some("Invalid URL host"), Status(200));
      var o3 := Login(o2.repo, BadServer, Some("Invalid URL host"), Status(200));
      o3.result.Error? && !o3.repo.loggedIn && o3.asked.None?
  {
  }

  // ---------------------------------------------------------------- crumb

  /** The body of a successful crumb reply: unparseable JSON, or what Gson
      produced (`None` when it yields null, e.g. for an empty body). */
  datatype CrumbBody = Malformed | Parsed(crumb: Option<Crumb>)

  datatype CrumbReply = CrumbTransport(message: string) | CrumbStatus(code: int, body: Option<CrumbBody>)

  /** The repository after the call, the crumb returned, and whether a
      request was sent. */
  datatype CrumbOutcome = CrumbOutcome(repo: Repo, crumb: Option<Crumb>, requested: bool)

  /** A reply that yields a crumb. */
  predicate Yields(reply: CrumbReply, c: Crumb) {
    reply.CrumbStatus? && IsSuccessful(reply.code) && reply.body == Some(Parsed(Some(c)))
  }

  /** `fetchCrumbDirect`: a cached crumb is returned without a request; without
      a configured client nothing is sent; otherwise only a 2xx reply with a
      crumb fills the cache, and every other outcome returns null with the
      cache still empty. */
  function FetchCrumbDirect(r: Repo, reply: CrumbReply): (o: CrumbOutcome)
    ensures r.crumb.Some? ==> o == CrumbOutcome(r, r.crumb, false)
    ensures r.crumb.None? ==> (o.requested <==> r.current.Some? && r.client.Some?)
    ensures o.repo == r.(crumb := o.repo.crumb)
    ensures o.repo.crumb == (if r.crumb.Some? then r.crumb else o.crumb)
    ensures r.crumb.None? ==>
      (o.crumb.Some? <==> o.requested && exists c :: Yields(reply, c) && o.crumb == Some(c))
  {
    if r.crumb.Some? then CrumbOutcome(r, r.crumb, false)
    else if r.current.None? || r.client.None? then CrumbOutcome(r, None, false)
    else
      match reply
      case CrumbTransport(_) => CrumbOutcome(r, None, true)
      case CrumbStatus(code, body) =>
        if IsSuccessful(code) && body.Some? && body.value.Parsed? && body.value.crumb.Some? then
          CrumbOutcome(r.(crumb := body.value.crumb), body.value.crumb, true)
        else CrumbOutcome(r, None, true)
  }

  // ---------------------------------------------------------------- trigger

  datatype Request =
    | CrumbGet(url: string, auth: string)
    | TriggerPost(url: string, form: map<string, string>, crumb: Option<Crumb>, auth: string)

  datatype TriggerOutcome = TriggerOutcome(repo: Repo, result: ApiResult<bool>, requests: seq<Request>)

  function CrumbUrl(s: Server): string {
    AndroidBaseUrl(s) + "/crumbIssuer/api/json"
  }

  /** `executeTriggerBuild` for an already-built URL: the crumb is fetched
      first, the POST carries the form (empty when there are no parameters),
      the credentials, and the crumb header only when a crumb was obtained. */
  function ExecuteTriggerBuild(r: Repo, url: string, parameters: Option<map<string, string>>,
                               crumbReply: CrumbReply, postReply: Reply): (o: TriggerOutcome)
    ensures r.current.None? || r.client.None? ==> o == TriggerOutcome(r, Error(NotConfigured, None), [])
    ensures r.current.Some? && r.client.Some? ==>
      var f := FetchCrumbDirect(r, crumbReply);
      o.repo == f.repo &&
      o.requests == (if f.requested then [CrumbGet(CrumbUrl(r.current.value), AuthHeader(r.current.value))] else []) +
                    [TriggerPost(url, parameters.GetOr(map[]), f.crumb, AuthHeader(r.current.value))]
    ensures postReply.Status? && (r.current.Some? && r.client.Some?) ==> o.result == TriggerStatus(postReply.code)
    ensures postReply.Transport? && (r.current.Some? && r.client.Some?) ==>
      o.result == Error(NetworkError(postReply.message), None)
  {
    if r.current.None? || r.client.None? then TriggerOutcome(r, Error(NotConfigured, None), [])
    else
      var s := r.current.value;
      var f := FetchCrumbDirect(r, crumbReply);
      var get := if f.requested then [CrumbGet(CrumbUrl(s), AuthHeader(s))] else [];
      var post := TriggerPost(url, parameters.GetOr(map[]), f.crumb, AuthHeader(s));
      var result := match postReply
        case Transport(msg) => Error(NetworkError(msg), None)
        case Status(c) => TriggerStatus(c);
      TriggerOutcome(f.repo, result, get + [post])
  }

  function CountCrumbGets(rs: seq<Request>): nat
    decreases |rs|
  {
    if rs == [] then 0 else (if rs[0].CrumbGet? then 1 else 0) + CountCrumbGets(rs[1..])
  }

  lemma CountCrumbGetsAppend(a: seq<Request>, b: seq<Request>)
    ensures CountCrumbGets(a + b) == CountCrumbGets(a) + CountCrumbGets(b)
  {
    if a != [] {
      assert (a + b)[1..] == a[1..] + b;
      CountCrumbGetsAppend(a[1..], b);
    } else {
      assert a + b == b;
    }
  }

  /** A trigger with nothing cached fetches the crumb once and caches it. */
  lemma FirstTrigger(r: Repo, url: string, p: Option<map<string, string>>, c: Crumb, post: Reply)
    requires r.current.Some? && r.client.Some? && r.crumb.None?
    ensures
      var o := ExecuteTriggerBuild(r, url, p, CrumbStatus(200, Some(Parsed(Some(c)))), post);
      var s := r.current.value;
      o.repo == r.(crumb := Some(c)) &&
      o.requests == [CrumbGet(CrumbUrl(s), AuthHeader(s)), TriggerPost(url, p.GetOr(map[]), Some(c), AuthHeader(s))]
  {
    var f := FetchCrumbDirect(r, CrumbStatus(200, Some(Parsed(Some(c)))));
    assert f.requested && f.crumb == Some(c) && f.repo == r.(crumb := Some(c));
  }

  /** With a cached crumb the trigger sends the POST alone, carrying it. */
  lemma CachedTrigger(r: Repo, url: string, p: Option<map<string, string>>, reply: CrumbReply, post: Reply)
    requires r.current.Some? && r.client.Some? && r.crumb.Some?
    ensures
      var o := ExecuteTriggerBuild(r, url, p, reply, post);
      o.repo == r && o.requests == [TriggerPost(url, p.GetOr(map[]), r.crumb, AuthHeader(r.current.value))]
  {
    assert FetchCrumbDirect(r, reply) == CrumbOutcome(r, r.crumb, false);
  }

  /** Two triggers in a row after a successful crumb fetch: one crumb request
      in total, and the second POST reuses the cached crumb. */
  lemma TwoTriggersOneCrumbRequest(r: Repo, url: string, p1: Option<map<string, string>>, p2: Option<map<string, string>>,
                                   c: Crumb, reply2: CrumbReply, post1: Reply, post2: Reply)
    requires r.current.Some? && r.client.Some? && r.crumb.None?
    ensures
      var o1 := ExecuteTriggerBuild(r, url, p1, CrumbStatus(200, Some(Parsed(Some(c)))), post1);
      var o2 := ExecuteTriggerBuild(o1.repo, url, p2, reply2, post2);
      CountCrumbGets(o1.requests + o2.requests) == 1 &&
      o2.requests == [TriggerPost(url, p2.GetOr(map[]), Some(c), AuthHeader(r.current.value))]
  {
    var o1 := ExecuteTriggerBuild(r, url, p1, CrumbStatus(200, Some(Parsed(Some(c)))), post1);
    FirstTrigger(r, url, p1, c, post1);
    var o2 := ExecuteTriggerBuild(o1.repo, url, p2, reply2, post2);
    CachedTrigger(o1.repo, url, p2, reply2, post2);
    OneGetThenPosts(o1.requests, o2.requests);
  }

  /** A crumb request and a POST, then one more POST: one crumb request. */
  lemma OneGetThenPosts(a: seq<Request>, b: seq<Request>)
    requires |a| == 2 && a[0].CrumbGet? && a[1].TriggerPost?
    requires |b| == 1 && b[0].TriggerPost?
    ensures CountCrumbGets(a + b) == 1
  {
    CountCrumbGetsAppend(a, b);
    assert a[1..][1..] == [] && b[1..] == [];
  }

  /** Without a crumb the POST is still sent, just without the header, and
      the next trigger asks for a crumb again. */
  lemma MissingCrumbStillPosts(r: Repo, url: string, p: Option<map<string, string>>, reply: CrumbReply, post: Reply)
    requires r.current.Some? && r.client.Some? && r.crumb.None?
    requires forall c :: !Yields(reply, c)
    ensures
      var o := ExecuteTriggerBuild(r, url, p, reply, post);
      o.requests[|o.requests| - 1] == TriggerPost(url, p.GetOr(map[]), None, AuthHeader(r.current.value)) &&
      o.repo == r && FetchCrumbDirect(o.repo, reply).requested
  {
  }

  /** A second configuration for the same server keeps the crumb; a different
      server drops it, as does logging out. */
  lemma CrumbInvalidation(r: Repo, s: Server, t: Server)
    requires r.current == Some(s) && r.api.Some? && s != t
    ensures ConfigureApi(r, s, None).0.crumb == r.crumb
    ensures ConfigureApi(r, t, None).0.crumb.None?
    ensures Logout(r).crumb.None?
  {
  }
}

=== FILE: base64.dfy ===
/** Octets and the base64 encoding of section 4 of RFC 4648 (standard alphabet,
    `=` padding, no line breaks), which both clients use for the Basic
    credentials. `Decode` is the reference partner that `Encode` round-trips
    through. */
module Base64 {
  import opened Wrappers
  import opened Bytes

  type Sextet = x: int | 0 <= x < 64

  /** Table 1 of RFC 4648: the character that encodes a 6-bit value. */
  function CharOf(v: Sextet): char {
    if v < 26 then ('A' as int + v) as char
    else if v < 52 then ('a' as int + (v - 26)) as char
    else if v < 62 then ('0' as int + (v - 52)) as char
    else if v == 62 then '+'
    else '/'
  }

  /** The 6-bit value of an alphabet character; `None` outside the alphabet (including `=`). */
  function ValueOf(c: char): (r: Option<Sextet>)
    ensures r.Some? ==> CharOf(r.value) == c
  {
    if 'A' <= c <= 'Z' then Some(c as int - 'A' as int)
    else if 'a' <= c <= 'z' then Some(c as int - 'a' as int + 26)
    else if '0' <= c <= '9' then Some(c as int - '0' as int + 52)
    else if c == '+' then Some(62)
    else if c == '/' then Some(63)
    else None
  }

  lemma ValueOfCharOf(v: Sextet)
    ensures ValueOf(CharOf(v)) == Some(v)
  {
  }

  /** Splitting `a * 16 + b` by 16 recovers both parts. */
  lemma Split16(a: int, b: int)
    requires 0 <= a && 0 <= b < 16
    ensures (a * 16 + b) / 16 == a && (a * 16 + b) % 16 == b
  {
  }

  /** Splitting `a * 4 + b` by 4 recovers both parts. */
  lemma Split4(a: int, b: int)
    requires 0 <= a && 0 <= b < 4
    ensures (a * 4 + b) / 4 == a && (a * 4 + b) % 4 == b
  {
  }

  /** Three octets become four characters. */
  function EncodeGroup(b0: Byte, b1: Byte, b2: Byte): string {
    [CharOf(b0 / 4), CharOf((b0 % 4) * 16 + b1 / 16), CharOf((b1 % 16) * 4 + b2 / 64), CharOf(b2 % 64)]
  }

  function Encode(b: seq<Byte>): (r: string)
    ensures |r| == 4 * ((|b| + 2) / 3)
    decreases |b|
  {
    if |b| == 0 then []
    else if |b| == 1 then PadTwo(b[0])
    else if |b| == 2 then PadOne(b[0], b[1])
    else EncodeGroup(b[0], b[1], b[2]) + Encode(b[3..])
  }

  /** Decodes one four-character group; the group may be padded only when `last`,
      and the bits a padded group leaves over must be zero (section 3.5 of
      RFC 4648), so that no two strings decode to the same octets. */
  function DecodeGroup(g: string, last: bool): Option<seq<Byte>>
    requires |g| == 4
  {
    var v0, v1, v2, v3 := ValueOf(g[0]), ValueOf(g[1]), ValueOf(g[2]), ValueOf(g[3]);
    if v0.None? || v1.None? then None
    else if v2.Some? && v3.Some? then
      Some([v0.value * 4 + v1.value / 16,
            (v1.value % 16) * 16 + v2.value / 4,
            (v2.value % 4) * 64 + v3.value])
    else if last && v2.Some? && g[3] == '=' && v2.value % 4 == 0 then
      Some([v0.value * 4 + v1.value / 16, (v1.value % 16) * 16 + v2.value / 4])
    else if last && g[2] == '=' && g[3] == '=' && v1.value % 16 == 0 then
      Some([v0.value * 4 + v1.value / 16])
    else None
  }

  /** Decodes padded base64; `None` for a length that is not a multiple of four or a bad character. */
  function Decode(s: string): Option<seq<Byte>>
    decreases |s|
  {
    if |s| == 0 then Some([])
    else if |s| < 4 then None
    else
      var head := DecodeGroup(s[..4], |s| == 4);
      if head.None? then None
      else
        var tail := Decode(s[4..]);
        if tail.None? then None else Some(head.value + tail.value)
  }

  lemma FullGroupRoundTrip(b0: Byte, b1: Byte, b2: Byte, last: bool)
    ensures DecodeGroup(EncodeGroup(b0, b1, b2), last) == Some([b0, b1, b2])
  {
    var v0, v1, v2, v3 := b0 / 4, (b0 % 4) * 16 + b1 / 16, (b1 % 16) * 4 + b2 / 64, b2 % 64;
    var g := EncodeGroup(b0, b1, b2);
    ValueOfCharOf(v0);
    ValueOfCharOf(v1);
    ValueOfCharOf(v2);
    ValueOfCharOf(v3);
    assert ValueOf(g[0]) == Some(v0) && ValueOf(g[1]) == Some(v1);
    assert ValueOf(g[2]) == Some(v2) && ValueOf(g[3]) == Some(v3);
    FullGroupArith(b0, b1, b2);
  }

  /** The sextets of a full group reassemble into its three octets. */
  lemma FullGroupArith(b0: Byte, b1: Byte, b2: Byte)
    ensures (b0 / 4) * 4 + ((b0 % 4) * 16 + b1 / 16) / 16 == b0
    ensures (((b0 % 4) * 16 + b1 / 16) % 16) * 16 + ((b1 % 16) * 4 + b2 / 64) / 4 == b1
    ensures (((b1 % 16) * 4 + b2 / 64) % 4) * 64 + b2 % 64 == b2
  {
    Split16(b0 % 4, b1 / 16);
    Split4(b1 % 16, b2 / 64);
  }

  lemma OneByteRoundTrip(b0: Byte)
    ensures DecodeGroup(PadTwo(b0), true) == Some([b0])
  {
    ValueOfCharOf(b0 / 4);
    ValueOfCharOf((b0 % 4) * 16);
    Split16(b0 % 4, 0);
  }

  lemma TwoByteRoundTrip(b0: Byte, b1: Byte)
    ensures DecodeGroup(PadOne(b0, b1), true) == Some([b0, b1])
  {
    ValueOfCharOf(b0 / 4);
    ValueOfCharOf((b0 % 4) * 16 + b1 / 16);
    ValueOfCharOf((b1 % 16) * 4);
    Split16(b0 % 4, b1 / 16);
    Split4(b1 % 16, 0);
  }

  /** Decoding a string proceeds group by group. */
  lemma DecodeCons(g: string, rest: string)
    requires |g| == 4
    ensures Decode(g + rest) ==
      (var head := DecodeGroup(g, rest == []);
       if head.None? then None
       else
         var tail := Decode(rest);
         if tail.None? then None else Some(head.value + tail.value))
  {
    var s := g + rest;
    assert s[..4] == g;
    assert s[4..] == rest;
  }

  /** The last group of a one-octet tail. */
  function PadTwo(b0: Byte): string {
    [CharOf(b0 / 4), CharOf((b0 % 4) * 16), '=', '=']
  }

  /** The last group of a two-octet tail. */
  function PadOne(b0: Byte, b1: Byte): string {
    [CharOf(b0 / 4), CharOf((b0 % 4) * 16 + b1 / 16), CharOf((b1 % 16) * 4), '=']
  }

  lemma DecodeLastGroup(g: string, bytes: seq<Byte>)
    requires |g| == 4 && DecodeGroup(g, true) == Some(bytes)
    ensures Decode(g) == Some(bytes)
  {
    DecodeCons(g, []);
    assert g + [] == g;
    assert Decode([]) == Some([]);
    assert bytes + [] == bytes;
  }

  lemma DecodeEncodeOne(b: seq<Byte>)
    requires |b| == 1
    ensures Decode(Encode(b)) == Some(b)
  {
    assert Encode(b) == PadTwo(b[0]);
    OneByteRoundTrip(b[0]);
    DecodeLastGroup(PadTwo(b[0]), [b[0]]);
    assert [b[0]] == b;
  }

  lemma DecodeEncodeTwo(b: seq<Byte>)
    requires |b| == 2
    ensures Decode(Encode(b)) == Some(b)
  {
    assert Encode(b) == PadOne(b[0], b[1]);
    TwoByteRoundTrip(b[0], b[1]);
    DecodeLastGroup(PadOne(b[0], b[1]), [b[0], b[1]]);
    assert [b[0], b[1]] == b;
  }

  lemma SplitThree(b: seq<Byte>)
    requires |b| >= 3
    ensures b == [b[0], b[1], b[2]] + b[3..]
  {
  }

  /** One full group in front of a tail that already round-trips. */
  lemma DecodeEncodeStep(b: seq<Byte>)
    requires |b| >= 3
    requires Decode(Encode(b[3..])) == Some(b[3..])
    ensures Decode(Encode(b)) == Some(b)
  {
    var g, rest := EncodeGroup(b[0], b[1], b[2]), Encode(b[3..]);
    assert Encode(b) == g + rest;
    FullGroupRoundTrip(b[0], b[1], b[2], rest == []);
    DecodeCons(g, rest);
    SplitThree(b);
  }

  /** Decoding undoes encoding for every octet string. */
  lemma {:induction false} DecodeEncode(b: seq<Byte>)
    ensures Decode(Encode(b)) == Some(b)
    decreases |b|
  {
    if |b| == 1 {
      DecodeEncodeOne(b);
    } else if |b| == 2 {
      DecodeEncodeTwo(b);
    } else if |b| >= 3 {
      DecodeEncode(b[3..]);
      DecodeEncodeStep(b);
    }
  }

  /** The octets of a full group re-encode to its four characters. */
  lemma FullGroupSextets(v0: Sextet, v1: Sextet, v2: Sextet, v3: Sextet)
    ensures var b0, b1, b2 := v0 * 4 + v1 / 16, (v1 % 16) * 16 + v2 / 4, (v2 % 4) * 64 + v3;
      b0 / 4 == v0 && (b0 % 4) * 16 + b1 / 16 == v1 && (b1 % 16) * 4 + b2 / 64 == v2 && b2 % 64 == v3
  {
    Split4(v0, v1 / 16);
    Split16(v1 % 16, v2 / 4);
    Split4(v2 / 4, v2 % 4);
    assert ((v2 % 4) * 64 + v3) / 64 == v2 % 4;
  }

  /** A group of four alphabet characters re-encodes from its octets. */
  lemma ReencodeFull(g: string)
    requires |g| == 4
    requires ValueOf(g[0]).Some? && ValueOf(g[1]).Some? && ValueOf(g[2]).Some? && ValueOf(g[3]).Some?
    ensures var v0, v1, v2, v3 := ValueOf(g[0]).value, ValueOf(g[1]).value, ValueOf(g[2]).value, ValueOf(g[3]).value;
      EncodeGroup(v0 * 4 + v1 / 16, (v1 % 16) * 16 + v2 / 4, (v2 % 4) * 64 + v3) == g
  {
    FullGroupSextets(ValueOf(g[0]).value, ValueOf(g[1]).value, ValueOf(g[2]).value, ValueOf(g[3]).value);
    assert g == [g[0], g[1], g[2], g[3]];
  }

  /** A group with one `=` and zero pad bits re-encodes from its two octets. */
  lemma ReencodeOne(g: string)
    requires |g| == 4 && g[3] == '='
    requires ValueOf(g[0]).Some? && ValueOf(g[1]).Some? && ValueOf(g[2]).Some? && ValueOf(g[2]).value % 4 == 0
    ensures var v0, v1, v2 := ValueOf(g[0]).value, ValueOf(g[1]).value, ValueOf(g[2]).value;
      Encode([v0 * 4 + v1 / 16, (v1 % 16) * 16 + v2 / 4]) == g
  {
    var v0: int, v1: int, v2: int := ValueOf(g[0]).value, ValueOf(g[1]).value, ValueOf(g[2]).value;
    FullGroupSextets(v0, v1, v2, 0);
    var b0: Byte, b1: Byte := v0 * 4 + v1 / 16, (v1 % 16) * 16 + v2 / 4;
    assert (b1 % 16) * 4 == v2;
    assert Encode([b0, b1]) == PadOne(b0, b1);
    assert g == [g[0], g[1], g[2], g[3]];
  }

  /** A group with two `=` and zero pad bits re-encodes from its one octet. */
  lemma ReencodeTwo(g: string)
    requires |g| == 4 && g[2] == '=' && g[3] == '='
    requires ValueOf(g[0]).Some? && ValueOf(g[1]).Some? && ValueOf(g[1]).value % 16 == 0
    ensures var v0, v1 := ValueOf(g[0]).value, ValueOf(g[1]).value;
      Encode([v0 * 4 + v1 / 16]) == g
  {
    var v0: int, v1: int := ValueOf(g[0]).value, ValueOf(g[1]).value;
    FullGroupSextets(v0, v1, 0, 0);
    var b0: Byte := v0 * 4 + v1 / 16;
    assert (b0 % 4) * 16 == v1;
    assert Encode([b0]) == PadTwo(b0);
    assert g == [g[0], g[1], g[2], g[3]];
  }

  /** A group the decoder accepts is the encoding of what it decodes to. */
  lemma EncodeDecodeGroup(g: string, last: bool)
    requires |g| == 4 && DecodeGroup(g, last).Some?
    ensures var b := DecodeGroup(g, last).value;
      (|b| == 3 && EncodeGroup(b[0], b[1], b[2]) == g) || (last && 1 <= |b| < 3 && Encode(b) == g)
  {
    if ValueOf(g[2]).Some? && ValueOf(g[3]).Some? {
      ReencodeFull(g);
    } else if last && ValueOf(g[2]).Some? && g[3] == '=' && ValueOf(g[2]).value % 4 == 0 {
      ReencodeOne(g);
    } else {
      ReencodeTwo(g);
    }
  }

  /** Encoding three octets in front of the rest. */
  lemma EncodeCons(b: seq<Byte>, rest: seq<Byte>)
    requires |b| == 3
    ensures Encode(b + rest) == EncodeGroup(b[0], b[1], b[2]) + Encode(rest)
  {
    assert (b + rest)[3..] == rest;
  }

  /** Every string the decoder accepts is the encoding of what it yields: the
      encoding is the one canonical spelling of its octets. */
  lemma {:induction false} EncodeDecode(s: string)
    requires Decode(s).Some?
    ensures Encode(Decode(s).value) == s
    decreases |s|
  {
    if |s| > 0 {
      var head := DecodeGroup(s[..4], |s| == 4).value;
      var tail := Decode(s[4..]).value;
      EncodeDecodeGroup(s[..4], |s| == 4);
      EncodeDecode(s[4..]);
      if |head| == 3 {
        EncodeCons(head, tail);
        assert s == s[..4] + s[4..];
      } else {
        assert tail == [] && head + tail == head;
        assert s == s[..4];
      }
    }
  }

  /** No two strings decode to the same octets. */
  lemma DecodeInjective(s: string, t: string)
    requires Decode(s).Some? && Decode(s) == Decode(t)
    ensures s == t
  {
    EncodeDecode(s);
    EncodeDecode(t);
  }

  /** A last group whose pad bits are not zero is refused. */
  lemma NonZeroPadBitsRejected()
    ensures Decode("Og==") == Some([58]) && Decode("Oh==").None?
  {
    assert ValueOf('O') == Some(14) && ValueOf('g') == Some(32) && ValueOf('h') == Some(33);
    DecodeLastGroup("Og==", [58]);
  }
}

=== FILE: build.dfy ===
/** A build record (Build.kt, Build.swift): its result, and the integer-only
    duration and relative-age texts the lists show. Times are milliseconds. */
module Builds {
  import opened Wrappers
  import opened Strings

  datatype BuildResult = Success | Failure | Unstable | Aborted | NotBuilt | Building | Unknown

  datatype Build = Build(
    number: int,
    url: string,
    result: Option<string>,
    timestamp: Option<int>,
    duration: Option<int>,
    building: Option<bool>)

  /** The Swift raw value of each case: the Jenkins spelling for the five
      outcomes, the case name for the two cases declared without one. */
  function RawValue(b: BuildResult): string {
    match b
    case Success => "SUCCESS"
    case Failure => "FAILURE"
    case Unstable => "UNSTABLE"
    case Aborted => "ABORTED"
    case NotBuilt => "NOT_BUILT"
    case Building => "building"
    case Unknown => "unknown"
  }

  /** Swift `BuildResult(rawValue:)`. */
  function FromRawValue(s: string): (r: Option<BuildResult>)
    ensures r.Some? ==> RawValue(r.value) == s
  {
    if s == "SUCCESS" then Some(Success)
    else if s == "FAILURE" then Some(Failure)
    else if s == "UNSTABLE" then Some(Unstable)
    else if s == "ABORTED" then Some(Aborted)
    else if s == "NOT_BUILT" then Some(NotBuilt)
    else if s == "building" then Some(Building)
    else if s == "unknown" then Some(Unknown)
    else None
  }

  /** Every case is found again from its raw value. */
  lemma FromRawValueRawValue(b: BuildResult)
    ensures FromRawValue(RawValue(b)) == Some(b)
  {
  }

  /** Android `buildResult`: building only when there is no result yet and the
      flag is set; otherwise an exact, case-sensitive match on the five outcomes. */
  function AndroidBuildResult(result: Option<string>, building: Option<bool>): (r: BuildResult)
    ensures result.None? ==> (r == Building <==> building == Some(true)) && (r == Building || r == Unknown)
    ensures result.Some? ==> r != Building
    ensures result.Some? && r != Unknown ==> RawValue(r) == result.value
    ensures result.Some? && r == Unknown ==> FromRawValue(result.value) in {None, Some(Building), Some(Unknown)}
  {
    if result.None? && building == Some(true) then Building
    else if result == Some("SUCCESS") then Success
    else if result == Some("FAILURE") then Failure
    else if result == Some("UNSTABLE") then Unstable
    else if result == Some("ABORTED") then Aborted
    else if result == Some("NOT_BUILT") then NotBuilt
    else Unknown
  }

  /** iOS `buildResult`: the same rule for a missing result, then a raw-value lookup. */
  function IosBuildResult(result: Option<string>, building: Option<bool>): (r: BuildResult)
    ensures r == AndroidBuildResult(result, building) <==> result != Some("building")
    ensures result.Some? && r != Unknown ==> RawValue(r) == result.value
  {
    match result
    case None => if building == Some(true) then Building else Unknown
    case Some(s) => FromRawValue(s).GetOr(Unknown)
  }

  /** The platforms disagree exactly on the result string "building", which iOS
      accepts as a raw value and Android does not know. */
  lemma BuildResultsDiffer(result: Option<string>, building: Option<bool>)
    ensures AndroidBuildResult(result, building) != IosBuildResult(result, building)
            <==> result == Some("building")
  {
  }

  // ---------------------------------------------------------------- integer division

  /** Floor division of a natural number brackets it between two multiples. */
  lemma DivBounds(a: int, b: int)
    requires a >= 0 && b > 0
    ensures 0 <= a / b && (a / b) * b <= a < (a / b) * b + b
  {
    var q, r := a / b, a % b;
    assert a == q * b + r && 0 <= r < b;
  }

  /** Division truncating toward zero, as Java's and Swift's `/` on integers. */
  function TDiv(a: int, b: int): (q: int)
    requires b > 0
    ensures a >= 0 ==> 0 <= q && q * b <= a < q * b + b
    ensures a < 0 ==> q <= 0 && q * b - b < a <= q * b
  {
    if a >= 0 then DivBounds(a, b); a / b
    else DivBounds(-a, b); -((-a) / b)
  }

  // ---------------------------------------------------------------- durations

  /** The fields `formattedDuration` prints. */
  datatype DurationText =
    | NoDuration                          // "-"
    | Secs(seconds: int)                  // "{s}秒"
    | MinSecs(minutes: int, seconds: int) // "{m}分{s}秒"
    | HoursMins(hours: int, minutes: int) // "{h}小时{m}分"

  /** Whole seconds of `d` milliseconds and the fields shown: minutes below 60,
      seconds below 60, and in the hour form the seconds dropped. */
  predicate DescribesSeconds(t: DurationText, s: int) {
    match t
    case NoDuration => false
    case Secs(x) => x == s && s < 60
    case MinSecs(m, x) => 1 <= m < 60 && 0 <= x < 60 && m * 60 + x == s
    case HoursMins(h, m) => 1 <= h && 0 <= m < 60 && h * 3600 + m * 60 <= s < h * 3600 + m * 60 + 60
  }

  /** Android `formattedDuration`, with `TimeUnit.MILLISECONDS.toSeconds` truncating. */
  function AndroidDuration(duration: Option<int>): (r: DurationText)
    ensures duration.None? <==> r == NoDuration
    ensures duration.Some? ==> DescribesSeconds(r, TDiv(duration.value, 1000))
  {
    match duration
    case None => NoDuration
    case Some(ms) =>
      var seconds := TDiv(ms, 1000);
      if seconds < 60 then Secs(seconds)
      else if seconds < 3600 then MinSecs(seconds / 60, seconds % 60)
      else HoursMins(seconds / 3600, (seconds % 3600) / 60)
  }

  /** iOS `formattedDuration`, with Swift's truncating `/` on `Int64`. */
  function IosDuration(duration: Option<int>): (r: DurationText)
    ensures r == AndroidDuration(duration)
    ensures duration.Some? ==> DescribesSeconds(r, TDiv(duration.value, 1000))
  {
    if duration.None? then NoDuration
    else
      var seconds := TDiv(duration.value, 1000);
      if seconds < 60 then Secs(seconds)
      else if seconds < 3600 then
        var minutes := seconds / 60;
        var secs := seconds % 60;
        MinSecs(minutes, secs)
      else
        var hours := seconds / 3600;
        var minutes := (seconds % 3600) / 60;
        HoursMins(hours, minutes)
  }

  /** Only one text describes a given number of seconds, so the fields are
      determined by the duration alone. */
  lemma {:induction false} DescribesSecondsUnique(t: DurationText, u: DurationText, s: int)
    requires DescribesSeconds(t, s) && DescribesSeconds(u, s)
    ensures t == u
  {
    if t.MinSecs? && u.MinSecs? {
      assert t.minutes == s / 60 by { DivLemma(t.minutes, t.seconds, 60, s); }
      assert u.minutes == s / 60 by { DivLemma(u.minutes, u.seconds, 60, s); }
    } else if t.HoursMins? && u.HoursMins? {
      var x := s - t.hours * 3600 - t.minutes * 60;
      var y := s - u.hours * 3600 - u.minutes * 60;
      assert t.hours == s / 3600 by { DivLemma(t.hours, t.minutes * 60 + x, 3600, s); }
      assert u.hours == s / 3600 by { DivLemma(u.hours, u.minutes * 60 + y, 3600, s); }
      assert t.minutes == (s - t.hours * 3600) / 60 by { DivLemma(t.minutes, x, 60, s - t.hours * 3600); }
      assert u.minutes == (s - u.hours * 3600) / 60 by { DivLemma(u.minutes, y, 60, s - u.hours * 3600); }
    }
  }

  lemma DivLemma(q: int, r: int, k: int, n: int)
    requires k == 60 || k == 3600
    requires 0 <= r < k && n == q * k + r
    ensures q == n / k
  {
  }

  /** Both platforms show the same text for every duration. */
  lemma DurationsAgree(duration: Option<int>)
    ensures IosDuration(duration) == AndroidDuration(duration)
  {
  }

  function RenderDuration(t: DurationText): string {
    match t
    case NoDuration => "-"
    case Secs(s) => IntToString(s) + "秒"
    case MinSecs(m, s) => IntToString(m) + "分" + IntToString(s) + "秒"
    case HoursMins(h, m) => IntToString(h) + "小时" + IntToString(m) + "分"
  }

  function FormattedDuration(duration: Option<int>): string {
    RenderDuration(AndroidDuration(duration))
  }

  lemma DurationExamples()
    ensures AndroidDuration(Some(59_999)) == Secs(59)
    ensures AndroidDuration(Some(61_000)) == MinSecs(1, 1)
    ensures AndroidDuration(Some(3_661_000)) == HoursMins(1, 1)
    ensures AndroidDuration(Some(-1_500)) == Secs(-1)
  {
  }

  // ---------------------------------------------------------------- relative age

  const MinuteMs := 60_000
  const HourMs := 3_600_000
  const DayMs := 86_400_000

  /** The phrase Android `formattedTimestamp` picks for a start time. */
  datatype Age =
    | NoDate             // "-"
    | JustNow            // "刚刚"
    | MinutesAgo(n: int) // "{n}分钟前"
    | HoursAgo(n: int)   // "{n}小时前"
    | DaysAgo(n: int)    // "{n}天前"
    | MonthsAgo(n: int)  // "{n}个月前"
    | YearsAgo(n: int)   // "{n}年前"

  /** Android `formattedTimestamp` with the clock reading `now` passed in: every
      unit is the truncated quotient of the same difference, checked in order. */
  function AndroidAge(timestamp: Option<int>, now: int): (r: Age)
    ensures timestamp.None? <==> r == NoDate
    ensures timestamp.Some? ==> var diff := now - timestamp.value;
      (r == JustNow <==> diff < MinuteMs)
      && (r.MinutesAgo? ==> 1 <= r.n < 60 && r.n * MinuteMs <= diff < (r.n + 1) * MinuteMs)
      && (r.HoursAgo? ==> 1 <= r.n < 24 && r.n * HourMs <= diff < (r.n + 1) * HourMs)
      && (r.DaysAgo? ==> 1 <= r.n < 30 && r.n * DayMs <= diff < (r.n + 1) * DayMs)
      && (r.MonthsAgo? ==> 1 <= r.n <= 12 && 30 * r.n * DayMs <= diff < 365 * DayMs && diff < 30 * (r.n + 1) * DayMs)
      && (r.YearsAgo? ==> 1 <= r.n && 365 * r.n * DayMs <= diff < 365 * (r.n + 1) * DayMs)
  {
    match timestamp
    case None => NoDate
    case Some(t) =>
      var diff := now - t;
      var seconds := TDiv(diff, 1000);
      var minutes := TDiv(diff, MinuteMs);
      var hours := TDiv(diff, HourMs);
      var days := TDiv(diff, DayMs);
      if seconds < 60 then JustNow
      else if minutes < 60 then MinutesAgo(minutes)
      else if hours < 24 then HoursAgo(hours)
      else if days < 30 then DaysAgo(days)
      else if days < 365 then MonthsAgo(days / 30)
      else YearsAgo(days / 365)
  }

  /** How far back a phrase reaches, for comparing phrases. */
  function AgeRank(a: Age): int {
    match a
    case NoDate => 0
    case JustNow => 1
    case MinutesAgo(n) => 2
    case HoursAgo(n) => 3
    case DaysAgo(n) => 4
    case MonthsAgo(n) => 5
    case YearsAgo(n) => 6
  }

  /** As the clock advances, the phrase never falls back to a shorter unit. */
  lemma AgeMonotone(t: int, now1: int, now2: int)
    requires now1 <= now2
    ensures AgeRank(AndroidAge(Some(t), now1)) <= AgeRank(AndroidAge(Some(t), now2))
  {
  }

  function RenderAge(a: Age): string {
    match a
    case NoDate => "-"
    case JustNow => "刚刚"
    case MinutesAgo(n) => IntToString(n) + "分钟前"
    case HoursAgo(n) => IntToString(n) + "小时前"
    case DaysAgo(n) => IntToString(n) + "天前"
    case MonthsAgo(n) => IntToString(n) + "个月前"
    case YearsAgo(n) => IntToString(n) + "年前"
  }

  function FormattedTimestamp(timestamp: Option<int>, now: int): string {
    RenderAge(AndroidAge(timestamp, now))
  }

  lemma AgeExamples()
    ensures AndroidAge(Some(1_000), 0) == JustNow
    ensures AndroidAge(Some(0), 364 * DayMs) == MonthsAgo(12)
    ensures AndroidAge(Some(0), 730 * DayMs) == YearsAgo(2)
  {
  }
}

=== FILE: build_actions.dfy ===
/** What both build-detail screens share: the part of a build's detail they
    read, the calls their actions make, and the rebuild dialog's
    definitions, prefilled from the build being rebuilt. */
module BuildActions {
  import opened Wrappers
  import opened Parameters

  /** A build's detail. Only the parameters it ran with are read by the
      actions modelled here; the rest of the response is shown, not used. */
  datatype BuildDetail = BuildDetail(buildParameters: seq<BuildParameter>)

  /** A call into the repository (Android) or API service (iOS). */
  datatype Call =
    | GetBuildDetail
    | GetLog
    | GetJobDetail
    | TriggerRebuild(parameters: map<string, string>)
    | Delete

  /** The state after an action and the calls it made, in order. */
  datatype Step<+S> = Step(state: S, calls: seq<Call>)

  /** How many rebuild triggers a list of calls contains. */
  function Rebuilds(calls: seq<Call>): nat
    decreases |calls|
  {
    if calls == [] then 0 else (if calls[0].TriggerRebuild? then 1 else 0) + Rebuilds(calls[1..])
  }

  /** The parameters of the build on screen; none before its detail arrived. */
  function CurrentParameters(detail: Option<BuildDetail>): seq<BuildParameter> {
    if detail.Some? then detail.value.buildParameters else []
  }

  /** The rebuild dialog's definitions: the job's, each starting from the
      value this build ran with where it has one. */
  function RebuildDefinitions(detail: Option<BuildDetail>, job: JobDetail): (r: seq<ParameterDefinition>)
    ensures |r| == |Definitions(job)|
    ensures forall i :: 0 <= i < |r| ==> r[i].name == Definitions(job)[i].name
    ensures detail.None? ==> r == Definitions(job)
  {
    PrefillWithoutBuildParameters(Definitions(job));
    Prefill(Definitions(job), CurrentParameters(detail))
  }

  /** The editor starts each rebuild parameter at the build's own value when
      the build has one for that name, and at the job's default otherwise. */
  lemma RebuildStartsFromBuild(detail: Option<BuildDetail>, job: JobDetail, i: int)
    requires 0 <= i < |Definitions(job)|
    ensures var d := Definitions(job)[i];
            var v := CurrentValue(CurrentParameters(detail), d.name);
            DefaultValue(RebuildDefinitions(detail, job)[i]) == if v.Some? then v.value else DefaultValue(d)
  {
    PrefillDefaultValue(Definitions(job), CurrentParameters(detail), i);
  }
}

=== FILE: bytes.dfy ===
/** Octets, shared by the text and transfer encodings. */
module Bytes {
  type Byte = x: int | 0 <= x < 256
}

=== FILE: cookie_jar.dfy ===
/** The in-memory cookie jar the Android client installs on its HTTP client
    so that the CSRF crumb and the session cookie travel together: one list
    of cookies per host, where a cookie received for a host replaces any
    stored cookie of the same name. Cookie attributes other than name and
    value (domain, path, expiry, flags) play no part in the jar's logic. */
module CookieJar {
  import opened Wrappers

  datatype Cookie = Cookie(name: string, value: string)

  type Jar = map<string, seq<Cookie>>

  /** No two cookies in the list share a name. */
  predicate UniqueNames(l: seq<Cookie>) {
    forall i, j :: 0 <= i < j < |l| ==> l[i].name != l[j].name
  }

  /** Every host's list has unique names. */
  predicate WellFormed(jar: Jar) {
    forall h :: h in jar ==> UniqueNames(jar[h])
  }

  /** The first cookie of the list with that name. */
  function Find(l: seq<Cookie>, name: string): (r: Option<Cookie>)
    ensures r.Some? ==> r.value in l && r.value.name == name
    ensures r.None? <==> forall c :: c in l ==> c.name != name
    decreases |l|
  {
    if l == [] then None
    else if l[0].name == name then Some(l[0])
    else Find(l[1..], name)
  }

  /** `removeAll { it.name == name }`. */
  function RemoveNamed(l: seq<Cookie>, name: string): (r: seq<Cookie>)
    ensures forall c :: c in r <==> c in l && c.name != name
    decreases |l|
  {
    if l == [] then []
    else if l[0].name == name then RemoveNamed(l[1..], name)
    else [l[0]] + RemoveNamed(l[1..], name)
  }

  /** Removing one cookie name and appending the new cookie. */
  function SaveOne(l: seq<Cookie>, c: Cookie): seq<Cookie> {
    RemoveNamed(l, c.name) + [c]
  }

  /** The received cookies applied in order. */
  function SaveAll(l: seq<Cookie>, cookies: seq<Cookie>): seq<Cookie>
    decreases |cookies|
  {
    if cookies == [] then l else SaveAll(SaveOne(l, cookies[0]), cookies[1..])
  }

  /** `saveFromResponse`: the host's list is created when missing, then every
      received cookie replaces its namesake. */
  function SaveFromResponse(jar: Jar, host: string, cookies: seq<Cookie>): (r: Jar)
    ensures host in r
    ensures forall h :: h != host ==> (h in r <==> h in jar) && (h in jar ==> r[h] == jar[h])
  {
    var l := if host in jar then jar[host] else [];
    jar[host := SaveAll(l, cookies)]
  }

  /** `loadForRequest`: the host's list, or nothing for a host never seen. */
  function LoadForRequest(jar: Jar, host: string): (r: seq<Cookie>)
    ensures host !in jar ==> r == []
  {
    if host in jar then jar[host] else []
  }

  /** The last received cookie with that name. */
  function LastNamed(cookies: seq<Cookie>, name: string): Option<Cookie>
    decreases |cookies|
  {
    if cookies == [] then None
    else
      var later := LastNamed(cookies[1..], name);
      if later.Some? then later else if cookies[0].name == name then Some(cookies[0]) else None
  }

  // ---------------------------------------------------------------- which cookie is kept

  lemma {:induction false} FindAppend(a: seq<Cookie>, b: seq<Cookie>, name: string)
    ensures Find(a + b, name) == if Find(a, name).Some? then Find(a, name) else Find(b, name)
    decreases |a|
  {
    if a != [] {
      assert (a + b)[0] == a[0];
      assert (a + b)[1..] == a[1..] + b;
      FindAppend(a[1..], b, name);
    } else {
      assert a + b == b;
    }
  }

  lemma {:induction false} FindRemoveNamed(l: seq<Cookie>, removed: string, name: string)
    requires removed != name
    ensures Find(RemoveNamed(l, removed), name) == Find(l, name)
    decreases |l|
  {
    if l != [] {
      FindRemoveNamed(l[1..], removed, name);
      if l[0].name != removed {
        FindAppend([l[0]], RemoveNamed(l[1..], removed), name);
      }
    }
  }

  /** After one cookie is saved, its name finds it and every other name
      finds what it found before. */
  lemma FindSaveOne(l: seq<Cookie>, c: Cookie, name: string)
    ensures Find(SaveOne(l, c), name) == if name == c.name then Some(c) else Find(l, name)
  {
    FindAppend(RemoveNamed(l, c.name), [c], name);
    if name != c.name {
      FindRemoveNamed(l, c.name, name);
    }
  }

  /** The jar keeps, for every name, the latest received cookie, and the
      previously stored one when none of that name arrived. */
  lemma {:induction false} FindSaveAll(l: seq<Cookie>, cookies: seq<Cookie>, name: string)
    ensures Find(SaveAll(l, cookies), name) ==
      if LastNamed(cookies, name).Some? then LastNamed(cookies, name) else Find(l, name)
    decreases |cookies|
  {
    if cookies != [] {
      FindSaveAll(SaveOne(l, cookies[0]), cookies[1..], name);
      FindSaveOne(l, cookies[0], name);
    }
  }

  // ---------------------------------------------------------------- one cookie per name

  lemma {:induction false} RemoveNamedUnique(l: seq<Cookie>, name: string)
    requires UniqueNames(l)
    ensures UniqueNames(RemoveNamed(l, name))
    decreases |l|
  {
    if l != [] {
      RemoveNamedUnique(l[1..], name);
      if l[0].name != name {
        var t := RemoveNamed(l[1..], name);
        forall c | c in t ensures c.name != l[0].name {
          var k :| 1 <= k < |l| && l[k] == c;
        }
        var r := [l[0]] + t;
        forall i, j | 0 <= i < j < |r| ensures r[i].name != r[j].name {
          if i > 0 {
            assert r[i] == t[i - 1] && r[j] == t[j - 1];
          } else {
            assert r[j] == t[j - 1] && r[j] in t;
          }
        }
      }
    }
  }

  lemma SaveOneUnique(l: seq<Cookie>, c: Cookie)
    requires UniqueNames(l)
    ensures UniqueNames(SaveOne(l, c))
  {
    var t := RemoveNamed(l, c.name);
    RemoveNamedUnique(l, c.name);
    var r := t + [c];
    forall i, j | 0 <= i < j < |r| ensures r[i].name != r[j].name {
      if j == |r| - 1 {
        assert r[i] == t[i] && r[i] in t;
      } else {
        assert r[i] == t[i] && r[j] == t[j];
      }
    }
  }

  lemma {:induction false} SaveAllUnique(l: seq<Cookie>, cookies: seq<Cookie>)
    requires UniqueNames(l)
    ensures UniqueNames(SaveAll(l, cookies))
    decreases |cookies|
  {
    if cookies != [] {
      SaveOneUnique(l, cookies[0]);
      SaveAllUnique(SaveOne(l, cookies[0]), cookies[1..]);
    }
  }

  /** Saving keeps at most one cookie per name for every host. */
  lemma SaveFromResponseWellFormed(jar: Jar, host: string, cookies: seq<Cookie>)
    requires WellFormed(jar)
    ensures WellFormed(SaveFromResponse(jar, host, cookies))
  {
    var l := if host in jar then jar[host] else [];
    SaveAllUnique(l, cookies);
  }

  /** What a later request to the host carries, name by name. */
  lemma SaveThenLoad(jar: Jar, host: string, cookies: seq<Cookie>, name: string)
    ensures Find(LoadForRequest(SaveFromResponse(jar, host, cookies), host), name) ==
      if LastNamed(cookies, name).Some? then LastNamed(cookies, name) else Find(LoadForRequest(jar, host), name)
  {
    var l := if host in jar then jar[host] else [];
    FindSaveAll(l, cookies, name);
  }

  /** A second session cookie replaces the first instead of joining it. */
  lemma ReplacesSameName()
    ensures LoadForRequest(
      SaveFromResponse(SaveFromResponse(map[], "h", [Cookie("JSESSIONID", "a")]), "h", [Cookie("JSESSIONID", "b")]), "h")
      == [Cookie("JSESSIONID", "b")]
  {
    assert SaveAll([], [Cookie("JSESSIONID", "a")]) == [Cookie("JSESSIONID", "a")];
    assert RemoveNamed([Cookie("JSESSIONID", "a")], "JSESSIONID") == [];
  }
}

=== FILE: dashboard.dfy ===
/** The vocabulary both dashboard view models share: which job list is
    fetched, the repository calls an action makes, and one action's effect on
    the screen state. A view model's actions are sequential steps that take
    the replies of their calls as arguments. */
module Dashboard {
  import opened Wrappers
  import opened Strings
  import Views

  /** Where the job list comes from: every job, or the jobs of a named view. */
  datatype JobsSource = AllJobs | ViewJobs(name: string)

  /** A call into the repository (Android) or API service (iOS). */
  datatype Call =
    | ListViews
    | ListJobs(source: JobsSource)
    | JobDetail(url: string)
    | Trigger(url: string, parameters: Option<map<string, string>>)

  /** The state after an action, the calls it made in order, and whether it
      scheduled the delayed refresh that follows a successful trigger. */
  datatype Step<+S> = Step(state: S, calls: seq<Call>, refreshLater: bool)

  /** How many build triggers a list of calls contains. */
  function Triggers(calls: seq<Call>): nat
    decreases |calls|
  {
    if calls == [] then 0 else (if calls[0].Trigger? then 1 else 0) + Triggers(calls[1..])
  }

  lemma TriggersAppend(a: seq<Call>, b: seq<Call>)
    ensures Triggers(a + b) == Triggers(a) + Triggers(b)
  {
    if a != [] {
      assert (a + b)[1..] == a[1..] + b;
      TriggersAppend(a[1..], b);
    } else {
      assert a + b == b;
    }
  }

  /** The view a tab index denotes, if there is one. */
  function ViewAt(views: seq<Views.JenkinsView>, index: nat): (r: Option<Views.JenkinsView>)
    ensures r.None? <==> index >= |views|
    ensures r.Some? ==> r.value == views[index]
  {
    if index < |views| then Some(views[index]) else None
  }

  /** The "all" view lists every job: the test is case-blind on both platforms. */
  predicate NamesAllView(name: string) {
    Lower(name) == "all"
  }

  /** Android's `equals("all", ignoreCase = true)` and iOS's
      `lowercased() == "all"` are the same test, passed by exactly the eight
      case variants of "all". */
  lemma NamesAllViewIff(name: string)
    ensures NamesAllView(name) <==> EqualsIgnoreCase(name, "all")
    ensures NamesAllView(name) <==> name in Views.AllSpellings
  {
    assert Lower("all") == "all";
    Views.IgnoreCaseAllSpellings(name);
  }
}

=== FILE: ios_api.dfy ===
/** The decision logic of the iOS `JenkinsAPI` service: how a reply becomes
    data or an `APIError`, the messages those errors show, the memoised CSRF
    crumb that `configure` clears, the requests a GET or a POST sends, and
    the connection check used at login. Replies and decoded bodies are
    inputs; `URL(string:)`/`URLComponents(string:)` is a parser supplied by
    the caller, so a URL that does not parse is an input too. */
module IosApi {
  import opened Wrappers
  import opened Strings
  import opened Servers
  import UrlPath
  import AndroidRepository

  // ---------------------------------------------------------------- errors

  datatype ApiError =
    | InvalidUrl
    | InvalidResponse
    | Unauthorized
    | ServerError(code: int)
    | DecodingError(detail: string)
    | NetworkError(detail: string)

  /** `errorDescription`; a wrapped error contributes its own description. */
  function Description(e: ApiError): string {
    match e
    case InvalidUrl => "无效的URL"
    case InvalidResponse => "无效的服务器响应"
    case Unauthorized => "认证失败，请检查用户名和API Token"
    case ServerError(code) => "服务器错误: " + IntToString(code)
    case DecodingError(d) => "数据解析错误: " + d
    case NetworkError(d) => "网络错误: " + d
  }

  /** Different errors never show the same text. */
  lemma DescriptionInjective(a: ApiError, b: ApiError)
    ensures Description(a) == Description(b) ==> a == b
  {
    if Description(a) == Description(b) {
      var da, db := Description(a), Description(b);
      assert da[0] == db[0];
      if a.InvalidUrl? || a.InvalidResponse? {
        assert da[3] == db[3];
      } else if a.ServerError? {
        var p := "服务器错误: ";
        assert b.ServerError?;
        assert IntToString(a.code) == da[|p|..];
        assert IntToString(b.code) == db[|p|..];
        IntToStringInjective(a.code, b.code);
      } else if a.DecodingError? {
        var p := "数据解析错误: ";
        assert b.DecodingError?;
        assert a.detail == da[|p|..] && b.detail == db[|p|..];
      } else if a.NetworkError? {
        var p := "网络错误: ";
        assert b.NetworkError?;
        assert a.detail == da[|p|..] && b.detail == db[|p|..];
      }
    }
  }

  /** The texts iOS shows for a refused login, a server error and a network
      error are the ones the Android repository builds. */
  lemma DescriptionsMatchAndroid(code: int, detail: string)
    ensures Description(Unauthorized) == AndroidRepository.LoginAuthFailed
    ensures Description(ServerError(code)) == AndroidRepository.ServerError(code)
    ensures Description(NetworkError(detail)) == AndroidRepository.NetworkError(detail)
  {
  }

  // ---------------------------------------------------------------- replies

  /** What `URLSession` produced: a thrown error (never an `APIError`), a
      response that is not HTTP, or an HTTP status. */
  datatype Reply = Thrown(detail: string) | NotHttp | Http(code: int)

  /** `performRequest`: a 2xx is data; a 302 (or 201) is data only when the
      caller allows redirects; 401/403 are `unauthorized`; every other code
      is `serverError` with that code; an `APIError` raised inside passes
      through and anything else thrown becomes `networkError`. */
  function PerformRequest(reply: Reply, allowRedirect: bool): (r: Result<(), ApiError>)
    ensures r.Ok? <==> reply.Http? && (AndroidRepository.IsSuccessful(reply.code) || (allowRedirect && reply.code == 302))
    ensures reply.Thrown? ==> r == Err(NetworkError(reply.detail))
    ensures reply.NotHttp? ==> r == Err(InvalidResponse)
    ensures reply.Http? && r.Err? ==>
      r.error == (if AndroidRepository.IsAuthFailure(reply.code) then Unauthorized else ServerError(reply.code))
  {
    match reply
    case Thrown(d) => Err(NetworkError(d))
    case NotHttp => Err(InvalidResponse)
    case Http(code) =>
      if 200 <= code <= 299 then Ok(())
      else if allowRedirect && (code == 201 || code == 302) then Ok(())
      else if code == 401 || code == 403 then Err(Unauthorized)
      else Err(ServerError(code))
  }

  /** A GET does not follow Jenkins' 302: it is a server error there. */
  lemma GetRejectsRedirect()
    ensures PerformRequest(Http(302), false) == Err(ServerError(302))
    ensures PerformRequest(Http(302), true) == Ok(())
  {
  }

  /** A POST succeeds on exactly the codes the Android trigger accepts, and a
      failure shows the same text except for 401/403, where iOS names the
      credentials and Android only says authentication failed. */
  lemma PostAgreesWithAndroid(code: int)
    ensures PerformRequest(Http(code), true).Ok? <==> AndroidRepository.TriggerStatus(code).Success?
    ensures PerformRequest(Http(code), true).Err? && !AndroidRepository.IsAuthFailure(code) ==>
      Description(PerformRequest(Http(code), true).error) == AndroidRepository.TriggerStatus(code).message
    ensures AndroidRepository.IsAuthFailure(code) ==>
      Description(PerformRequest(Http(code), true).error) != AndroidRepository.TriggerStatus(code).message
  {
    if AndroidRepository.IsAuthFailure(code) {
      assert |AndroidRepository.AuthFailed| < |Description(Unauthorized)|;
    }
  }

  // ---------------------------------------------------------------- URLs and requests

  /** `URLComponents(string:)`: the parsed form of a URL string, or `None`
      when it does not parse. `URL(string:)` succeeds on the same strings. */
  type Parser = string -> Option<UrlPath.Components>

  /** `buildURL`: the base must parse; the path and query are then applied. */
  function BuildUrl(parse: Parser, base: string, path: Option<string>, query: Option<string>): (r: Result<UrlPath.Components, ApiError>)
    ensures r.Err? <==> parse(base).None?
    ensures r.Err? ==> r.error == InvalidUrl
    ensures r.Ok? ==> r.value.rest == parse(base).value.rest
    ensures r.Ok? && path.Some? ==> r.value.path == UrlPath.JoinPath(parse(base).value.path, path.value)
    ensures r.Ok? && query.None? ==> r.value.queryItems == parse(base).value.queryItems
  {
    match parse(base)
    case None => Err(InvalidUrl)
    case Some(c) => Ok(UrlPath.BuildComponents(c, path, query))
  }

  datatype Crumb = Crumb(crumb: string, crumbRequestField: string)

  datatype Method = Get | Post

  /** A request as sent: verb, URL, the server whose `authHeader` it
      carries, whether JSON is asked for, the crumb header, and the form when
      a body is attached. */
  datatype Request = Request(
    verb: Method,
    url: UrlPath.Components,
    signer: Server,
    acceptJson: bool,
    crumb: Option<Crumb>,
    form: Option<map<string, string>>)

  /** The service's fields: the configured server, its `baseURL` as parsed
      (`None` when `URL(string:)` refuses the normalised string), and the
      cached crumb. */
  datatype Api = Api(server: Option<Server>, baseUrl: Option<UrlPath.Components>, cachedCrumb: Option<Crumb>)

  /** The service before any `configure`. */
  const Unconfigured := Api(None, None, None)

  /** `configure(with:)`: the new server, and never a crumb from before. */
  function Configure(a: Api, s: Server, parse: Parser): (r: Api)
    ensures r.server == Some(s) && r.cachedCrumb.None?
    ensures r.baseUrl == parse(IosBaseUrlString(s))
  {
    Api(Some(s), parse(IosBaseUrlString(s)), None)
  }

  /** The base URL the configured server's requests start from. */
  function Base(a: Api): Option<UrlPath.Components> {
    if a.server.None? then None else a.baseUrl
  }

  /** The result of an operation and the requests it sent, in order. */
  datatype Sent<+T> = Sent(result: Result<T, ApiError>, requests: seq<Request>)

  /** `fetch(path:query:acceptJSON:)`: no server or an unparseable base URL
      fails with `invalidURL` before anything is sent; otherwise one GET to
      the joined path, without redirects. */
  function Fetch(a: Api, path: string, query: Option<string>, acceptJson: bool, reply: Reply): (o: Sent<()>)
    ensures Base(a).None? ==> o == Sent(Err(InvalidUrl), [])
    ensures Base(a).Some? ==>
      |o.requests| == 1 && o.requests[0].verb == Get && o.requests[0].crumb.None? && o.requests[0].form.None? &&
      o.requests[0].signer == a.server.value && o.requests[0].acceptJson == acceptJson &&
      o.requests[0].url == UrlPath.BuildComponents(Base(a).value, Some(path), query) &&
      o.result == PerformRequest(reply, false)
  {
    match Base(a)
    case None => Sent(Err(InvalidUrl), [])
    case Some(base) =>
      var url := UrlPath.BuildComponents(base, Some(path), query);
      Sent(PerformRequest(reply, false), [Request(Get, url, a.server.value, acceptJson, None, None)])
  }

  // ---------------------------------------------------------------- crumb

  /** The service after the call, the crumb or the error, and the requests. */
  datatype CrumbFetch = CrumbFetch(api: Api, result: Result<Crumb, ApiError>, requests: seq<Request>)

  /** `fetchCrumb`: a cached crumb is returned without a request; otherwise
      a GET of the crumb issuer, and only a reply that succeeds and decodes
      fills the cache. `body` is the decoder's verdict on the reply's data. */
  function FetchCrumb(a: Api, reply: Reply, body: Result<Crumb, string>): (o: CrumbFetch)
    ensures a.cachedCrumb.Some? ==> o == CrumbFetch(a, Ok(a.cachedCrumb.value), [])
    ensures o.api.server == a.server
    ensures a.cachedCrumb.None? ==>
      (o.requests == [] <==> Base(a).None?) &&
      (o.result.Ok? <==> Base(a).Some? && PerformRequest(reply, false).Ok? && body.Ok?) &&
      (o.result.Ok? ==> o.result.value == body.value) &&
      o.api.cachedCrumb == (if o.result.Ok? then Some(o.result.value) else None)
    ensures |o.requests| <= 1
  {
    if a.cachedCrumb.Some? then CrumbFetch(a, Ok(a.cachedCrumb.value), [])
    else
      var f := Fetch(a, "crumbIssuer/api/json", None, true, reply);
      match f.result
      case Err(e) => CrumbFetch(a, Err(e), f.requests)
      case Ok(_) =>
        match body
        case Err(d) => CrumbFetch(a, Err(DecodingError(d)), f.requests)
        case Ok(c) => CrumbFetch(a.(cachedCrumb := Some(c)), Ok(c), f.requests)
  }

  /** A failed crumb fetch leaves the cache empty, so the next one asks again. */
  lemma CrumbRetriedAfterFailure(a: Api, reply: Reply, body: Result<Crumb, string>,
                                 reply2: Reply, body2: Result<Crumb, string>)
    requires a.cachedCrumb.None? && Base(a).Some?
    requires FetchCrumb(a, reply, body).result.Err?
    ensures |FetchCrumb(FetchCrumb(a, reply, body).api, reply2, body2).requests| == 1
  {
    var o := FetchCrumb(a, reply, body);
    assert o.api == a;
  }

  /** After `configure` the next crumb is fetched afresh, whatever was cached. */
  lemma ConfigureForcesFetch(a: Api, s: Server, parse: Parser, reply: Reply, body: Result<Crumb, string>)
    requires parse(IosBaseUrlString(s)).Some?
    ensures |FetchCrumb(Configure(a, s, parse), reply, body).requests| == 1
  {
  }

  // ---------------------------------------------------------------- POST

  /** The form attached to a POST: only a present, non-empty map. */
  function Form(parameters: Option<map<string, string>>): (r: Option<map<string, string>>)
    ensures r.Some? <==> parameters.Some? && parameters.value != map[]
    ensures r.Some? ==> r == parameters
  {
    if parameters.Some? && parameters.value != map[] then parameters else None
  }

  /** The service after a POST, its result and the requests sent. */
  datatype PostOutcome = PostOutcome(api: Api, result: Result<(), ApiError>, requests: seq<Request>)

  /** A POST with its URL: the crumb fetch comes first (its requests, if
      any), then the POST itself, whose result is the call's result. */
  function SendPost(a: Api, url: UrlPath.Components, parameters: Option<map<string, string>>,
                    crumbReply: Reply, crumbBody: Result<Crumb, string>, postReply: Reply): (o: PostOutcome)
    requires a.server.Some?
    ensures var c := FetchCrumb(a, crumbReply, crumbBody);
      o.api == c.api && o.result == PerformRequest(postReply, true) &&
      o.requests == c.requests + [Request(Post, url, a.server.value, false,
                                          if c.result.Ok? then Some(c.result.value) else None, Form(parameters))]
  {
    var c := FetchCrumb(a, crumbReply, crumbBody);
    var header := if c.result.Ok? then Some(c.result.value) else None;
    PostOutcome(c.api, PerformRequest(postReply, true),
                c.requests + [Request(Post, url, a.server.value, false, header, Form(parameters))])
  }

  /** `post(path:parameters:)`: no server or an unparseable base URL fails
      with `invalidURL` and sends nothing; otherwise the POST is sent to the
      joined path whatever became of the crumb. */
  function PostPath(a: Api, path: string, parameters: Option<map<string, string>>,
                    crumbReply: Reply, crumbBody: Result<Crumb, string>, postReply: Reply): (o: PostOutcome)
    ensures Base(a).None? ==> o == PostOutcome(a, Err(InvalidUrl), [])
    ensures Base(a).Some? ==>
      o.result == PerformRequest(postReply, true) && |o.requests| >= 1 &&
      o.requests[|o.requests| - 1].verb == Post &&
      o.requests[|o.requests| - 1].url == UrlPath.BuildComponents(Base(a).value, Some(path), None) &&
      o.requests[|o.requests| - 1].form == Form(parameters)
  {
    match Base(a)
    case None => PostOutcome(a, Err(InvalidUrl), [])
    case Some(base) =>
      SendPost(a, UrlPath.BuildComponents(base, Some(path), None), parameters, crumbReply, crumbBody, postReply)
  }

  /** `postByURL(jobURL:suffix:parameters:)`: the same, with the URL built
      from the job's own URL; only a missing server or an unparseable job
      URL stops it. */
  function PostByUrl(a: Api, parse: Parser, jobUrl: string, suffix: string, parameters: Option<map<string, string>>,
                     crumbReply: Reply, crumbBody: Result<Crumb, string>, postReply: Reply): (o: PostOutcome)
    ensures a.server.None? || parse(jobUrl).None? ==> o == PostOutcome(a, Err(InvalidUrl), [])
    ensures a.server.Some? && parse(jobUrl).Some? ==>
      o.result == PerformRequest(postReply, true) && |o.requests| >= 1 &&
      o.requests[|o.requests| - 1].verb == Post &&
      o.requests[|o.requests| - 1].url == UrlPath.BuildComponents(parse(jobUrl).value, Some(suffix), None) &&
      o.requests[|o.requests| - 1].form == Form(parameters)
  {
    if a.server.None? then PostOutcome(a, Err(InvalidUrl), [])
    else
      match BuildUrl(parse, jobUrl, Some(suffix), None)
      case Err(e) => PostOutcome(a, Err(e), [])
      case Ok(url) => SendPost(a, url, parameters, crumbReply, crumbBody, postReply)
  }

  /** `triggerBuildByURL`: `buildWithParameters` under the job's URL. */
  function TriggerBuildByUrl(a: Api, parse: Parser, jobUrl: string, parameters: Option<map<string, string>>,
                             crumbReply: Reply, crumbBody: Result<Crumb, string>, postReply: Reply): PostOutcome {
    PostByUrl(a, parse, jobUrl, "buildWithParameters", parameters, crumbReply, crumbBody, postReply)
  }

  /** A crumb that cannot be had (here: the issuer answers 404) only drops
      the header: the POST is still sent and its own reply decides. */
  lemma CrumbFailureStillPosts(a: Api, url: UrlPath.Components, parameters: Option<map<string, string>>,
                               postReply: Reply)
    requires a.server.Some? && a.cachedCrumb.None? && Base(a).Some?
    ensures var o := SendPost(a, url, parameters, Http(404), Err("unused"), postReply);
      o.result == PerformRequest(postReply, true) && o.api == a &&
      |o.requests| == 2 && o.requests[0].verb == Get && o.requests[1].verb == Post &&
      o.requests[1].crumb.None?
  {
    var c := FetchCrumb(a, Http(404), Err("unused"));
    assert c.result.Err? && |c.requests| == 1;
  }

  /** Once a crumb is cached, later POSTs carry it and send no GET. */
  lemma CachedCrumbReused(a: Api, url: UrlPath.Components, parameters: Option<map<string, string>>,
                          crumbReply: Reply, crumbBody: Result<Crumb, string>, postReply: Reply)
    requires a.server.Some? && a.cachedCrumb.Some?
    ensures var o := SendPost(a, url, parameters, crumbReply, crumbBody, postReply);
      o.api == a && |o.requests| == 1 && o.requests[0].verb == Post && o.requests[0].crumb == a.cachedCrumb
  {
  }

  /** The body is attached exactly when there is something to send. */
  lemma FormExamples(k: string, v: string)
    ensures Form(None).None? && Form(Some(map[])).None?
    ensures Form(Some(map[k := v])) == Some(map[k := v])
  {
    assert k in map[k := v];
  }

  // ---------------------------------------------------------------- connection check

  /** What `validateConnection` throws: an `APIError`, or the transport's own
      error, which it does not wrap. */
  datatype Failure = ApiFailure(error: ApiError) | OtherFailure(detail: string)

  /** `validateConnection(server:)`, given the server's parsed `baseURL`:
      an unparseable base URL is `invalidURL`;
      a 2xx answers `true`; 401/403 are `unauthorized`; every other code is a
      server error; a transport error escapes unwrapped. It never answers
      `false`. */
  function ValidateConnection(baseUrl: Option<UrlPath.Components>, reply: Reply): (r: Result<bool, Failure>)
    ensures baseUrl.None? ==> r == Err(ApiFailure(InvalidUrl))
    ensures baseUrl.Some? ==>
      (r.Ok? <==> reply.Http? && AndroidRepository.IsSuccessful(reply.code)) &&
      (reply.Thrown? ==> r == Err(OtherFailure(reply.detail))) &&
      (reply.Http? && r.Err? ==> r == Err(ApiFailure(PerformRequest(reply, false).error)))
    ensures r.Ok? ==> r.value
  {
    if baseUrl.None? then Err(ApiFailure(InvalidUrl))
    else
      match reply
      case Thrown(d) => Err(OtherFailure(d))
      case NotHttp => Err(ApiFailure(InvalidResponse))
      case Http(code) =>
        if 200 <= code <= 299 then Ok(true)
        else if code == 401 || code == 403 then Err(ApiFailure(Unauthorized))
        else Err(ApiFailure(ServerError(code)))
  }

  /** The connection check and a plain GET judge every HTTP status alike,
      a 302 included. */
  lemma ValidateAgreesWithGet(baseUrl: Option<UrlPath.Components>, code: int)
    requires baseUrl.Some?
    ensures ValidateConnection(baseUrl, Http(code)).Ok? <==> PerformRequest(Http(code), false).Ok?
    ensures ValidateConnection(baseUrl, Http(code)).Err? ==>
      ValidateConnection(baseUrl, Http(code)).error == ApiFailure(PerformRequest(Http(code), false).error)
  {
  }
}

=== FILE: ios_build_detail.dfy ===
/** The iOS `BuildDetailViewModel` (declared in BuildDetailView.swift) and
    the view's rule for loading the log lazily. Each action is one step over
    `UiState` whose API replies are arguments. */
module IosBuildDetail {
  import opened Wrappers
  import opened Parameters
  import opened BuildActions
  import opened IosApi
  import AndroidBuildDetail
  import AndroidRepository

  datatype UiState = UiState(
    buildDetail: Option<BuildDetail>,
    logContent: Option<string>,
    isLoading: bool,
    isLoadingLog: bool,
    isDeleting: bool,
    isRebuilding: bool,
    showError: bool,
    errorMessage: Option<string>,
    showActionAlert: bool,
    actionMessage: Option<string>,
    showDeleteConfirm: bool,
    showRebuildSheet: bool,
    rebuildParameters: seq<ParameterDefinition>,
    shouldDismiss: bool)

  const Initial := UiState(None, None, false, false, false, false, false, None, false, None, false, false, [], false)

  /** The tab that shows the console log. */
  const LogTab := 1

  /** The view starts loading the log when its tab is selected, no log is
      held and none is loading. */
  function ShouldLoadLog(s: UiState, tab: int): (r: bool)
    ensures r ==> tab == LogTab
    ensures s.logContent.Some? || s.isLoadingLog ==> !r
    ensures tab == LogTab && s == Initial ==> r
  {
    tab == LogTab && s.logContent.None? && !s.isLoadingLog
  }

  /** `loadBuildDetail`: a reply replaces the detail; a failure shows its
      description. An earlier error is not cleared. */
  function LoadBuildDetail(s: UiState, reply: Result<BuildDetail, ApiError>): (r: Step<UiState>)
    ensures r.calls == [GetBuildDetail] && !r.state.isLoading
    ensures reply.Ok? ==> r.state == s.(buildDetail := Some(reply.value), isLoading := false)
    ensures reply.Err? ==>
      r.state == s.(errorMessage := Some(Description(reply.error)), showError := true, isLoading := false)
  {
    match reply
    case Ok(d) => Step(s.(buildDetail := Some(d), isLoading := false), [GetBuildDetail])
    case Err(e) => Step(s.(errorMessage := Some(Description(e)), showError := true, isLoading := false), [GetBuildDetail])
  }

  /** `loadLog`: a failure is silent. */
  function LoadLog(s: UiState, reply: Result<string, ApiError>): (r: Step<UiState>)
    ensures r.calls == [GetLog] && !r.state.isLoadingLog
    ensures reply.Ok? ==> r.state == s.(logContent := Some(reply.value), isLoadingLog := false)
    ensures reply.Err? ==> r.state == s.(isLoadingLog := false)
  {
    match reply
    case Ok(log) => Step(s.(logContent := Some(log), isLoadingLog := false), [GetLog])
    case Err(_) => Step(s.(isLoadingLog := false), [GetLog])
  }

  /** A log that loaded is not fetched again; a failed one is fetched again
      on the next visit to its tab; a load in progress suppresses another. */
  lemma LogLoadedLazily(s: UiState, reply: Result<string, ApiError>)
    requires ShouldLoadLog(s, LogTab)
    ensures reply.Ok? ==> !ShouldLoadLog(LoadLog(s, reply).state, LogTab)
    ensures reply.Err? ==> ShouldLoadLog(LoadLog(s, reply).state, LogTab)
    ensures !ShouldLoadLog(s.(isLoadingLog := true), LogTab)
  {
  }

  /** `deleteBuild`: only a successful delete dismisses the screen; either
      way the outcome is announced. */
  function DeleteBuild(s: UiState, reply: Result<(), ApiError>): (r: Step<UiState>)
    ensures r.calls == [Delete] && !r.state.isDeleting && r.state.showActionAlert
    ensures r.state.shouldDismiss <==> reply.Ok? || s.shouldDismiss
    ensures r.state.actionMessage ==
      Some(if reply.Ok? then AndroidBuildDetail.Deleted else AndroidBuildDetail.DeleteFailed(Description(reply.error)))
  {
    match reply
    case Ok(_) =>
      Step(s.(actionMessage := Some(AndroidBuildDetail.Deleted), shouldDismiss := true, showActionAlert := true, isDeleting := false), [Delete])
    case Err(e) =>
      Step(s.(actionMessage := Some(AndroidBuildDetail.DeleteFailed(Description(e))), showActionAlert := true, isDeleting := false), [Delete])
  }

  /** `rebuild(with:)`: the sheet closes and the job is triggered once. */
  function Rebuild(s: UiState, parameters: map<string, string>, reply: Result<(), ApiError>): (r: Step<UiState>)
    ensures r.calls == [TriggerRebuild(parameters)]
    ensures !r.state.isRebuilding && !r.state.showRebuildSheet && r.state.showActionAlert
    ensures r.state.actionMessage == Some(if reply.Ok? then AndroidBuildDetail.RebuildTriggered
                                          else AndroidBuildDetail.RebuildFailed(Description(reply.error)))
    ensures r.state.buildDetail == s.buildDetail && r.state.rebuildParameters == s.rebuildParameters
  {
    var s1 := s.(isRebuilding := true, showRebuildSheet := false);
    var message := match reply
      case Ok(_) => AndroidBuildDetail.RebuildTriggered
      case Err(e) => AndroidBuildDetail.RebuildFailed(Description(e));
    Step(s1.(actionMessage := Some(message), showActionAlert := true, isRebuilding := false), [TriggerRebuild(parameters)])
  }

  /** `showRebuildDialog`: with parameters the sheet opens on the prefilled
      definitions; without, the job is rebuilt with no values; a failed
      detail is announced. */
  function ShowRebuildDialog(s: UiState, detail: Result<JobDetail, ApiError>, reply: Result<(), ApiError>): (r: Step<UiState>)
    ensures |r.calls| > 0 && r.calls[0] == GetJobDetail
    ensures detail.Ok? && HasParameters(detail.value) ==>
      r == Step(s.(rebuildParameters := RebuildDefinitions(s.buildDetail, detail.value), showRebuildSheet := true), [GetJobDetail])
    ensures detail.Ok? && !HasParameters(detail.value) ==>
      r.calls == [GetJobDetail, TriggerRebuild(map[])] && r.state == Rebuild(s, map[], reply).state
    ensures detail.Err? ==>
      r == Step(s.(actionMessage := Some(AndroidBuildDetail.ParametersFailed(Description(detail.error))), showActionAlert := true), [GetJobDetail])
  {
    match detail
    case Ok(d) =>
      if HasParameters(d) then
        Step(s.(rebuildParameters := RebuildDefinitions(s.buildDetail, d), showRebuildSheet := true), [GetJobDetail])
      else
        var t := Rebuild(s, map[], reply);
        Step(t.state, [GetJobDetail] + t.calls)
    case Err(e) =>
      Step(s.(actionMessage := Some(AndroidBuildDetail.ParametersFailed(Description(e))), showActionAlert := true), [GetJobDetail])
  }

  /** From corresponding states, both platforms make the same calls on a
      rebuild tap, open their sheet or dialog alike, and offer the same
      prefilled definitions, given the same build and job detail. */
  lemma RebuildAgrees(s: UiState, a: AndroidBuildDetail.UiState,
                      detail: Result<JobDetail, ApiError>, reply: Result<(), ApiError>,
                      androidDetail: AndroidRepository.ApiResult<JobDetail>, androidReply: AndroidRepository.ApiResult<bool>)
    requires s.buildDetail == a.buildDetail && s.rebuildParameters == a.rebuildParameters
    requires s.showRebuildSheet == a.showRebuildDialog
    requires androidDetail.Success? <==> detail.Ok?
    requires detail.Ok? ==> androidDetail.data == detail.value
    ensures var i := ShowRebuildDialog(s, detail, reply);
            var k := AndroidBuildDetail.ShowRebuildDialog(a, androidDetail, androidReply);
            i.calls == k.calls && i.state.rebuildParameters == k.state.rebuildParameters &&
            i.state.showRebuildSheet == k.state.showRebuildDialog
  {
  }

  /** iOS keeps an old load error after a later successful load; Android
      clears it when the load starts. */
  lemma StaleErrorKept(s: UiState, a: AndroidBuildDetail.UiState, e: ApiError, d: BuildDetail,
                       msg: string, code: Option<int>)
    ensures var i := LoadBuildDetail(LoadBuildDetail(s, Err(e)).state, Ok(d)).state;
            i.buildDetail == Some(d) && i.errorMessage == Some(Description(e)) && i.showError
    ensures var k := AndroidBuildDetail.LoadBuildDetail(
              AndroidBuildDetail.LoadBuildDetail(a, AndroidRepository.Error(msg, code)).state,
              AndroidRepository.ApiResult.Success(d)).state;
            k.buildDetail == Some(d) && k.errorMessage.None?
  {
  }
}

=== FILE: ios_dashboard.dfy ===
/** The iOS `DashboardViewModel`: the selected view, loading views and
    jobs, and the trigger flows. Each action is one step over `UiState`
    whose API replies are arguments; a reply is a value or an `APIError`,
    shown through its description. */
module IosDashboard {
  import opened Wrappers
  import opened Strings
  import opened Dashboard
  import opened Jobs
  import opened Views
  import opened Parameters
  import opened IosApi
  import AndroidDashboard
  import AndroidRepository

  datatype UiState = UiState(
    views: seq<JenkinsView>,
    jobs: seq<Job>,
    selectedViewIndex: nat,
    isLoading: bool,
    isRefreshing: bool,
    errorMessage: Option<string>,
    showError: bool,
    triggerMessage: Option<string>,
    showTriggerAlert: bool,
    showParametersSheet: bool,
    pendingJob: Option<Job>,
    parameters: seq<ParameterDefinition>)

  const Initial := UiState([], [], 0, false, false, None, false, None, false, false, None, [])

  function Triggered(job: Job): string {
    "已触发构建: " + job.name
  }

  function TriggerFailed(e: ApiError): string {
    "触发失败: " + Description(e)
  }

  // ---------------------------------------------------------------- loading

  /** `selectedView`: the view at the selected index, none past the end. */
  function SelectedView(s: UiState): (r: Option<JenkinsView>)
    ensures r.None? <==> s.selectedViewIndex >= |s.views|
    ensures r.Some? ==> r.value == s.views[s.selectedViewIndex]
  {
    ViewAt(s.views, s.selectedViewIndex)
  }

  /** The job list `loadJobsForSelectedView` asks for. */
  function SourceFor(s: UiState): JobsSource {
    match SelectedView(s)
    case None => AllJobs
    case Some(v) => if NamesAllView(v.name) then AllJobs else ViewJobs(v.name)
  }

  /** Both platforms fetch the same list for the same tabs. */
  lemma SourcesAgree(s: UiState)
    ensures SourceFor(s) == AndroidDashboard.SourceFor(s.views, s.selectedViewIndex)
  {
    if s.selectedViewIndex < |s.views| {
      NamesAllViewIff(s.views[s.selectedViewIndex].name);
    }
  }

  /** `loadJobsForSelectedView`: a reply replaces the jobs. A failure with no
      view selected is silent; with a view selected it is shown. */
  function LoadJobs(s: UiState, reply: Result<seq<Job>, ApiError>): (r: Step<UiState>)
    ensures r.calls == [ListJobs(SourceFor(s))] && !r.refreshLater
    ensures reply.Ok? ==> r.state == s.(jobs := reply.value)
    ensures reply.Err? && SelectedView(s).None? ==> r.state == s
    ensures reply.Err? && SelectedView(s).Some? ==>
      r.state == s.(errorMessage := Some(Description(reply.error)), showError := true)
  {
    var call := [ListJobs(SourceFor(s))];
    match reply
    case Ok(jobs) => Step(s.(jobs := jobs), call, false)
    case Err(e) =>
      if SelectedView(s).None? then Step(s, call, false)
      else Step(s.(errorMessage := Some(Description(e)), showError := true), call, false)
  }

  /** With no view to show, a failing job list leaves Android with an error
      message and iOS with none. */
  lemma NoViewFailureDiverges(s: UiState, a: AndroidDashboard.UiState, e: ApiError, msg: string, code: Option<int>)
    requires s.views == [] && s.errorMessage.None? && a.views == [] && a.errorMessage.None?
    ensures LoadJobs(s, Err(e)).state.errorMessage.None?
    ensures AndroidDashboard.LoadJobs(a, AndroidRepository.Error(msg, code)).state.errorMessage == Some(msg)
  {
  }

  /** `loadData`: ignored while a load is running; otherwise the views, then
      the job list only when they arrived, and loading ends either way. */
  function LoadData(s: UiState, views: Result<seq<JenkinsView>, ApiError>, jobs: Result<seq<Job>, ApiError>): (r: Step<UiState>)
    ensures s.isLoading ==> r == Step(s, [], false)
    ensures !s.isLoading ==> !r.state.isLoading && !r.refreshLater && |r.calls| > 0 && r.calls[0] == ListViews
    ensures !s.isLoading && views.Err? ==>
      r.calls == [ListViews] &&
      r.state == s.(errorMessage := Some(Description(views.error)), showError := true)
    ensures !s.isLoading && views.Ok? ==>
      var loaded := s.(views := views.value);
      r.state.views == views.value && r.calls == [ListViews, ListJobs(SourceFor(loaded))] &&
      (jobs.Ok? ==> r.state.jobs == jobs.value && r.state.errorMessage.None? && r.state.showError == s.showError) &&
      (jobs.Err? && SelectedView(loaded).None? ==>
         r.state.jobs == s.jobs && r.state.errorMessage.None? && r.state.showError == s.showError) &&
      (jobs.Err? && SelectedView(loaded).Some? ==>
         r.state.jobs == s.jobs && r.state.errorMessage == Some(Description(jobs.error)) && r.state.showError)
    ensures r.state.(views := s.views, jobs := s.jobs, isLoading := s.isLoading, errorMessage := s.errorMessage,
                     showError := s.showError) == s
  {
    if s.isLoading then Step(s, [], false)
    else
      var s1 := s.(isLoading := true, errorMessage := None);
      match views
      case Err(e) => Step(s1.(errorMessage := Some(Description(e)), showError := true, isLoading := false), [ListViews], false)
      case Ok(vs) =>
        var loading, loaded := s1.(views := vs), s.(views := vs);
        assert SelectedView(loading) == SelectedView(loaded) && SourceFor(loading) == SourceFor(loaded);
        var l := LoadJobs(loading, jobs);
        Step(l.state.(isLoading := false), [ListViews] + l.calls, false)
  }

  /** Once the views arrive, both platforms ask for the same job list. */
  lemma LoadDataCallsAgree(s: UiState, a: AndroidDashboard.UiState, views: Result<seq<JenkinsView>, ApiError>,
                           jobs: Result<seq<Job>, ApiError>, aViews: AndroidRepository.ApiResult<seq<JenkinsView>>,
                           aJobs: AndroidRepository.ApiResult<seq<Job>>)
    requires !s.isLoading && s.selectedViewIndex == a.selectedViewIndex
    requires views.Ok? && aViews.Success? && views.value == aViews.data
    ensures LoadData(s, views, jobs).calls == AndroidDashboard.LoadData(a, aViews, aJobs).calls
  {
    SourcesAgree(s.(views := views.value));
  }

  /** Refreshing and switching tabs ask for the same lists on both platforms. */
  lemma RefreshAndSelectCallsAgree(s: UiState, a: AndroidDashboard.UiState, index: nat,
                                   jobs: Result<seq<Job>, ApiError>, aJobs: AndroidRepository.ApiResult<seq<Job>>)
    requires s.views == a.views && s.selectedViewIndex == a.selectedViewIndex
    ensures Refresh(s, jobs).calls == AndroidDashboard.Refresh(a, aJobs).calls
    ensures SelectView(s, index, jobs).calls == AndroidDashboard.SelectView(a, index, aJobs).calls
  {
    SourcesAgree(s);
    SourcesAgree(s.(selectedViewIndex := index));
  }

  /** A successful refresh or tab switch shows the same list on both platforms. */
  lemma RefreshAndSelectJobsAgree(s: UiState, a: AndroidDashboard.UiState, index: nat, jobs: seq<Job>)
    requires s.jobs == a.jobs && s.selectedViewIndex == a.selectedViewIndex
    ensures Refresh(s, Ok(jobs)).state.jobs == AndroidDashboard.Refresh(a, AndroidRepository.Success(jobs)).state.jobs
    ensures SelectView(s, index, Ok(jobs)).state.jobs ==
            AndroidDashboard.SelectView(a, index, AndroidRepository.Success(jobs)).state.jobs
  {
  }

  /** A second `loadData` while the first is running sends nothing. */
  lemma LoadDataGuard(s: UiState, views: Result<seq<JenkinsView>, ApiError>, jobs: Result<seq<Job>, ApiError>)
    ensures LoadData(s.(isLoading := true), views, jobs).calls == []
    ensures !s.isLoading ==> LoadData(s, views, jobs).calls != []
  {
  }

  /** `refresh`: the job list again under the refreshing flag, with the
      outcomes of `loadJobsForSelectedView`; nothing else changes. */
  function Refresh(s: UiState, jobs: Result<seq<Job>, ApiError>): (r: Step<UiState>)
    ensures !r.state.isRefreshing && r.calls == [ListJobs(SourceFor(s))] && !r.refreshLater
    ensures jobs.Ok? ==> r.state.jobs == jobs.value && r.state.errorMessage == s.errorMessage
    ensures jobs.Err? && SelectedView(s).None? ==> r.state == s.(isRefreshing := false)
    ensures jobs.Err? && SelectedView(s).Some? ==>
      r.state.jobs == s.jobs && r.state.errorMessage == Some(Description(jobs.error)) && r.state.showError
    ensures r.state.(jobs := s.jobs, errorMessage := s.errorMessage, showError := s.showError,
                     isRefreshing := s.isRefreshing) == s
  {
    var l := LoadJobs(s.(isRefreshing := true), jobs);
    Step(l.state.(isRefreshing := false), l.calls, false)
  }

  /** `selectView(at:)`: the current tab is a no-op. */
  function SelectView(s: UiState, index: nat, jobs: Result<seq<Job>, ApiError>): (r: Step<UiState>)
    ensures index == s.selectedViewIndex ==> r == Step(s, [], false)
    ensures index != s.selectedViewIndex ==>
      var t := s.(selectedViewIndex := index);
      r.state.selectedViewIndex == index && r.calls == [ListJobs(SourceFor(t))] && !r.refreshLater &&
      (jobs.Ok? ==> r.state.jobs == jobs.value && r.state.errorMessage == s.errorMessage) &&
      (jobs.Err? && SelectedView(t).None? ==> r.state == t) &&
      (jobs.Err? && SelectedView(t).Some? ==>
         r.state.jobs == s.jobs && r.state.errorMessage == Some(Description(jobs.error)) && r.state.showError) &&
      r.state.(selectedViewIndex := s.selectedViewIndex, jobs := s.jobs, errorMessage := s.errorMessage,
               showError := s.showError) == s
  {
    if index == s.selectedViewIndex then Step(s, [], false)
    else LoadJobs(s.(selectedViewIndex := index), jobs)
  }

  // ---------------------------------------------------------------- triggering

  /** One `triggerBuildByURL` call without parameters and what its reply shows. */
  function DirectTrigger(s: UiState, job: Job, reply: Result<(), ApiError>): (r: Step<UiState>)
    ensures r.calls == [Trigger(job.url, None)] && r.state.showTriggerAlert
    ensures r.refreshLater <==> reply.Ok?
    ensures r.state.triggerMessage == Some(if reply.Ok? then Triggered(job) else TriggerFailed(reply.error))
    ensures r.state.(triggerMessage := s.triggerMessage, showTriggerAlert := s.showTriggerAlert) == s
  {
    match reply
    case Ok(_) => Step(s.(triggerMessage := Some(Triggered(job)), showTriggerAlert := true), [Trigger(job.url, None)], true)
    case Err(e) => Step(s.(triggerMessage := Some(TriggerFailed(e)), showTriggerAlert := true), [Trigger(job.url, None)], false)
  }

  /** The detail showed parameters: the sheet opens for the job. */
  function OpenSheet(s: UiState, job: Job, d: JobDetail): UiState {
    s.(pendingJob := Some(job), parameters := Definitions(d), showParametersSheet := true)
  }

  /** `triggerBuild(for:)` as written. The catch meant for a failed detail
      fetch also catches a failed direct trigger, which is then sent again.
      `first` and `second` answer the first and second trigger calls. */
  function TriggerBuildAsWritten(s: UiState, job: Job, detail: Result<JobDetail, ApiError>,
                                 first: Result<(), ApiError>, second: Result<(), ApiError>): (r: Step<UiState>)
    ensures !(detail.Ok? && Definitions(detail.value) == [] && first.Err?) ==> r == TriggerBuild(s, job, detail, first)
    ensures detail.Ok? && Definitions(detail.value) == [] && first.Err? ==>
      r.state == TriggerBuild(s, job, detail, second).state &&
      r.calls == TriggerBuild(s, job, detail, first).calls + [Trigger(job.url, None)]
  {
    match detail
    case Ok(d) =>
      if Definitions(d) != [] then Step(OpenSheet(s, job, d), [Dashboard.JobDetail(job.url)], false)
      else if first.Ok? then
        var t := DirectTrigger(s, job, first);
        Step(t.state, [Dashboard.JobDetail(job.url)] + t.calls, t.refreshLater)
      else
        var t := DirectTrigger(s, job, second);
        Step(t.state, [Dashboard.JobDetail(job.url), Trigger(job.url, None)] + t.calls, t.refreshLater)
    case Err(_) =>
      var t := DirectTrigger(s, job, first);
      Step(t.state, [Dashboard.JobDetail(job.url)] + t.calls, t.refreshLater)
  }

  /** As written, a job without parameters whose trigger fails is triggered
      twice, and only the second reply is reported. */
  lemma FailedTriggerIsRepeated(s: UiState, job: Job, d: JobDetail, e: ApiError, second: Result<(), ApiError>)
    requires Definitions(d) == []
    ensures var r := TriggerBuildAsWritten(s, job, Ok(d), Err(e), second);
            Triggers(r.calls) == 2 && (second.Ok? ==> r.state.triggerMessage == Some(Triggered(job)))
  {
    var c := TriggerBuildAsWritten(s, job, Ok(d), Err(e), second).calls;
    assert c == [Dashboard.JobDetail(job.url), Trigger(job.url, None), Trigger(job.url, None)];
    assert c[1..][1..][1..] == [];
    assert Triggers(c[1..][1..]) == 1 + Triggers(c[1..][1..][1..]);
    assert Triggers(c[1..]) == 1 + Triggers(c[1..][1..]);
  }

  /** `triggerBuild(for:)` with the retry confined to a failed detail fetch:
      parameters open the sheet; otherwise one direct trigger, whose failure
      is reported. */
  function TriggerBuild(s: UiState, job: Job, detail: Result<JobDetail, ApiError>, reply: Result<(), ApiError>): (r: Step<UiState>)
    ensures detail.Ok? && Definitions(detail.value) != [] ==>
      r == Step(OpenSheet(s, job, detail.value), [Dashboard.JobDetail(job.url)], false)
    ensures !(detail.Ok? && Definitions(detail.value) != []) ==>
      r.calls == [Dashboard.JobDetail(job.url), Trigger(job.url, None)] &&
      r.state == DirectTrigger(s, job, reply).state && (r.refreshLater <==> reply.Ok?)
  {
    if detail.Ok? && Definitions(detail.value) != [] then Step(OpenSheet(s, job, detail.value), [Dashboard.JobDetail(job.url)], false)
    else
      var t := DirectTrigger(s, job, reply);
      Step(t.state, [Dashboard.JobDetail(job.url)] + t.calls, t.refreshLater)
  }

  /** With the fix a tap triggers at most once, and makes the same calls as
      on Android for the same detail outcome. */
  lemma TriggerBuildTriggersOnce(s: UiState, job: Job, detail: Result<JobDetail, ApiError>, reply: Result<(), ApiError>,
                                 a: AndroidDashboard.UiState, androidDetail: AndroidRepository.ApiResult<JobDetail>,
                                 androidReply: AndroidRepository.ApiResult<bool>)
    requires androidDetail.Success? <==> detail.Ok?
    requires detail.Ok? ==> androidDetail.data == detail.value
    ensures Triggers(TriggerBuild(s, job, detail, reply).calls) ==
      if detail.Ok? && Definitions(detail.value) != [] then 0 else 1
    ensures TriggerBuild(s, job, detail, reply).calls == AndroidDashboard.TriggerBuild(a, job, androidDetail, androidReply).calls
  {
    var c := TriggerBuild(s, job, detail, reply).calls;
    if !(detail.Ok? && Definitions(detail.value) != []) {
      assert c[1..] == [Trigger(job.url, None)] && c[1..][1..] == [];
      assert Triggers(c[1..]) == 1 + Triggers(c[1..][1..]);
    } else {
      assert c[1..] == [];
    }
  }

  /** `triggerBuildWithParameters`: nothing without a pending job; success
      closes the sheet and clears the pending job and definitions; a failure
      only reports and leaves the sheet open on the same job. */
  function TriggerBuildWithParameters(s: UiState, values: map<string, string>, reply: Result<(), ApiError>): (r: Step<UiState>)
    ensures s.pendingJob.None? ==> r == Step(s, [], false)
    ensures s.pendingJob.Some? ==> r.calls == [Trigger(s.pendingJob.value.url, Some(values))] && r.state.showTriggerAlert
    ensures s.pendingJob.Some? && reply.Ok? ==>
      r.refreshLater && !r.state.showParametersSheet && r.state.pendingJob.None? && r.state.parameters == [] &&
      r.state.triggerMessage == Some(Triggered(s.pendingJob.value))
    ensures s.pendingJob.Some? && reply.Err? ==>
      !r.refreshLater && r.state == s.(triggerMessage := Some(TriggerFailed(reply.error)), showTriggerAlert := true)
  {
    match s.pendingJob
    case None => Step(s, [], false)
    case Some(job) =>
      var call := [Trigger(job.url, Some(values))];
      match reply
      case Ok(_) =>
        Step(s.(triggerMessage := Some(Triggered(job)), showTriggerAlert := true,
                showParametersSheet := false, pendingJob := None, parameters := []), call, true)
      case Err(e) => Step(s.(triggerMessage := Some(TriggerFailed(e)), showTriggerAlert := true), call, false)
  }

  /** `hideParametersSheet`: the three sheet fields are reset together. */
  function HideParametersSheet(s: UiState): (r: UiState)
    ensures !r.showParametersSheet && r.pendingJob.None? && r.parameters == []
    ensures r.(showParametersSheet := s.showParametersSheet, pendingJob := s.pendingJob, parameters := s.parameters) == s
  {
    s.(showParametersSheet := false, pendingJob := None, parameters := [])
  }

  /** A failed parameterised trigger: iOS keeps the sheet open on the job
      with its definitions, so the user can retry; Android has closed the
      dialog and forgotten the job. */
  lemma FailedSubmitDiverges(s: UiState, a: AndroidDashboard.UiState, job: Job, values: map<string, string>,
                             e: ApiError, msg: string, code: Option<int>)
    requires s.pendingJob == Some(job) && s.showParametersSheet
    requires a.pendingJob == Some(job) && a.showParametersDialog
    ensures var r := TriggerBuildWithParameters(s, values, Err(e)).state;
            r.showParametersSheet && r.pendingJob == Some(job) && r.parameters == s.parameters
    ensures var r := AndroidDashboard.TriggerBuildWithParameters(a, values, AndroidRepository.Error(msg, code)).state;
            !r.showParametersDialog && r.pendingJob.None? && r.parameters == a.parameters
  {
  }

  /** A tap on a parameterised job and a successful submit trigger that job
      once with the submitted values and leave no sheet state behind. */
  lemma SheetSubmitTriggersOnce(s: UiState, job: Job, d: JobDetail, unused: Result<(), ApiError>, values: map<string, string>)
    requires Definitions(d) != []
    ensures var t := TriggerBuild(s, job, Ok(d), unused);
            var u := TriggerBuildWithParameters(t.state, values, Ok(()));
            Triggers(t.calls + u.calls) == 1 && u.calls == [Trigger(job.url, Some(values))] &&
            HideParametersSheet(u.state) == u.state
  {
    var t := TriggerBuild(s, job, Ok(d), unused);
    var u := TriggerBuildWithParameters(t.state, values, Ok(()));
    assert t.calls[1..] == [] && u.calls[1..] == [];
    TriggersAppend(t.calls, u.calls);
  }
}

=== FILE: ios_login.dfy ===
/** The iOS `LoginViewModel`: the form guard, the trimmed server it
    submits, the connection check, and on success the storage login that
    saves the server and configures the API service (StorageService.swift). */
module IosLogin {
  import opened Wrappers
  import opened Strings
  import opened Servers
  import opened IosApi
  import AndroidLogin

  datatype LoginState = LoginState(
    serverUrl: string,
    username: string,
    apiToken: string,
    isLoading: bool,
    errorMessage: Option<string>,
    showError: bool)

  /** What `StorageService` keeps. */
  datatype Storage = Storage(server: Server, isLoggedIn: bool)

  const ConnectionRejected := "连接验证失败"

  function ConnectionFailed(detail: string): string {
    "连接失败: " + detail
  }

  /** `isFormValid`: no field is empty once spaces and tabs are trimmed;
      line breaks are not trimmed. */
  function IsFormValid(s: LoginState): (r: bool)
    ensures r <==> IosIsValid(Submitted(s))
  {
    Trim(SwiftWhitespaces, s.serverUrl) != [] && Trim(SwiftWhitespaces, s.username) != []
    && Trim(SwiftWhitespaces, s.apiToken) != []
  }

  /** The server `login` submits: every field trimmed of spaces and tabs. */
  function Submitted(s: LoginState): Server {
    Server(Trim(SwiftWhitespaces, s.serverUrl), Trim(SwiftWhitespaces, s.username), Trim(SwiftWhitespaces, s.apiToken))
  }

  /** A form that passes submits a server the record's own check accepts. */
  lemma FormValidIffServerValid(s: LoginState)
    ensures IsFormValid(s) <==> IosIsValid(Submitted(s))
  {
  }

  /** Every character iOS trims, Android trims too. */
  lemma SwiftBlankIsKotlinBlank(x: string)
    ensures IsBlank(SwiftWhitespaces, x) ==> IsBlank(KotlinWhitespace, x)
  {
  }

  /** A form Android accepts, iOS accepts too. */
  lemma AndroidValidFormIsIosValid(url: string, user: string, token: string)
    ensures AndroidLogin.IsFormValid(AndroidLogin.LoginState(url, user, token, false, None, false)) ==>
            IsFormValid(LoginState(url, user, token, false, None, false))
  {
    SwiftBlankIsKotlinBlank(url);
    SwiftBlankIsKotlinBlank(user);
    SwiftBlankIsKotlinBlank(token);
    BlankIffTrimEmpty(SwiftWhitespaces, url);
    BlankIffTrimEmpty(SwiftWhitespaces, user);
    BlankIffTrimEmpty(SwiftWhitespaces, token);
  }

  /** A field holding only a line break is refused on Android and accepted
      on iOS. */
  lemma LineBreakFieldDiverges()
    ensures !AndroidLogin.IsFormValid(AndroidLogin.LoginState("\n", "u", "t", false, None, false))
    ensures IsFormValid(LoginState("\n", "u", "t", false, None, false))
  {
    AndroidRefusesLineBreak();
    IosAcceptsLineBreak();
  }

  lemma AndroidRefusesLineBreak()
    ensures !AndroidLogin.IsFormValid(AndroidLogin.LoginState("\n", "u", "t", false, None, false))
  {
    assert IsBlank(KotlinWhitespace, "\n");
  }

  lemma IosAcceptsLineBreak()
    ensures IsFormValid(LoginState("\n", "u", "t", false, None, false))
  {
    OneCharFieldsValid(LoginState("\n", "u", "t", false, None, false));
  }

  /** One-character fields pass the form guard unless one is a space or tab. */
  lemma OneCharFieldsValid(s: LoginState)
    requires |s.serverUrl| == 1 && |s.username| == 1 && |s.apiToken| == 1
    requires !IsSpace(SwiftWhitespaces, s.serverUrl[0]) && !IsSpace(SwiftWhitespaces, s.username[0])
    requires !IsSpace(SwiftWhitespaces, s.apiToken[0])
    ensures IsFormValid(s)
  {
    NotBlankKeepsTrim(s.serverUrl);
    NotBlankKeepsTrim(s.username);
    NotBlankKeepsTrim(s.apiToken);
  }

  /** A one-character field that is not a space or tab survives trimming. */
  lemma NotBlankKeepsTrim(x: string)
    requires |x| == 1 && !IsSpace(SwiftWhitespaces, x[0])
    ensures Trim(SwiftWhitespaces, x) == x
  {
    TrimUnchanged(SwiftWhitespaces, x);
  }

  /** The screen state, storage and API service after `login`, and its
      returned flag. */
  datatype LoginStep = LoginStep(state: LoginState, storage: Storage, api: Api, loggedIn: bool)

  /** What `login` does once the connection check has answered `v`: only
      `true` logs in, saving the server and configuring the API service; a
      service error shows its description and any other error is prefixed as
      a connection failure. */
  function Conclude(s: LoginState, storage: Storage, a: Api, parse: Parser, server: Server,
                    v: Result<bool, Failure>): (r: LoginStep)
    ensures r.loggedIn <==> v == Ok(true)
    ensures r.loggedIn ==>
      r.storage == Storage(server, true) && r.api == Configure(a, server, parse) && r.state.errorMessage.None?
    ensures !r.loggedIn ==> r.storage == storage && r.api == a && r.state.errorMessage.Some? && r.state.showError
    ensures v == Ok(false) <==> r.state.errorMessage == Some(ConnectionRejected)
    ensures !r.state.isLoading
  {
    var s1 := s.(errorMessage := None, isLoading := false);
    match v
    case Ok(ok) =>
      if ok then LoginStep(s1, Storage(server, true), Configure(a, server, parse), true)
      else LoginStep(s1.(errorMessage := Some(ConnectionRejected), showError := true), storage, a, false)
    case Err(ApiFailure(e)) =>
      DescriptionIsNotRejection(e);
      LoginStep(s1.(errorMessage := Some(Description(e)), showError := true), storage, a, false)
    case Err(OtherFailure(d)) =>
      FailureIsNotRejection(d);
      LoginStep(s1.(errorMessage := Some(ConnectionFailed(d)), showError := true), storage, a, false)
  }

  /** `login`: an incomplete form is refused before anything is sent;
      otherwise the connection is checked against the submitted server's
      base URL, as `parse` reads it, and `Conclude` settles the outcome. */
  function Login(s: LoginState, storage: Storage, a: Api, parse: Parser, reply: IosApi.Reply): (r: LoginStep)
    ensures !IsFormValid(s) ==>
      r == LoginStep(s.(errorMessage := Some(AndroidLogin.FillAllFields), showError := true), storage, a, false)
    ensures IsFormValid(s) ==> !r.state.isLoading
    ensures r.loggedIn ==>
      r.storage == Storage(Submitted(s), true) && r.api == Configure(a, Submitted(s), parse) &&
      r.state.errorMessage.None? && IosIsValid(r.storage.server)
    ensures !r.loggedIn ==> r.storage == storage && r.api == a && r.state.errorMessage.Some? && r.state.showError
    ensures IsFormValid(s) && reply.Thrown? ==> !r.loggedIn
    ensures IsFormValid(s) && reply.NotHttp? ==> !r.loggedIn
    ensures r.state.errorMessage != Some(ConnectionRejected)
  {
    if !IsFormValid(s) then
      LoginStep(s.(errorMessage := Some(AndroidLogin.FillAllFields), showError := true), storage, a, false)
    else
      var server := Submitted(s);
      Conclude(s, storage, a, parse, server, ValidateConnection(parse(IosBaseUrlString(server)), reply))
  }

  lemma FailureIsNotRejection(d: string)
    ensures ConnectionFailed(d) != ConnectionRejected
  {
    assert ConnectionFailed(d)[2] != ConnectionRejected[2];
  }

  /** No service error reads like the rejection message: their first
      characters differ. */
  lemma DescriptionIsNotRejection(e: ApiError)
    ensures Description(e) != ConnectionRejected
  {
    assert Description(e)[0] != ConnectionRejected[0];
  }

  /** The connection check never answers false, so the rejection message is
      never shown, and a 2xx answer from a parseable URL always logs in. */
  lemma LoginSucceedsOn2xx(s: LoginState, storage: Storage, a: Api, parse: Parser, code: int)
    requires IsFormValid(s) && 200 <= code <= 299
    requires parse(IosBaseUrlString(Submitted(s))).Some?
    ensures Login(s, storage, a, parse, Http(code)).loggedIn
  {
  }
}

=== FILE: jenkins_view.dfy ===
/** A Jenkins view (JenkinsView.kt, JenkinsView.swift) and the title shown
    for it: the built-in "all" view is shown as "所有". */
module Views {
  import opened Strings

  datatype JenkinsView = JenkinsView(name: string, url: string, jobNames: seq<string>)

  const AllTitle := "所有"

  /** The eight ASCII spellings of "all" that differ only in case. */
  const AllSpellings: set<string> := {"all", "alL", "aLl", "aLL", "All", "AlL", "ALl", "ALL"}

  lemma LowerAll(name: string)
    requires |name| == 3
    ensures Lower(name) == "all" <==> name in AllSpellings
  {
    if Lower(name) == "all" {
      assert LowerChar(name[0]) == 'a' && LowerChar(name[1]) == 'l' && LowerChar(name[2]) == 'l';
      assert name[0] in {'a', 'A'} && name[1] in {'l', 'L'} && name[2] in {'l', 'L'};
      assert name == [name[0], name[1], name[2]];
    }
  }

  /** Kotlin `equals("all", ignoreCase = true)` holds for exactly the eight case variants. */
  lemma IgnoreCaseAllSpellings(name: string)
    ensures EqualsIgnoreCase(name, "all") <==> name in AllSpellings
  {
    assert Lower("all") == "all";
    if |name| == 3 {
      LowerAll(name);
    }
  }

  /** Android `displayName`: any case variant of "all" is shown as "所有". */
  function AndroidDisplayName(v: JenkinsView): (r: string)
    ensures r == AllTitle <==> v.name in AllSpellings || v.name == AllTitle
    ensures r != AllTitle ==> r == v.name
  {
    IgnoreCaseAllSpellings(v.name);
    if EqualsIgnoreCase(v.name, "all") then AllTitle else v.name
  }

  /** iOS `displayName`: only "all" and "All". */
  function IosDisplayName(v: JenkinsView): (r: string)
    ensures r == AllTitle <==> v.name in {"all", "All", AllTitle}
    ensures r != AllTitle ==> r == v.name
  {
    if v.name == "all" || v.name == "All" then AllTitle else v.name
  }

  /** The platforms disagree exactly on the six other case variants, such as "ALL". */
  lemma DisplayNamesDiffer(v: JenkinsView)
    ensures AndroidDisplayName(v) != IosDisplayName(v) <==> v.name in AllSpellings - {"all", "All"}
  {
  }

  /** Only the name matters. */
  lemma DisplayNameOnlyReadsName(v: JenkinsView, w: JenkinsView)
    requires v.name == w.name
    ensures AndroidDisplayName(v) == AndroidDisplayName(w)
    ensures IosDisplayName(v) == IosDisplayName(w)
  {
  }

  /** Titling a title changes nothing, on either platform. */
  lemma DisplayNameIdempotent(v: JenkinsView)
    ensures var t := AndroidDisplayName(v);
            AndroidDisplayName(JenkinsView(t, v.url, v.jobNames)) == t
    ensures var t := IosDisplayName(v);
            IosDisplayName(JenkinsView(t, v.url, v.jobNames)) == t
  {
  }
}

=== FILE: job.dfy ===
/** A Jenkins job as both clients see it (Job.kt, Job.swift): the status read
    off the ball colour, the "building" flag and the health score. */
module Jobs {
  import opened Wrappers
  import opened Strings

  datatype JobStatus = Success | Failure | Unstable | Disabled | Aborted | NotBuilt | Unknown

  datatype HealthReport = HealthReport(description: Option<string>, score: int)

  datatype BuildReference = BuildReference(number: int, url: string)

  datatype Job = Job(
    name: string,
    url: string,
    color: Option<string>,
    lastBuild: Option<BuildReference>,
    buildable: Option<bool>,
    healthReport: Option<seq<HealthReport>>)

  /** Jenkins' base ball colours and the status each stands for; a colour
      with the `_anime` suffix is the same colour while a build runs. */
  const Palette: seq<(string, JobStatus)> := [
    ("blue", Success), ("red", Failure), ("yellow", Unstable), ("grey", Disabled),
    ("disabled", Disabled), ("aborted", Aborted), ("notbuilt", NotBuilt)]

  /** The colour is a palette entry or its `_anime` variant. */
  predicate InPalette(c: string) {
    exists i :: 0 <= i < |Palette| && (c == Palette[i].0 || c == Palette[i].0 + "_anime")
  }

  /** Android `Job.status`: a `when` over the fourteen colour strings; null matches nothing. */
  function AndroidStatus(color: Option<string>): (r: JobStatus)
    ensures r != Unknown ==> color.Some? && InPalette(color.value)
  {
    if color.None? then Unknown
    else
      var c := color.value;
      KnownIsInPalette(c);
      if c == "blue" || c == "blue_anime" then Success
      else if c == "red" || c == "red_anime" then Failure
      else if c == "yellow" || c == "yellow_anime" then Unstable
      else if c == "grey" || c == "grey_anime" || c == "disabled" || c == "disabled_anime" then Disabled
      else if c == "aborted" || c == "aborted_anime" then Aborted
      else if c == "notbuilt" || c == "notbuilt_anime" then NotBuilt
      else Unknown
  }

  /** The palette is the whole story: a colour has a known status exactly when
      it is a palette entry or its running variant, and then the entry's status. */
  lemma StatusFollowsPalette(color: Option<string>)
    ensures AndroidStatus(color) != Unknown <==> color.Some? && InPalette(color.value)
    ensures forall i :: 0 <= i < |Palette| && color.Some?
              && (color.value == Palette[i].0 || color.value == Palette[i].0 + "_anime")
              ==> AndroidStatus(color) == Palette[i].1
  {
    if color.Some? {
      PaletteStatuses(color.value);
    }
  }

  /** Every colour the lookup knows is on the palette. */
  lemma KnownIsInPalette(c: string)
    ensures c in {"blue", "blue_anime", "red", "red_anime", "yellow", "yellow_anime", "grey", "grey_anime",
                  "disabled", "disabled_anime", "aborted", "aborted_anime", "notbuilt", "notbuilt_anime"}
            ==> InPalette(c)
  {
    if c == "blue" || c == "blue_anime" {
      assert Palette[0].0 == "blue" && Palette[0].0 + "_anime" == "blue_anime";
    } else if c == "red" || c == "red_anime" {
      assert Palette[1].0 == "red" && Palette[1].0 + "_anime" == "red_anime";
    } else if c == "yellow" || c == "yellow_anime" {
      assert Palette[2].0 == "yellow" && Palette[2].0 + "_anime" == "yellow_anime";
    } else if c == "grey" || c == "grey_anime" {
      assert Palette[3].0 == "grey" && Palette[3].0 + "_anime" == "grey_anime";
    } else if c == "disabled" || c == "disabled_anime" {
      assert Palette[4].0 == "disabled" && Palette[4].0 + "_anime" == "disabled_anime";
    } else if c == "aborted" || c == "aborted_anime" {
      assert Palette[5].0 == "aborted" && Palette[5].0 + "_anime" == "aborted_anime";
    } else if c == "notbuilt" || c == "notbuilt_anime" {
      assert Palette[6].0 == "notbuilt" && Palette[6].0 + "_anime" == "notbuilt_anime";
    }
  }

  /** A palette entry and its running variant read as the entry's status, which is never unknown. */
  lemma PaletteStatuses(c: string)
    ensures forall i :: 0 <= i < |Palette| && (c == Palette[i].0 || c == Palette[i].0 + "_anime")
              ==> AndroidStatus(Some(c)) == Palette[i].1 != Unknown
  {
    forall i | 0 <= i < |Palette| && (c == Palette[i].0 || c == Palette[i].0 + "_anime")
      ensures AndroidStatus(Some(c)) == Palette[i].1 != Unknown
    {
      AnimeKeepsStatus(i);
    }
  }

  /** iOS `Job.status`: `guard let` on the colour, then a `switch` over the same strings. */
  function IosStatus(color: Option<string>): (r: JobStatus)
    ensures r == AndroidStatus(color)
  {
    match color
    case None => Unknown
    case Some(c) =>
      if c in {"blue", "blue_anime"} then Success
      else if c in {"red", "red_anime"} then Failure
      else if c in {"yellow", "yellow_anime"} then Unstable
      else if c in {"grey", "grey_anime", "disabled", "disabled_anime"} then Disabled
      else if c in {"aborted", "aborted_anime"} then Aborted
      else if c in {"notbuilt", "notbuilt_anime"} then NotBuilt
      else Unknown
  }

  /** The two platforms read every colour the same way. */
  lemma StatusesAgree(color: Option<string>)
    ensures IosStatus(color) == AndroidStatus(color)
  {
  }

  /** A base colour and its running variant have the same status. */
  lemma AnimeKeepsStatus(i: int)
    requires 0 <= i < |Palette|
    ensures AndroidStatus(Some(Palette[i].0)) == AndroidStatus(Some(Palette[i].0 + "_anime")) == Palette[i].1
  {
    var b := Palette[i].0;
    if i == 0 { assert b == "blue"; assert b + "_anime" == "blue_anime"; }
    else if i == 1 { assert b == "red"; assert b + "_anime" == "red_anime"; }
    else if i == 2 { assert b == "yellow"; assert b + "_anime" == "yellow_anime"; }
    else if i == 3 { assert b == "grey"; assert b + "_anime" == "grey_anime"; }
    else if i == 4 { assert b == "disabled"; assert b + "_anime" == "disabled_anime"; }
    else if i == 5 { assert b == "aborted"; assert b + "_anime" == "aborted_anime"; }
    else { assert b == "notbuilt"; assert b + "_anime" == "notbuilt_anime"; }
  }

  /** The lookup is exact and case-sensitive: anything off the palette is unknown. */
  lemma OffPaletteIsUnknown()
    ensures AndroidStatus(None) == Unknown
    ensures AndroidStatus(Some("BLUE")) == Unknown
    ensures AndroidStatus(Some("blue_anime_x")) == Unknown
    ensures AndroidStatus(Some("foo_anime")) == Unknown
  {
  }

  /** `isBuilding` on both platforms: the colour contains `_anime` anywhere; no colour means not building. */
  function IsBuilding(color: Option<string>): (r: bool)
    ensures r <==> color.Some? && exists i :: OccursAt(color.value, "_anime", i)
  {
    if color.Some? then ContainsIff(color.value, "_anime"); Contains(color.value, "_anime")
    else false
  }

  /** Status and the building flag are read independently. */
  lemma BuildingIndependentOfStatus()
    ensures AndroidStatus(Some("foo_anime")) == Unknown && IsBuilding(Some("foo_anime"))
    ensures AndroidStatus(Some("blue")) == Success && !IsBuilding(Some("blue"))
  {
    assert OccursAt("foo_anime", "_anime", 3);
  }

  /** `healthScore`: the first report's score, 0 when there are no reports. */
  function HealthScore(reports: Option<seq<HealthReport>>): (r: int)
    ensures reports.None? || reports.value == [] ==> r == 0
    ensures reports.Some? && reports.value != [] ==> r == reports.value[0].score
  {
    match reports
    case Some(rs) => if rs == [] then 0 else rs[0].score
    case None => 0
  }
}

=== FILE: parameter_form.dfy ===
/** The state of the build-parameters form shared by the Android dialog and
    the iOS sheet: a map from parameter name to its text value, seeded from
    the definitions' defaults, read with "" for a missing key, edited one key
    at a time, and submitted as a snapshot. Boolean parameters are stored as
    the strings "true" and "false". */
module ParameterForm {
  import opened Wrappers
  import opened Strings
  import opened Parameters

  type Values = map<string, string>

  // ---------------------------------------------------------------- initial values

  /** The names the definitions declare. */
  function Names(defs: seq<ParameterDefinition>): set<string> {
    set i | 0 <= i < |defs| :: defs[i].name
  }

  /** Definition `i` is the last one carrying its name. */
  predicate LastOfName(defs: seq<ParameterDefinition>, i: int) {
    0 <= i < |defs| && forall j :: i < j < |defs| ==> defs[j].name != defs[i].name
  }

  /** Each definition's default is put in order, so a later duplicate name
      overwrites an earlier one. */
  function InitialValues(defs: seq<ParameterDefinition>): (m: Values)
    ensures m.Keys == Names(defs)
    ensures forall i :: LastOfName(defs, i) ==> m[defs[i].name] == DefaultValue(defs[i])
    decreases |defs|
  {
    if defs == [] then map[]
    else
      var init, d := defs[..|defs| - 1], defs[|defs| - 1];
      var m := InitialValues(init);
      NamesSnoc(defs);
      LastOfNameSnoc(defs);
      m[d.name := DefaultValue(d)]
  }

  /** The names of a list are those of all but its last entry, plus the last one's. */
  lemma NamesSnoc(defs: seq<ParameterDefinition>)
    requires defs != []
    ensures Names(defs) == Names(defs[..|defs| - 1]) + {defs[|defs| - 1].name}
  {
    var init := defs[..|defs| - 1];
    forall x | x in Names(defs) ensures x in Names(init) + {defs[|defs| - 1].name} {
      var i :| 0 <= i < |defs| && defs[i].name == x;
      if i < |defs| - 1 {
        assert init[i] == defs[i];
      }
    }
    forall x | x in Names(init) ensures x in Names(defs) {
      var i :| 0 <= i < |init| && init[i].name == x;
      assert defs[i] == init[i];
    }
  }

  /** A last-of-its-name entry before the end stays last within the shorter list. */
  lemma LastOfNameSnoc(defs: seq<ParameterDefinition>)
    requires defs != []
    ensures forall i :: LastOfName(defs, i) && i < |defs| - 1 ==>
      LastOfName(defs[..|defs| - 1], i) && defs[..|defs| - 1][i] == defs[i] && defs[i].name != defs[|defs| - 1].name
  {
  }

  lemma InitialValuesDuplicate()
    ensures var a := ParameterDefinition("p", None, None, Some(ParameterValue(None, Some("1"))), None);
            var b := ParameterDefinition("p", None, None, Some(ParameterValue(None, Some("2"))), None);
            InitialValues([a, b]) == map["p" := "2"]
  {
    var a := ParameterDefinition("p", None, None, Some(ParameterValue(None, Some("1"))), None);
    var b := ParameterDefinition("p", None, None, Some(ParameterValue(None, Some("2"))), None);
    assert [a, b][..1] == [a];
    assert [a][..0] == [];
  }

  // ---------------------------------------------------------------- reading and editing

  /** A field's text: "" for a key the map does not hold. */
  function Lookup(m: Values, key: string): string {
    if key in m then m[key] else ""
  }

  function Update(m: Values, key: string, v: string): (r: Values)
    ensures r.Keys == m.Keys + {key}
  {
    m[key := v]
  }

  /** An edit writes its key and leaves every other field as it was. */
  lemma LookupUpdate(m: Values, key: string, v: string, other: string)
    ensures Lookup(Update(m, key, v), key) == v
    ensures other != key ==> Lookup(Update(m, key, v), other) == Lookup(m, other)
  {
  }

  datatype Edit = Edit(key: string, value: string)

  /** Edits applied in order. */
  function ApplyEdits(m: Values, edits: seq<Edit>): Values
    decreases |edits|
  {
    if edits == [] then m else ApplyEdits(Update(m, edits[0].key, edits[0].value), edits[1..])
  }

  /** The value of the last edit to `key`, if any. */
  function LastEdit(edits: seq<Edit>, key: string): Option<string>
    decreases |edits|
  {
    if edits == [] then None
    else
      var later := LastEdit(edits[1..], key);
      if later.Some? then later else if edits[0].key == key then Some(edits[0].value) else None
  }

  /** What the form submits: for every key, the last value written to it,
      or the seeded value when it was never edited. */
  lemma {:induction false} ApplyEditsLookup(m: Values, edits: seq<Edit>, key: string)
    ensures Lookup(ApplyEdits(m, edits), key) == LastEdit(edits, key).GetOr(Lookup(m, key))
    decreases |edits|
  {
    if edits != [] {
      var m' := Update(m, edits[0].key, edits[0].value);
      ApplyEditsLookup(m', edits[1..], key);
      LookupUpdate(m, edits[0].key, edits[0].value, key);
    }
  }

  /** Editing never removes a field. */
  lemma {:induction false} ApplyEditsKeys(m: Values, edits: seq<Edit>)
    ensures m.Keys <= ApplyEdits(m, edits).Keys
    decreases |edits|
  {
    if edits != [] {
      ApplyEditsKeys(Update(m, edits[0].key, edits[0].value), edits[1..]);
    }
  }

  /** The "build" action submits the map as it stands. */
  function Submit(m: Values): Values {
    m
  }

  // ---------------------------------------------------------------- booleans

  /** The switch is on iff the text lower-cases to "true". */
  predicate Checked(v: string) {
    Lower(v) == "true"
  }

  /** Flipping the switch writes exactly "true" or "false". */
  function Toggle(on: bool): (r: string)
    ensures r in {"true", "false"}
  {
    if on then "true" else "false"
  }

  lemma CheckedToggle(on: bool)
    ensures Checked(Toggle(on)) == on
  {
    assert Lower("false") == "false";
  }

  /** A boolean default from Jenkins shows as the switch position it encodes. */
  lemma CheckedDecodedBool(b: bool)
    ensures Checked(DecodeValue(Some(JBool(b))).value) == b
  {
    CheckedToggle(b);
  }

  /** Any casing of "true" turns the switch on; other text leaves it off. */
  lemma CheckedExamples()
    ensures Checked("TRUE") && Checked("True")
    ensures !Checked("1") && !Checked("yes") && !Checked("")
  {
    assert Lower("TRUE") == "true";
    assert Lower("True") == "true";
  }

  // ---------------------------------------------------------------- editors

  /** The control a parameter is edited with. */
  datatype Editor = Menu(options: seq<string>) | Switch | MultiLine | Secret | SingleLine

  /** Android: a choice is always a read-only dropdown over its choices, an
      absent list giving an empty menu. */
  function AndroidEditor(d: ParameterDefinition): Editor {
    match ParamType(d)
    case Choice => Menu(d.choices.GetOr([]))
    case BooleanParam => Switch
    case Text => MultiLine
    case Password => Secret
    case StringParam => SingleLine
  }

  /** iOS: a choice with no options falls back to a free-text field. */
  function IosEditor(d: ParameterDefinition): Editor {
    match ParamType(d)
    case Choice => if d.choices.Some? && d.choices.value != [] then Menu(d.choices.value) else SingleLine
    case BooleanParam => Switch
    case Text => MultiLine
    case Password => Secret
    case StringParam => SingleLine
  }

  /** The text an editor can write into its field. */
  predicate CanWrite(e: Editor, v: string) {
    match e
    case Menu(options) => v in options
    case Switch => v in {"true", "false"}
    case _ => true
  }

  /** The two platforms offer the same control except for a choice parameter
      with no options. */
  lemma EditorsAgree(d: ParameterDefinition)
    ensures AndroidEditor(d) == IosEditor(d) <==>
      !(ParamType(d) == Choice && (d.choices.None? || d.choices.value == []))
  {
  }

  /** On Android such a parameter can never be given any value, while iOS
      accepts any text for it. */
  lemma EmptyChoiceFrozenOnAndroid(d: ParameterDefinition, v: string)
    requires ParamType(d) == Choice && (d.choices.None? || d.choices.value == [])
    ensures !CanWrite(AndroidEditor(d), v)
    ensures CanWrite(IosEditor(d), v)
  {
  }

  /** An edit sequence made through the form's editors: each edit targets a
      declared parameter and writes something that parameter's editor can. */
  predicate ThroughEditors(defs: seq<ParameterDefinition>, editor: ParameterDefinition -> Editor, edits: seq<Edit>) {
    forall k :: 0 <= k < |edits| ==>
      exists i :: 0 <= i < |defs| && defs[i].name == edits[k].key && CanWrite(editor(defs[i]), edits[k].value)
  }

  /** The last edit to a key comes from one of the edits. */
  lemma {:induction false} LastEditIsAnEdit(edits: seq<Edit>, key: string)
    ensures LastEdit(edits, key).Some? ==>
      exists k :: 0 <= k < |edits| && edits[k].key == key && edits[k].value == LastEdit(edits, key).value
    decreases |edits|
  {
    if edits != [] {
      LastEditIsAnEdit(edits[1..], key);
      if LastEdit(edits[1..], key).Some? {
        var k :| 0 <= k < |edits[1..]| && edits[1..][k].key == key && edits[1..][k].value == LastEdit(edits[1..], key).value;
        assert edits[k + 1] == edits[1..][k];
      }
    }
  }

  /** On Android a boolean parameter whose name is not shared submits either
      its default or exactly "true"/"false". */
  lemma AndroidBooleanSubmits(defs: seq<ParameterDefinition>, edits: seq<Edit>, i: int)
    requires 0 <= i < |defs| && ParamType(defs[i]) == BooleanParam
    requires forall j :: 0 <= j < |defs| && j != i ==> defs[j].name != defs[i].name
    requires ThroughEditors(defs, AndroidEditor, edits)
    ensures Lookup(ApplyEdits(InitialValues(defs), edits), defs[i].name) in {"true", "false", DefaultValue(defs[i])}
  {
    var key := defs[i].name;
    ApplyEditsLookup(InitialValues(defs), edits, key);
    assert LastOfName(defs, i);
    LastEditIsAnEdit(edits, key);
    if LastEdit(edits, key).Some? {
      var k :| 0 <= k < |edits| && edits[k].key == key && edits[k].value == LastEdit(edits, key).value;
      var j :| 0 <= j < |defs| && defs[j].name == edits[k].key && CanWrite(AndroidEditor(defs[j]), edits[k].value);
      assert j == i;
    }
  }
}

=== FILE: parameters.dfy ===
/** Build parameter definitions as Jenkins reports them in a job's
    `property` list, the type sniffing that chooses an editor, the decoding
    rule for a parameter value, and the rebuild prefill shared by both
    build-detail screens. */
module Parameters {
  import opened Wrappers
  import opened Strings
  import Builds

  datatype ParameterType = StringParam | Text | BooleanParam | Choice | Password

  /** A default value: both fields are optional in the JSON. */
  datatype ParameterValue = ParameterValue(name: Option<string>, value: Option<string>)

  datatype ParameterDefinition = ParameterDefinition(
    name: string,
    typ: Option<string>,
    description: Option<string>,
    defaultParameterValue: Option<ParameterValue>,
    choices: Option<seq<string>>)

  datatype JobProperty = JobProperty(parameterDefinitions: Option<seq<ParameterDefinition>>)

  /** The job detail response; only the fields the view models read. */
  datatype JobDetail = JobDetail(
    name: string,
    url: string,
    color: Option<string>,
    builds: Option<seq<Builds.Build>>,
    property: Option<seq<JobProperty>>)

  /** A parameter of an existing build, as listed in its detail response. */
  datatype BuildParameter = BuildParameter(name: string, value: Option<string>)

  // ---------------------------------------------------------------- type sniffing

  /** `parameterType` exactly as the source writes it, including the
      `ExtendedChoice` test that can never decide anything. */
  function ParamType(d: ParameterDefinition): ParameterType {
    if d.typ.None? then StringParam
    else
      var t := d.typ.value;
      if Contains(t, "Choice") || Contains(t, "ExtendedChoice") then Choice
      else if Contains(t, "Boolean") then BooleanParam
      else if Contains(t, "Text") then Text
      else if Contains(t, "Password") then Password
      else StringParam
  }

  /** The markers in the order they are tried. */
  const Markers: seq<(string, ParameterType)> :=
    [("Choice", Choice), ("Boolean", BooleanParam), ("Text", Text), ("Password", Password)]

  /** Reference reading: the first marker the type name contains wins, and a
      name with no marker is a plain string parameter. */
  function FirstMarker(t: string, markers: seq<(string, ParameterType)>): (r: ParameterType)
    ensures r != StringParam ==> exists i :: 0 <= i < |markers| && markers[i].1 == r && Contains(t, markers[i].0)
    ensures (forall i :: 0 <= i < |markers| ==> !Contains(t, markers[i].0)) ==> r == StringParam
    ensures forall i :: (0 <= i < |markers| && Contains(t, markers[i].0) &&
                         forall j :: 0 <= j < i ==> !Contains(t, markers[j].0)) ==> r == markers[i].1
    decreases |markers|
  {
    if markers == [] then StringParam
    else if Contains(t, markers[0].0) then markers[0].1
    else
      var r := FirstMarker(t, markers[1..]);
      assert forall i :: 1 <= i < |markers| ==> markers[1..][i - 1] == markers[i];
      r
  }

  /** "ExtendedChoice" contains "Choice", so the second test is redundant. */
  lemma ExtendedChoiceRedundant(t: string)
    ensures Contains(t, "ExtendedChoice") ==> Contains(t, "Choice")
  {
    if Contains(t, "ExtendedChoice") {
      assert "ExtendedChoice"[8..14] == "Choice";
      ContainsInfix(t, "ExtendedChoice", 8, 14);
    }
  }

  /** The source's type sniffing is the first-marker rule, with a missing type
      read as a string parameter. */
  lemma ParamTypeIsFirstMarker(d: ParameterDefinition)
    ensures ParamType(d) == (if d.typ.None? then StringParam else FirstMarker(d.typ.value, Markers))
  {
    if d.typ.Some? {
      var t := d.typ.value;
      ExtendedChoiceRedundant(t);
      FirstMarkerChain(t);
    }
  }

  /** `FirstMarker` over `Markers`, written out as the chain of tests it performs. */
  lemma FirstMarkerChain(t: string)
    ensures FirstMarker(t, Markers) ==
      (if Contains(t, "Choice") then Choice
       else if Contains(t, "Boolean") then BooleanParam
       else if Contains(t, "Text") then Text
       else if Contains(t, "Password") then Password
       else StringParam)
  {
    var m1 := Markers[1..];
    var m2 := m1[1..];
    var m3 := m2[1..];
    assert m1 == [("Boolean", BooleanParam), ("Text", Text), ("Password", Password)];
    assert m2 == [("Text", Text), ("Password", Password)];
    assert m3 == [("Password", Password)];
    assert m3[1..] == [];
  }

  /** A type name mentioning two markers takes the earlier one. */
  lemma ChoiceBeforeBoolean()
    ensures ParamType(ParameterDefinition("p", Some("BooleanChoice"), None, None, None)) == Choice
  {
    assert StartsWith("BooleanChoice"[7..], "Choice");
    assert Contains("BooleanChoice", "Choice") by {
      assert OccursAt("BooleanChoice", "Choice", 7);
      ContainsIff("BooleanChoice", "Choice");
    }
  }

  /** Names with a single marker, or none, are sniffed by that marker. */
  lemma PasswordSniffed()
    ensures ParamType(ParameterDefinition("p", Some("Password"), None, None, None)) == Password
  {
    PasswordMarkers();
    SniffedOnlyByPassword("Password");
  }

  /** "Password" holds its own marker and none of the earlier ones. */
  lemma PasswordMarkers()
    ensures !Contains("Password", "Choice") && !Contains("Password", "Boolean")
    ensures !Contains("Password", "Text") && Contains("Password", "Password")
  {
    var ms := ["Choice", "Boolean", "Text"];
    NoneOccur("Password", ms);
    assert ms[0] == "Choice" && ms[1] == "Boolean" && ms[2] == "Text";
    ContainsItself("Password");
  }

  lemma ContainsItself(s: string)
    ensures Contains(s, s)
  {
    assert s[..|s|] == s;
  }

  /** A type name holding only the password marker is a password parameter. */
  lemma SniffedOnlyByPassword(t: string)
    requires !Contains(t, "Choice") && !Contains(t, "Boolean") && !Contains(t, "Text")
    requires Contains(t, "Password")
    ensures ParamType(ParameterDefinition("p", Some(t), None, None, None)) == Password
  {
    ExtendedChoiceRedundant(t);
  }

  lemma StringSniffed()
    ensures ParamType(ParameterDefinition("p", Some("String"), None, None, None)) == StringParam
    ensures ParamType(ParameterDefinition("p", None, None, None, None)) == StringParam
  {
    var ms := ["Choice", "Boolean", "Text", "Password"];
    NoneOccur("String", ms);
    SniffedByNoMarker("String", ms);
  }

  /** A type name holding none of the markers is a plain string parameter. */
  lemma SniffedByNoMarker(t: string, ms: seq<string>)
    requires ms == ["Choice", "Boolean", "Text", "Password"]
    requires forall i :: 0 <= i < |ms| ==> !Contains(t, ms[i])
    ensures ParamType(ParameterDefinition("p", Some(t), None, None, None)) == StringParam
  {
    assert !Contains(t, ms[0]) && !Contains(t, ms[1]) && !Contains(t, ms[2]) && !Contains(t, ms[3]);
    ExtendedChoiceRedundant(t);
  }

  /** No pattern whose first character is missing from `s` is contained in it. */
  lemma {:induction false} NoneOccur(s: string, ts: seq<string>)
    requires forall i :: 0 <= i < |ts| ==> ts[i] != [] && ts[i][0] !in s
    ensures forall i :: 0 <= i < |ts| ==> !Contains(s, ts[i])
  {
    forall i | 0 <= i < |ts| {
      NoOccurrence(s, ts[i]);
    }
  }

  /** A pattern whose first character never appears in `s` is not contained in it. */
  lemma {:induction false} NoOccurrence(s: string, t: string)
    requires t != [] && t[0] !in s
    ensures !Contains(s, t)
    decreases |s|
  {
    if s != [] {
      assert s[0] != t[0];
      assert forall k :: 0 <= k < |s[1..]| ==> s[1..][k] == s[k + 1];
      NoOccurrence(s[1..], t);
    }
  }

  // ---------------------------------------------------------------- values

  /** The JSON shapes a `value` field may hold. */
  datatype Json = JString(s: string) | JBool(b: bool) | JNumber(n: int) | JNull | JStructured

  /** Decoding of a `value` field (`None` when the key is absent): a string is
      kept verbatim, a boolean becomes "true" or "false", anything else is nil. */
  function DecodeValue(v: Option<Json>): (r: Option<string>)
    ensures r.Some? <==> v.Some? && (v.value.JString? || v.value.JBool?)
    ensures v.Some? && v.value.JString? ==> r == Some(v.value.s)
    ensures v.Some? && v.value.JBool? ==> r.value in {"true", "false"} && (r.value == "true" <==> v.value.b)
  {
    match v
    case Some(JString(s)) => Some(s)
    case Some(JBool(b)) => Some(if b then "true" else "false")
    case _ => None
  }

  /** The value an editor starts from: the default's value, or "" when the
      default or its value is missing. */
  function DefaultValue(d: ParameterDefinition): (r: string)
    ensures d.defaultParameterValue.None? || d.defaultParameterValue.value.value.None? ==> r == ""
    ensures d.defaultParameterValue.Some? && d.defaultParameterValue.value.value.Some? ==>
      r == d.defaultParameterValue.value.value.value
  {
    if d.defaultParameterValue.Some? then d.defaultParameterValue.value.value.GetOr("") else ""
  }

  // ---------------------------------------------------------------- definitions of a job

  /** The non-nil per-property lists, concatenated in order. */
  function Collect(ps: seq<JobProperty>): seq<ParameterDefinition>
    decreases |ps|
  {
    if ps == [] then [] else ps[0].parameterDefinitions.GetOr([]) + Collect(ps[1..])
  }

  function Definitions(j: JobDetail): (r: seq<ParameterDefinition>)
    ensures j.property.None? ==> r == []
  {
    if j.property.None? then [] else Collect(j.property.value)
  }

  function HasParameters(j: JobDetail): bool {
    Definitions(j) != []
  }

  /** Collecting distributes over concatenation of property lists. */
  lemma {:induction false} CollectAppend(a: seq<JobProperty>, b: seq<JobProperty>)
    ensures Collect(a + b) == Collect(a) + Collect(b)
    decreases |a|
  {
    if a == [] {
      assert a + b == b;
    } else {
      assert (a + b)[1..] == a[1..] + b;
      CollectAppend(a[1..], b);
    }
  }

  /** A definition is collected exactly when some property lists it. */
  lemma {:induction false} CollectMembers(ps: seq<JobProperty>, d: ParameterDefinition)
    ensures d in Collect(ps) <==>
      exists i :: 0 <= i < |ps| && ps[i].parameterDefinitions.Some? && d in ps[i].parameterDefinitions.value
    decreases |ps|
  {
    if ps != [] {
      CollectMembers(ps[1..], d);
      if d in Collect(ps[1..]) {
        var i :| 0 <= i < |ps[1..]| && ps[1..][i].parameterDefinitions.Some? && d in ps[1..][i].parameterDefinitions.value;
        assert ps[i + 1] == ps[1..][i];
      }
      if exists i :: 0 <= i < |ps| && ps[i].parameterDefinitions.Some? && d in ps[i].parameterDefinitions.value {
        var i :| 0 <= i < |ps| && ps[i].parameterDefinitions.Some? && d in ps[i].parameterDefinitions.value;
        if i > 0 {
          assert ps[1..][i - 1] == ps[i];
        }
      }
    }
  }

  /** A job has parameters iff some property carries a non-empty list. */
  lemma {:induction false} CollectNonEmpty(ps: seq<JobProperty>)
    ensures Collect(ps) != [] <==>
      exists i :: 0 <= i < |ps| && ps[i].parameterDefinitions.Some? && ps[i].parameterDefinitions.value != []
    decreases |ps|
  {
    if ps != [] {
      CollectNonEmpty(ps[1..]);
      if exists i :: 0 <= i < |ps[1..]| && ps[1..][i].parameterDefinitions.Some? && ps[1..][i].parameterDefinitions.value != [] {
        var i :| 0 <= i < |ps[1..]| && ps[1..][i].parameterDefinitions.Some? && ps[1..][i].parameterDefinitions.value != [];
        assert ps[i + 1] == ps[1..][i];
      }
      if exists i :: 0 <= i < |ps| && ps[i].parameterDefinitions.Some? && ps[i].parameterDefinitions.value != [] {
        var i :| 0 <= i < |ps| && ps[i].parameterDefinitions.Some? && ps[i].parameterDefinitions.value != [];
        if i > 0 {
          assert ps[1..][i - 1] == ps[i];
        }
      }
    }
  }

  lemma HasParametersIff(j: JobDetail)
    ensures HasParameters(j) <==>
      j.property.Some? &&
      exists i :: 0 <= i < |j.property.value| && j.property.value[i].parameterDefinitions.Some? &&
                  j.property.value[i].parameterDefinitions.value != []
  {
    if j.property.Some? {
      CollectNonEmpty(j.property.value);
    }
  }

  // ---------------------------------------------------------------- rebuild prefill

  /** `find { it.name == name }`: the first build parameter with that name. */
  function FirstByName(ps: seq<BuildParameter>, name: string): (r: Option<nat>)
    ensures r.None? <==> forall k :: 0 <= k < |ps| ==> ps[k].name != name
    ensures r.Some? ==> r.value < |ps| && ps[r.value].name == name &&
                        forall k :: 0 <= k < r.value ==> ps[k].name != name
    decreases |ps|
  {
    if ps == [] then None
    else if ps[0].name == name then Some(0)
    else
      var t := FirstByName(ps[1..], name);
      assert forall k :: 1 <= k < |ps| ==> ps[k] == ps[1..][k - 1];
      if t.None? then None else Some(t.value + 1)
  }

  /** The value of the first build parameter with that name; nil when there
      is none or when that first one has no value. */
  function CurrentValue(ps: seq<BuildParameter>, name: string): Option<string> {
    var i := FirstByName(ps, name);
    if i.None? then None else ps[i.value].value
  }

  /** One definition with its default replaced by the build's current value. */
  function PrefillOne(d: ParameterDefinition, current: seq<BuildParameter>): ParameterDefinition {
    var v := CurrentValue(current, d.name);
    if v.Some? then d.(defaultParameterValue := Some(ParameterValue(Some(d.name), v))) else d
  }

  /** The definitions offered in the rebuild dialog: same order and names,
      with each default replaced by the value the build was run with, when
      that value is known. */
  function Prefill(defs: seq<ParameterDefinition>, current: seq<BuildParameter>): (r: seq<ParameterDefinition>)
    ensures |r| == |defs|
    ensures forall i :: 0 <= i < |defs| ==>
      r[i].name == defs[i].name && r[i].typ == defs[i].typ &&
      r[i].description == defs[i].description && r[i].choices == defs[i].choices
    ensures forall i :: 0 <= i < |defs| ==>
      r[i].defaultParameterValue ==
        (var v := CurrentValue(current, defs[i].name);
         if v.Some? then Some(ParameterValue(Some(defs[i].name), v)) else defs[i].defaultParameterValue)
  {
    seq(|defs|, i requires 0 <= i < |defs| => PrefillOne(defs[i], current))
  }

  /** The editor's starting value after prefill is the build's value where the
      build had one, and the definition's own default otherwise. */
  lemma PrefillDefaultValue(defs: seq<ParameterDefinition>, current: seq<BuildParameter>, i: int)
    requires 0 <= i < |defs|
    ensures DefaultValue(Prefill(defs, current)[i]) ==
      (var v := CurrentValue(current, defs[i].name); if v.Some? then v.value else DefaultValue(defs[i]))
  {
  }

  /** With no build parameters at all, prefill changes nothing. */
  lemma PrefillWithoutBuildParameters(defs: seq<ParameterDefinition>)
    ensures Prefill(defs, []) == defs
  {
  }

  /** Only the first same-name build parameter counts, even when it has no
      value and a later one does. */
  lemma PrefillUsesFirstMatch()
    ensures var d := ParameterDefinition("p", None, None, Some(ParameterValue(Some("p"), Some("x"))), None);
      Prefill([d], [BuildParameter("p", None), BuildParameter("p", Some("y"))]) == [d]
  {
  }
}

=== FILE: server.dfy ===
/** The server record both clients store after login (Server.kt, Server.swift):
    the validity check, the base-URL normalisation and the HTTP Basic
    `Authorization` value of section 2 of RFC 7617. */
module Servers {
  import opened Wrappers
  import opened Strings
  import Bytes
  import Base64
  import Utf8

  datatype Server = Server(url: string, username: string, apiToken: string)

  /** `Server.Empty` / `Server.empty`: the logged-out placeholder. */
  const Empty := Server("", "", "")

  /** Android `isValid`: no field is blank, so whitespace-only fields are rejected. */
  function AndroidIsValid(s: Server): (r: bool)
    ensures r <==> Trim(KotlinWhitespace, s.url) != []
                   && Trim(KotlinWhitespace, s.username) != []
                   && Trim(KotlinWhitespace, s.apiToken) != []
  {
    BlankIffTrimEmpty(KotlinWhitespace, s.url);
    BlankIffTrimEmpty(KotlinWhitespace, s.username);
    BlankIffTrimEmpty(KotlinWhitespace, s.apiToken);
    !IsBlank(KotlinWhitespace, s.url) && !IsBlank(KotlinWhitespace, s.username)
    && !IsBlank(KotlinWhitespace, s.apiToken)
  }

  /** iOS `isValid`: no field is empty; whitespace-only fields pass. */
  function IosIsValid(s: Server): (r: bool)
    ensures AndroidIsValid(s) ==> r
    ensures r ==> s != Empty
  {
    s.url != [] && s.username != [] && s.apiToken != []
  }

  /** Every server Android accepts, iOS accepts too; the converse fails for whitespace-only fields. */
  lemma AndroidValidIsIosValid(s: Server)
    ensures AndroidIsValid(s) ==> IosIsValid(s)
    ensures !AndroidIsValid(Server(" ", "u", "t")) && IosIsValid(Server(" ", "u", "t"))
  {
    var w := Server(" ", "u", "t");
    assert !AndroidIsValid(w) by {
      assert IsBlank(KotlinWhitespace, w.url);
    }
  }

  lemma EmptyIsInvalid()
    ensures !AndroidIsValid(Empty) && !IosIsValid(Empty)
  {
  }

  /** The url starts with one of the two accepted schemes (case-sensitive). */
  predicate HasScheme(t: string) {
    StartsWith(t, "http://") || StartsWith(t, "https://")
  }

  /** The string normalisation shared by Android `baseUrl` and iOS `baseURL`,
      applied to the already trimmed url: add `https://` when no scheme is
      present, then drop exactly one trailing `/`. */
  function Normalize(t: string): (r: string)
    ensures var p := if HasScheme(t) then t else "https://" + t;
            if EndsWith(p, "/") then r + "/" == p else r == p
  {
    var p := if HasScheme(t) then t else "https://" + t;
    if EndsWith(p, "/") then
      assert p[..|p| - 1] + "/" == p;
      p[..|p| - 1]
    else p
  }

  /** A prefix of `p` survives dropping one trailing character from a longer `p`. */
  lemma PrefixSurvives(p: string, r: string, q: string)
    requires StartsWith(p, q) && |p| > |q|
    requires r == p || r + "/" == p
    ensures StartsWith(r, q)
  {
    if r != p {
      assert r[..|q|] == p[..|q|];
    }
  }

  /** The result keeps a scheme for every url except the three degenerate ones,
      where dropping the slash eats into the scheme itself. */
  lemma NormalizeKeepsScheme(t: string)
    ensures HasScheme(Normalize(t)) <==> t !in {"", "http://", "https://"}
  {
    var p := if HasScheme(t) then t else "https://" + t;
    var r := Normalize(t);
    if t == "" {
      assert r == "https:/";
      assert r[4] != "http://"[4];
      assert !StartsWith(r, "https://") && !StartsWith(r, "http://");
    } else if t == "http://" {
      assert r == "http:/" && |r| == 6;
      assert r[4] != "https://"[4];
      assert !StartsWith(r, "https://") && !StartsWith(r, "http://");
    } else if t == "https://" {
      assert r == "https:/";
      assert r[4] != "http://"[4];
      assert !StartsWith(r, "https://") && !StartsWith(r, "http://");
    } else if StartsWith(t, "https://") {
      PrefixSurvives(t, r, "https://");
    } else if StartsWith(t, "http://") {
      PrefixSurvives(t, r, "http://");
    } else {
      assert p[..8] == "https://";
      PrefixSurvives(p, r, "https://");
    }
  }

  /** A url that already carries a scheme keeps it verbatim, up to the dropped slash. */
  lemma NormalizeKeepsExistingScheme(t: string)
    requires HasScheme(t) && !EndsWith(t, "/")
    ensures Normalize(t) == t
  {
  }

  /** A url without a scheme or trailing slash only gains the https scheme. */
  lemma NormalizeAddsScheme(t: string)
    requires t != [] && t[0] != 'h' && t[|t| - 1] != '/'
    ensures Normalize(t) == "https://" + t
  {
    assert !StartsWith(t, "http://") && !StartsWith(t, "https://") by {
      if |t| >= 7 {
        assert t[..7][0] == t[0];
      }
      if |t| >= 8 {
        assert t[..8][0] == t[0];
      }
    }
    var p := "https://" + t;
    assert p[|p| - 1..][0] == t[|t| - 1];
  }

  /** A url with a scheme and a trailing slash only loses the slash. */
  lemma NormalizeDropsSlash(t: string)
    requires StartsWith(t, "http://") && t[|t| - 1] == '/'
    ensures Normalize(t) == t[..|t| - 1]
  {
    assert t[|t| - 1..] == "/";
  }

  /** Only one trailing slash goes, and the scheme test is case-sensitive. */
  lemma NormalizeExamples()
    ensures Normalize("http://x/") == "http://x"
    ensures Normalize("http://x//") == "http://x/"
    ensures Normalize("jenkins.local") == "https://jenkins.local"
    ensures Normalize("HTTP://x") == "https://HTTP://x"
  {
    DropsSlashExample();
    DropsOnlyOneSlashExample();
    AddsSchemeExample();
    UpperCaseSchemeExample();
  }

  lemma AddsSchemeExample()
    ensures Normalize("jenkins.local") == "https://jenkins.local"
  {
    NormalizeAddsScheme("jenkins.local");
  }

  lemma DropsSlashExample()
    ensures Normalize("http://x/") == "http://x"
  {
    assert "http://x/"[..7] == "http://";
    NormalizeDropsSlash("http://x/");
    assert "http://x/"[..8] == "http://x";
  }

  lemma DropsOnlyOneSlashExample()
    ensures Normalize("http://x//") == "http://x/"
  {
    assert "http://x//"[..7] == "http://";
    NormalizeDropsSlash("http://x//");
    assert "http://x//"[..9] == "http://x/";
  }

  /** The scheme test is case-sensitive: an upper-case scheme is not one. */
  lemma UpperCaseSchemeExample()
    ensures !HasScheme("HTTP://x") && Normalize("HTTP://x") == "https://HTTP://x"
  {
    NormalizeAddsScheme("HTTP://x");
  }

  /** Android `baseUrl`: Kotlin `trim()` then the shared normalisation. */
  function AndroidBaseUrl(s: Server): (r: string)
    ensures HasScheme(r) <==> Trim(KotlinWhitespace, s.url) !in {"", "http://", "https://"}
    ensures var t := Trim(KotlinWhitespace, s.url);
            HasScheme(t) && !EndsWith(t, "/") ==> r == t
  {
    var t := Trim(KotlinWhitespace, s.url);
    NormalizeKeepsScheme(t);
    Normalize(t)
  }

  /** The string iOS `baseURL` hands to `URL(string:)`. */
  function IosBaseUrlString(s: Server): (r: string)
    ensures HasScheme(r) <==> Trim(SwiftWhitespacesAndNewlines, s.url) !in {"", "http://", "https://"}
    ensures var t := Trim(SwiftWhitespacesAndNewlines, s.url);
            HasScheme(t) && !EndsWith(t, "/") ==> r == t
  {
    var t := Trim(SwiftWhitespacesAndNewlines, s.url);
    NormalizeKeepsScheme(t);
    Normalize(t)
  }

  /** The two classes differ only on U+001C..U+001F (Kotlin) and U+0085 (Swift). */
  predicate HasDisputedSpace(url: string) {
    exists i :: 0 <= i < |url| && (('\U{001C}' <= url[i] <= '\U{001F}') || url[i] == '\U{0085}')
  }

  /** Both platforms produce the same base url unless the url holds a character
      only one of them counts as whitespace. */
  lemma BaseUrlsAgree(s: Server)
    requires !HasDisputedSpace(s.url)
    ensures AndroidBaseUrl(s) == IosBaseUrlString(s)
  {
    TrimAgree(KotlinWhitespace, SwiftWhitespacesAndNewlines, s.url);
  }

  lemma KotlinKeepsNextLine()
    ensures Trim(KotlinWhitespace, "x\U{0085}") == "x\U{0085}"
  {
    TrimUnchanged(KotlinWhitespace, "x\U{0085}");
  }

  lemma SwiftDropsNextLine()
    ensures Trim(SwiftWhitespacesAndNewlines, "x\U{0085}") == "x"
  {
    TrimDropsTrailingSpace(SwiftWhitespacesAndNewlines, 'x', '\U{0085}');
  }

  /** U+0085 (NEXT LINE) is trimmed by iOS but kept by Android. */
  lemma BaseUrlsDiverge()
    ensures AndroidBaseUrl(Server("x\U{0085}", "u", "t")) == "https://x\U{0085}"
    ensures IosBaseUrlString(Server("x\U{0085}", "u", "t")) == "https://x"
  {
    assert AndroidBaseUrl(Server("x\U{0085}", "u", "t")) == "https://x\U{0085}" by {
      KotlinKeepsNextLine();
      NormalizeAddsScheme("x\U{0085}");
    }
    assert IosBaseUrlString(Server("x\U{0085}", "u", "t")) == "https://x" by {
      SwiftDropsNextLine();
      NormalizeAddsScheme("x");
    }
  }

  // ---------------------------------------------------------------- Basic credentials

  /** `"$username:$apiToken"`, the user-pass of RFC 7617. */
  function Credentials(s: Server): string {
    s.username + ":" + s.apiToken
  }

  /** `authHeader` on both platforms: "Basic " and the base64 of the UTF-8 user-pass
      (`Base64.NO_WRAP` and `base64EncodedString()` both emit one unbroken line). */
  function AuthHeader(s: Server): (r: string)
    ensures StartsWith(r, "Basic ")
    ensures Base64.Decode(r[6..]) == Some(Utf8.Encode(Credentials(s)))
  {
    var octets := Utf8.Encode(Credentials(s));
    Base64.DecodeEncode(octets);
    var r := "Basic " + Base64.Encode(octets);
    assert r[6..] == Base64.Encode(octets);
    r
  }

  /** The header is the only "Basic " value whose payload decodes to the
      credentials' octets: base64 has one spelling per octet string. */
  lemma AuthHeaderUnique(s: Server, h: string)
    requires StartsWith(h, "Basic ") && Base64.Decode(h[6..]) == Some(Utf8.Encode(Credentials(s)))
    ensures h == AuthHeader(s)
  {
    var r := AuthHeader(s);
    Base64.DecodeInjective(h[6..], r[6..]);
    assert h == h[..6] + h[6..] && r == r[..6] + r[6..];
  }

  /** How a server reads the header (section 2 of RFC 7617): the user-id ends at the first colon. */
  function ParseBasic(h: string): (r: Option<(string, string)>)
    ensures r.Some? ==> ':' !in r.value.0
  {
    if !StartsWith(h, "Basic ") then None
    else
      match Base64.Decode(h[6..])
      case None => None
      case Some(octets) =>
        match Utf8.Decode(octets)
        case None => None
        case Some(text) =>
          match IndexOf(text, ':')
          case None => None
          case Some(i) => Some((text[..i], text[i + 1..]))
  }

  /** Without a colon in the user name, the first colon is the separator. */
  lemma CredentialsSplit(s: Server)
    requires ':' !in s.username
    ensures IndexOf(Credentials(s), ':') == Some(|s.username|)
    ensures Credentials(s)[..|s.username|] == s.username
    ensures Credentials(s)[|s.username| + 1..] == s.apiToken
  {
    var text := Credentials(s);
    assert text[|s.username|] == ':';
    assert text[..|s.username|] == s.username;
  }

  /** The header carries the credentials back out intact whenever the user name has no colon. */
  lemma ParseAuthHeader(s: Server)
    requires ':' !in s.username
    ensures ParseBasic(AuthHeader(s)) == Some((s.username, s.apiToken))
  {
    Utf8.DecodeEncode(Credentials(s));
    CredentialsSplit(s);
  }

  /** A colon in the user name makes two different servers send the same header. */
  lemma ColonInUserNameIsAmbiguous()
    ensures AuthHeader(Server("h", "a:b", "c")) == AuthHeader(Server("h", "a", "b:c"))
  {
    assert Credentials(Server("h", "a:b", "c")) == Credentials(Server("h", "a", "b:c"));
  }
}

=== FILE: strings.dfy ===
/** String primitives the two clients rely on: prefix and substring tests,
    ASCII case folding, the platforms' whitespace classes with trimming and
    blankness, and decimal rendering of integers. */
module Strings {
  import opened Wrappers

  predicate StartsWith(s: string, p: string) {
    |p| <= |s| && s[..|p|] == p
  }

  predicate EndsWith(s: string, p: string) {
    |p| <= |s| && s[|s| - |p|..] == p
  }

  /** `t` occurs in `s` at some position (Kotlin `contains`, Swift `contains`). */
  predicate Contains(s: string, t: string)
    decreases |s|
  {
    StartsWith(s, t) || (|s| > 0 && Contains(s[1..], t))
  }

  /** `t` occurs in `s` starting at index `i`. */
  predicate OccursAt(s: string, t: string, i: int) {
    0 <= i && i + |t| <= |s| && s[i..i + |t|] == t
  }

  /** The scanning definition of `Contains` agrees with "occurs at some index". */
  lemma {:induction false} ContainsIff(s: string, t: string)
    ensures Contains(s, t) <==> exists i :: OccursAt(s, t, i)
    decreases |s|
  {
    if StartsWith(s, t) {
      assert OccursAt(s, t, 0);
    } else if |s| > 0 {
      ContainsIff(s[1..], t);
      if exists i :: OccursAt(s, t, i) {
        var i :| OccursAt(s, t, i);
        assert s[1..][i - 1..i - 1 + |t|] == s[i..i + |t|];
        assert OccursAt(s[1..], t, i - 1);
      }
      if exists j :: OccursAt(s[1..], t, j) {
        var j :| OccursAt(s[1..], t, j);
        assert s[1..][j..j + |t|] == s[j + 1..j + 1 + |t|];
        assert OccursAt(s, t, j + 1);
      }
    }
  }

  /** Whatever contains a string also contains every piece of it. */
  lemma ContainsInfix(s: string, t: string, lo: int, hi: int)
    requires 0 <= lo <= hi <= |t|
    requires Contains(s, t)
    ensures Contains(s, t[lo..hi])
  {
    ContainsIff(s, t);
    var i :| OccursAt(s, t, i);
    forall j | 0 <= j < hi - lo
      ensures s[i + lo..i + hi][j] == t[lo..hi][j]
    {
      assert s[i + lo + j] == s[i..i + |t|][lo + j];
    }
    assert s[i + lo..i + hi] == t[lo..hi];
    assert OccursAt(s, t[lo..hi], i + lo);
    ContainsIff(s, t[lo..hi]);
  }

  // ---------------------------------------------------------------- case folding

  /** Lower-case mapping of one character; only the ASCII letters are folded. */
  function LowerChar(c: char): char {
    if 'A' <= c <= 'Z' then (c as int + 32) as char else c
  }

  /** `lowercase()` / `lowercased()` restricted to ASCII folding. */
  function Lower(s: string): (r: string)
    ensures |r| == |s|
    ensures forall i :: 0 <= i < |s| ==> r[i] == LowerChar(s[i])
  {
    seq(|s|, i requires 0 <= i < |s| => LowerChar(s[i]))
  }

  /** Kotlin `equals(other, ignoreCase = true)` under ASCII folding. */
  predicate EqualsIgnoreCase(a: string, b: string) {
    Lower(a) == Lower(b)
  }

  // ---------------------------------------------------------------- whitespace

  /** The whitespace classes the two platforms trim with. */
  datatype Spaces =
    | KotlinWhitespace        // Char.isWhitespace(): Kotlin `trim()` and `isBlank()`
    | SwiftWhitespaces        // CharacterSet.whitespaces
    | SwiftWhitespacesAndNewlines  // CharacterSet.whitespacesAndNewlines

  /** Unicode general category Zs (space separators). */
  predicate IsSpaceSeparator(c: char) {
    c == ' ' || c == '\U{00A0}' || c == '\U{1680}' || ('\U{2000}' <= c <= '\U{200A}')
    || c == '\U{202F}' || c == '\U{205F}' || c == '\U{3000}'
  }

  predicate IsSpace(k: Spaces, c: char) {
    match k
    case KotlinWhitespace =>
      IsSpaceSeparator(c) || c == '\U{2028}' || c == '\U{2029}'
      || ('\t' <= c <= '\r') || ('\U{001C}' <= c <= '\U{001F}')
    case SwiftWhitespaces =>
      IsSpaceSeparator(c) || c == '\t'
    case SwiftWhitespacesAndNewlines =>
      IsSpaceSeparator(c) || ('\t' <= c <= '\r') || c == '\U{0085}'
      || c == '\U{2028}' || c == '\U{2029}'
  }

  /** Every character is whitespace of class `k` (Kotlin `isBlank()` for the Kotlin class). */
  predicate IsBlank(k: Spaces, s: string) {
    forall i :: 0 <= i < |s| ==> IsSpace(k, s[i])
  }

  /** Drops leading whitespace: the result is the longest whitespace-free-at-the-front suffix. */
  function TrimStart(k: Spaces, s: string): (r: string)
    ensures |r| <= |s| && r == s[|s| - |r|..]
    ensures forall i :: 0 <= i < |s| - |r| ==> IsSpace(k, s[i])
    ensures r == [] || !IsSpace(k, r[0])
    decreases |s|
  {
    if |s| > 0 && IsSpace(k, s[0]) then TrimStart(k, s[1..]) else s
  }

  /** Drops trailing whitespace. */
  function TrimEnd(k: Spaces, s: string): (r: string)
    ensures |r| <= |s| && r == s[..|r|]
    ensures forall i :: |r| <= i < |s| ==> IsSpace(k, s[i])
    ensures r == [] || !IsSpace(k, r[|r| - 1])
    decreases |s|
  {
    if |s| > 0 && IsSpace(k, s[|s| - 1]) then TrimEnd(k, s[..|s| - 1]) else s
  }

  /** Drops whitespace at both ends (Kotlin `trim()`, Swift `trimmingCharacters(in:)`). */
  function Trim(k: Spaces, s: string): string {
    TrimEnd(k, TrimStart(k, s))
  }

  /** A string is blank exactly when trimming it leaves nothing. */
  lemma BlankIffTrimEmpty(k: Spaces, s: string)
    ensures IsBlank(k, s) <==> Trim(k, s) == []
  {
    var a := TrimStart(k, s);
    if a != [] {
      assert a[0] == s[|s| - |a|];
    }
  }

  /** Trimming neither creates nor removes blankness. */
  lemma BlankIffTrimBlank(k: Spaces, s: string)
    ensures IsBlank(k, Trim(k, s)) <==> IsBlank(k, s)
  {
    BlankIffTrimEmpty(k, s);
    var a := TrimStart(k, s);
    if a != [] {
      var t := TrimEnd(k, a);
      assert t[0] == a[0];
    }
  }

  /** A trimmed string has no whitespace at either end. */
  lemma TrimmedEnds(k: Spaces, s: string)
    ensures var t := Trim(k, s);
            t == [] || (!IsSpace(k, t[0]) && !IsSpace(k, t[|t| - 1]))
  {
    var a := TrimStart(k, s);
    var t := Trim(k, s);
    if t != [] {
      assert t[0] == a[0];
    }
  }

  /** A string with no whitespace at either end is its own trim. */
  lemma TrimUnchanged(k: Spaces, s: string)
    requires s != [] && !IsSpace(k, s[0]) && !IsSpace(k, s[|s| - 1])
    ensures Trim(k, s) == s
  {
  }

  /** A trailing whitespace character after a non-whitespace one is trimmed away. */
  lemma TrimDropsTrailingSpace(k: Spaces, x: char, c: char)
    requires !IsSpace(k, x) && IsSpace(k, c)
    ensures Trim(k, [x, c]) == [x]
  {
    var u := [x, c];
    assert TrimStart(k, u) == u;
    assert u[..1] == [x];
    assert TrimEnd(k, [x]) == [x];
  }

  /** Trimming twice trims nothing more. */
  lemma TrimIdempotent(k: Spaces, s: string)
    ensures Trim(k, Trim(k, s)) == Trim(k, s)
  {
    var t := Trim(k, s);
    TrimmedEnds(k, s);
    if t != [] {
      TrimUnchanged(k, t);
    } else {
      assert TrimStart(k, t) == [];
    }
  }

  /** Two whitespace classes classify every character of `s` alike. */
  predicate SameSpaces(k1: Spaces, k2: Spaces, s: string) {
    forall i :: 0 <= i < |s| ==> (IsSpace(k1, s[i]) <==> IsSpace(k2, s[i]))
  }

  /** Agreement on a string is agreement on each of its slices. */
  lemma SameSpacesSlice(k1: Spaces, k2: Spaces, s: string, lo: int, hi: int)
    requires SameSpaces(k1, k2, s) && 0 <= lo <= hi <= |s|
    ensures SameSpaces(k1, k2, s[lo..hi])
  {
    var t := s[lo..hi];
    forall i | 0 <= i < |t| ensures (IsSpace(k1, t[i]) <==> IsSpace(k2, t[i])) {
      assert t[i] == s[lo + i];
    }
  }

  lemma {:induction false} TrimStartAgree(k1: Spaces, k2: Spaces, s: string)
    requires SameSpaces(k1, k2, s)
    ensures TrimStart(k1, s) == TrimStart(k2, s)
    decreases |s|
  {
    if |s| > 0 && IsSpace(k1, s[0]) {
      SameSpacesSlice(k1, k2, s, 1, |s|);
      assert s[1..|s|] == s[1..];
      TrimStartAgree(k1, k2, s[1..]);
    }
  }

  lemma {:induction false} TrimEndAgree(k1: Spaces, k2: Spaces, s: string)
    requires SameSpaces(k1, k2, s)
    ensures TrimEnd(k1, s) == TrimEnd(k2, s)
    decreases |s|
  {
    if |s| > 0 && IsSpace(k1, s[|s| - 1]) {
      SameSpacesSlice(k1, k2, s, 0, |s| - 1);
      assert s[0..|s| - 1] == s[..|s| - 1];
      TrimEndAgree(k1, k2, s[..|s| - 1]);
    }
  }

  /** Agreement survives dropping the leading whitespace. */
  lemma SameSpacesTrimStart(k1: Spaces, k2: Spaces, s: string)
    requires SameSpaces(k1, k2, s)
    ensures SameSpaces(k1, k2, TrimStart(k1, s))
  {
    var a := TrimStart(k1, s);
    SameSpacesSlice(k1, k2, s, |s| - |a|, |s|);
    assert s[|s| - |a|..|s|] == a;
  }

  /** Trimming by two classes gives the same result when they agree on every character. */
  lemma TrimAgree(k1: Spaces, k2: Spaces, s: string)
    requires SameSpaces(k1, k2, s)
    ensures Trim(k1, s) == Trim(k2, s)
  {
    TrimStartAgree(k1, k2, s);
    SameSpacesTrimStart(k1, k2, s);
    TrimEndAgree(k1, k2, TrimStart(k1, s));
  }

  /** The position of the first `c` in `s`, if any. */
  function IndexOf(s: string, c: char): (r: Option<nat>)
    ensures r.None? <==> c !in s
    ensures r.Some? ==> r.value < |s| && s[r.value] == c && c !in s[..r.value]
    decreases |s|
  {
    if s == [] then None
    else if s[0] == c then Some(0)
    else
      var t := IndexOf(s[1..], c);
      if t.None? then None else Some(t.value + 1)
  }

  // ---------------------------------------------------------------- decimal numbers

  function DigitChar(d: int): (c: char)
    requires 0 <= d < 10
    ensures '0' <= c <= '9'
  {
    ('0' as int + d) as char
  }

  predicate IsDigit(c: char) {
    '0' <= c <= '9'
  }

  function DigitValue(c: char): (d: int)
    requires IsDigit(c)
    ensures 0 <= d < 10
  {
    c as int - '0' as int
  }

  predicate AllDigits(s: string) {
    forall i :: 0 <= i < |s| ==> IsDigit(s[i])
  }

  /** Decimal rendering of a natural number, as `"$n"` / `"\(n)"` print it. */
  function NatToString(n: nat): (r: string)
    ensures |r| >= 1 && AllDigits(r)
    ensures r[0] == '0' ==> n == 0
    decreases n
  {
    if n < 10 then [DigitChar(n)] else NatToString(n / 10) + [DigitChar(n % 10)]
  }

  /** Decimal rendering of an integer, with a leading `-` when negative. */
  function IntToString(i: int): string {
    if i < 0 then "-" + NatToString(-i) else NatToString(i)
  }

  /** Reads a non-empty run of decimal digits. */
  function ParseNat(s: string): nat
    requires |s| >= 1 && AllDigits(s)
    decreases |s|
  {
    if |s| == 1 then DigitValue(s[0])
    else ParseNat(s[..|s| - 1]) * 10 + DigitValue(s[|s| - 1])
  }

  /** Reads what `IntToString` writes; `None` for anything that is not an optional `-` and digits. */
  function ParseInt(s: string): Option<int> {
    if |s| >= 2 && s[0] == '-' && AllDigits(s[1..]) then Some(0 - ParseNat(s[1..]) as int)
    else if |s| >= 1 && AllDigits(s) then Some(ParseNat(s))
    else None
  }

  lemma {:induction false} ParseNatToString(n: nat)
    ensures ParseNat(NatToString(n)) == n
    decreases n
  {
    if n >= 10 {
      var r := NatToString(n);
      var p := NatToString(n / 10);
      assert r[..|r| - 1] == p;
      ParseNatToString(n / 10);
    }
  }

  /** Decimal rendering is reversible, so distinct integers print differently. */
  lemma ParseIntToString(i: int)
    ensures ParseInt(IntToString(i)) == Some(i)
  {
    if i < 0 {
      ParseNegative(i);
    } else {
      ParseNonNegative(i);
    }
  }

  lemma ParseNegative(i: int)
    requires i < 0
    ensures ParseInt(IntToString(i)) == Some(i)
  {
    var d := NatToString(-i);
    var s := "-" + d;
    assert s[1..] == d && s[0] == '-';
    ParseNatToString(-i);
    assert ParseInt(s) == Some(0 - ParseNat(d) as int);
  }

  lemma ParseNonNegative(i: int)
    requires i >= 0
    ensures ParseInt(IntToString(i)) == Some(i)
  {
    ParseNatToString(i);
    var s := NatToString(i);
    assert s[0] != '-';
  }

  lemma IntToStringInjective(a: int, b: int)
    ensures IntToString(a) == IntToString(b) ==> a == b
  {
    ParseIntToString(a);
    ParseIntToString(b);
  }
}

=== FILE: url_path.dfy ===
/** The string logic of the "by URL" endpoints: appending an API suffix to
    the path of a job or build URL (Android `buildJobApiUrl`, iOS
    `buildURL`), and the iOS query-string parser built on Swift's
    `split(separator:maxSplits:omittingEmptySubsequences:)`. URL parsing and
    rendering themselves are not modelled: a parsed URL is a record whose
    other components are carried along unchanged. */
module UrlPath {
  import opened Wrappers
  import opened Strings

  // ---------------------------------------------------------------- path joining

  /** The path, a "/" unless it already ends with one, then the suffix. */
  function JoinPath(path: string, suffix: string): (r: string)
    ensures StartsWith(r, path) && EndsWith(r, suffix)
    ensures |r| == |path| + |suffix| + (if EndsWith(path, "/") then 0 else 1)
    ensures EndsWith(r[..|r| - |suffix|], "/")
  {
    var p := if EndsWith(path, "/") then path else path + "/";
    assert (p + suffix)[..|p|] == p;
    assert (p + suffix)[|p + suffix| - |suffix|..] == suffix;
    assert EndsWith(p, "/") by {
      if !EndsWith(path, "/") {
        assert p[|p| - 1..] == "/";
      }
    }
    assert StartsWith(p, path) by {
      if !EndsWith(path, "/") {
        assert p[..|path|] == path;
      }
    }
    assert (p + suffix)[..|path|] == p[..|path|];
    p + suffix
  }

  /** Joining never doubles a slash the path already ends with, and adds
      exactly one otherwise. */
  lemma JoinPathExamples()
    ensures JoinPath("/job/a/", "api/json") == "/job/a/api/json"
    ensures JoinPath("/job/a", "api/json") == "/job/a/api/json"
    ensures JoinPath("", "api/json") == "/api/json"
  {
    assert EndsWith("/job/a/", "/");
    assert !EndsWith("/job/a", "/") by { assert "/job/a"[5..] == "a"; }
  }

  /** An Android `Uri` as far as `buildUpon` is concerned: the decoded path
      (absent for some opaque URIs), the encoded query, and everything else. */
  datatype AndroidUri = AndroidUri(path: Option<string>, query: Option<string>, rest: string)

  /** `buildJobApiUrl`: the suffix joins the path (an absent path read as
      ""), and the query is replaced only when one is supplied. */
  function BuildJobApiUrl(u: AndroidUri, suffix: string, query: Option<string>): (r: AndroidUri)
    ensures r.rest == u.rest
    ensures r.path == Some(JoinPath(u.path.GetOr(""), suffix))
    ensures query.None? ==> r.query == u.query
    ensures query.Some? ==> r.query == query
  {
    AndroidUri(Some(JoinPath(u.path.GetOr(""), suffix)), if query.Some? then query else u.query, u.rest)
  }

  datatype QueryItem = QueryItem(name: string, value: string)

  /** `URLComponents` as far as `buildURL` is concerned: the path (never
      absent, possibly empty), the query items, and everything else. */
  datatype Components = Components(path: string, queryItems: Option<seq<QueryItem>>, rest: string)

  /** `buildURL` after `URLComponents(string:)` has succeeded. */
  function BuildComponents(c: Components, path: Option<string>, query: Option<string>): (r: Components)
    ensures r.rest == c.rest
    ensures path.None? ==> r.path == c.path
    ensures path.Some? ==> r.path == JoinPath(c.path, path.value)
    ensures query.None? ==> r.queryItems == c.queryItems
    ensures query.Some? ==> r.queryItems == Some(ParseQueryString(query.value))
  {
    Components(
      if path.Some? then JoinPath(c.path, path.value) else c.path,
      if query.Some? then Some(ParseQueryString(query.value)) else c.queryItems,
      c.rest)
  }

  /** Both clients put the suffix at the same place: an absent Android path
      behaves as iOS's empty path. */
  lemma PathsAgree(u: AndroidUri, c: Components, suffix: string)
    requires u.path.GetOr("") == c.path
    ensures BuildJobApiUrl(u, suffix, None).path == Some(BuildComponents(c, Some(suffix), None).path)
  {
  }

  // ---------------------------------------------------------------- Swift split

  /** The loop of Swift's `split` with empty subsequences omitted: `start` is
      where the current piece began, `end` the character being examined,
      `limit` the `maxSplits` bound (`None` for unbounded). Only appended
      pieces count toward the bound; once it is reached, the rest of the
      string (if non-empty) becomes the last piece. */
  function Scan(s: string, sep: char, limit: Option<nat>, start: nat, end: nat, pieces: seq<string>): seq<string>
    requires start <= end <= |s|
    decreases |s| - end
  {
    if end == |s| then
      if start < |s| then pieces + [s[start..]] else pieces
    else if s[end] == sep then
      var appended := start < end;
      var pieces' := if appended then pieces + [s[start..end]] else pieces;
      if appended && limit.Some? && |pieces'| == limit.value then
        if end + 1 < |s| then pieces' + [s[end + 1..]] else pieces'
      else Scan(s, sep, limit, end + 1, end + 1, pieces')
    else Scan(s, sep, limit, start, end + 1, pieces)
  }

  /** `s.split(separator: sep, maxSplits: limit)`, empties omitted. */
  function SwiftSplit(s: string, sep: char, limit: Option<nat>): seq<string> {
    if limit == Some(0) || s == [] then (if s == [] then [] else [s])
    else Scan(s, sep, limit, 0, 0, [])
  }

  /** Reference reading of the unbounded split: the non-empty runs between
      separators, in order. */
  function Fields(s: string, sep: char): seq<string>
    decreases |s|
  {
    match IndexOf(s, sep)
    case None => if s == [] then [] else [s]
    case Some(i) => (if i > 0 then [s[..i]] else []) + Fields(s[i + 1..], sep)
  }

  /** `IndexOf` is determined by the first occurrence. */
  lemma IndexOfAt(s: string, c: char, k: nat)
    requires k < |s| && s[k] == c && c !in s[..k]
    ensures IndexOf(s, c) == Some(k)
  {
  }

  /** At a separator the current piece, if non-empty, is closed and the
      fields continue after it. */
  lemma FieldsAtSep(s: string, sep: char, start: nat, end: nat)
    requires start <= end < |s| && sep !in s[start..end] && s[end] == sep
    ensures Fields(s[start..], sep) ==
      (if start < end then [s[start..end]] else []) + Fields(s[end + 1..], sep)
  {
    var t := s[start..];
    var k := end - start;
    assert t[k] == sep;
    assert t[..k] == s[start..end];
    IndexOfAt(t, sep, k);
    assert Fields(t, sep) == (if k > 0 then [t[..k]] else []) + Fields(t[k + 1..], sep);
    assert t[k + 1..] == s[end + 1..];
  }

  lemma Associative<T>(a: seq<T>, b: seq<T>, c: seq<T>)
    ensures (a + b) + c == a + (b + c)
  {
  }

  /** At the end of the string the pending piece, if any, is the last field. */
  lemma FieldsAtEnd(s: string, sep: char, start: nat)
    requires start <= |s| && sep !in s[start..]
    ensures Fields(s[start..], sep) == if start < |s| then [s[start..]] else []
  {
    assert IndexOf(s[start..], sep).None?;
  }

  /** A separator closes the pending piece, if non-empty, and restarts after itself. */
  lemma ScanSep(s: string, sep: char, start: nat, end: nat, pieces: seq<string>)
    requires start <= end < |s| && s[end] == sep
    ensures Scan(s, sep, None, start, end, pieces) ==
      Scan(s, sep, None, end + 1, end + 1, pieces + (if start < end then [s[start..end]] else []))
  {
    if start >= end {
      assert pieces + [] == pieces;
    }
  }

  lemma {:induction false} ScanUnbounded(s: string, sep: char, start: nat, end: nat, pieces: seq<string>)
    requires start <= end <= |s| && sep !in s[start..end]
    ensures Scan(s, sep, None, start, end, pieces) == pieces + Fields(s[start..], sep)
    decreases |s| - end
  {
    if end == |s| {
      assert s[start..] == s[start..end];
      FieldsAtEnd(s, sep, start);
    } else if s[end] == sep {
      var piece := if start < end then [s[start..end]] else [];
      ScanSep(s, sep, start, end, pieces);
      assert s[end + 1..end + 1] == [];
      ScanUnbounded(s, sep, end + 1, end + 1, pieces + piece);
      FieldsAtSep(s, sep, start, end);
      Associative(pieces, piece, Fields(s[end + 1..], sep));
    } else {
      assert s[start..end + 1] == s[start..end] + [s[end]];
      ScanUnbounded(s, sep, start, end + 1, pieces);
    }
  }

  /** Swift's unbounded split yields exactly the non-empty fields. */
  lemma SplitIsFields(s: string, sep: char)
    ensures SwiftSplit(s, sep, None) == Fields(s, sep)
  {
    if s != [] {
      assert s[0..0] == [];
      ScanUnbounded(s, sep, 0, 0, []);
      assert s[0..] == s;
    }
  }

  /** The text before the first separator and, when non-empty, everything after it. */
  function CutAtFirst(t: string, sep: char): seq<string> {
    match IndexOf(t, sep)
    case None => [t]
    case Some(i) => [t[..i]] + (if i + 1 < |t| then [t[i + 1..]] else [])
  }

  /** Reference reading of the one-split: leading separators are skipped,
      then the text before the first separator and, when non-empty, the
      whole remainder (separators included). */
  function SplitOnceRef(s: string, sep: char): seq<string>
    decreases |s|
  {
    if s == [] then []
    else if s[0] == sep then SplitOnceRef(s[1..], sep)
    else CutAtFirst(s, sep)
  }

  /** The first separator inside a started piece ends the one-split. */
  lemma ScanOnceSep(s: string, sep: char, start: nat, end: nat)
    requires start < end < |s| && sep !in s[start..end] && s[end] == sep
    ensures Scan(s, sep, Some(1), start, end, []) == CutAtFirst(s[start..], sep)
  {
    var t := s[start..];
    assert t[end - start] == sep;
    assert t[..end - start] == s[start..end];
    IndexOfAt(t, sep, end - start);
    assert t[end - start + 1..] == s[end + 1..];
  }

  /** Inside a piece that has started: the first separator ends it. */
  lemma {:induction false} ScanOncePiece(s: string, sep: char, start: nat, end: nat)
    requires start < end <= |s| && sep !in s[start..end]
    ensures Scan(s, sep, Some(1), start, end, []) == CutAtFirst(s[start..], sep)
    decreases |s| - end
  {
    if end == |s| {
      assert s[start..] == s[start..end];
      assert IndexOf(s[start..], sep).None?;
    } else if s[end] == sep {
      ScanOnceSep(s, sep, start, end);
    } else {
      assert s[start..end + 1] == s[start..end] + [s[end]];
      ScanOncePiece(s, sep, start, end + 1);
    }
  }

  lemma {:induction false} ScanOnce(s: string, sep: char, start: nat)
    requires start <= |s|
    ensures Scan(s, sep, Some(1), start, start, []) == SplitOnceRef(s[start..], sep)
    decreases |s| - start
  {
    var t := s[start..];
    if start < |s| {
      if s[start] == sep {
        assert t[1..] == s[start + 1..];
        ScanOnce(s, sep, start + 1);
      } else {
        assert s[start..start + 1] == [s[start]];
        ScanOncePiece(s, sep, start, start + 1);
      }
    }
  }

  /** Swift's `split(maxSplits: 1)` agrees with the reference reading. */
  lemma SplitOnceIsRef(s: string, sep: char)
    ensures SwiftSplit(s, sep, Some(1)) == SplitOnceRef(s, sep)
  {
    if s != [] {
      ScanOnce(s, sep, 0);
      assert s[0..] == s;
    }
  }

  // ---------------------------------------------------------------- query strings

  /** One `&`-field kept as a query item iff its one-split has two pieces. */
  function ItemOf(field: string): seq<QueryItem> {
    var parts := SwiftSplit(field, '=', Some(1));
    if |parts| == 2 then [QueryItem(parts[0], parts[1])] else []
  }

  function ItemsOf(fields: seq<string>): seq<QueryItem>
    decreases |fields|
  {
    if fields == [] then [] else ItemOf(fields[0]) + ItemsOf(fields[1..])
  }

  /** `parseQueryString`. */
  function ParseQueryString(q: string): (r: seq<QueryItem>)
    ensures r == ItemsOf(Fields(q, '&'))
  {
    SplitIsFields(q, '&');
    ItemsOf(SwiftSplit(q, '&', None))
  }

  /** The name/value a field yields, in plain terms: after any leading `=`,
      a non-empty name up to the first `=`, then a non-empty value that is
      the whole rest of the field. */
  function KeyValue(field: string): (r: Option<QueryItem>)
    ensures r.Some? ==> r.value.name != [] && '=' !in r.value.name && r.value.value != []
    decreases |field|
  {
    if field == [] then None
    else if field[0] == '=' then KeyValue(field[1..])
    else match IndexOf(field, '=')
      case None => None
      case Some(i) => if i + 1 < |field| then Some(QueryItem(field[..i], field[i + 1..])) else None
  }

  lemma {:induction false} SplitOnceRefTwo(field: string)
    ensures |SplitOnceRef(field, '=')| == 2 <==> KeyValue(field).Some?
    ensures KeyValue(field).Some? ==>
      SplitOnceRef(field, '=') == [KeyValue(field).value.name, KeyValue(field).value.value]
    decreases |field|
  {
    if field != [] && field[0] == '=' {
      SplitOnceRefTwo(field[1..]);
    }
  }

  /** A field is kept exactly when it has the key/value shape above. */
  lemma ItemOfIsKeyValue(field: string)
    ensures ItemOf(field) == (if KeyValue(field).Some? then [KeyValue(field).value] else [])
  {
    SplitOnceIsRef(field, '=');
    SplitOnceRefTwo(field);
  }

  /** Items rendered as `name=value` joined by `&`. */
  function Render(items: seq<QueryItem>): string
    decreases |items|
  {
    if items == [] then []
    else if |items| == 1 then Field(items[0])
    else Field(items[0]) + "&" + Render(items[1..])
  }

  /** An item the parser can carry: a non-empty name free of `=` and `&`,
      and a non-empty value free of `&`. */
  predicate Carriable(it: QueryItem) {
    it.name != [] && '=' !in it.name && '&' !in it.name && it.value != [] && '&' !in it.value
  }

  lemma KeyValueOfItem(it: QueryItem)
    requires Carriable(it)
    ensures KeyValue(Field(it)) == Some(it)
  {
    var f := Field(it);
    assert f[0] == it.name[0];
    assert f[..|it.name|] == it.name;
    IndexOfAt(f, '=', |it.name|);
    assert f[|it.name| + 1..] == it.value;
  }

  /** The `name=value` field of one item. */
  function Field(it: QueryItem): string {
    it.name + "=" + it.value
  }

  /** The fields of a list of items, in order. */
  function FieldStrings(items: seq<QueryItem>): seq<string>
    decreases |items|
  {
    if items == [] then [] else [Field(items[0])] + FieldStrings(items[1..])
  }

  /** A non-empty field free of the separator, then the separator, splits off first. */
  lemma FieldsCons(f: string, rest: string)
    requires f != [] && '&' !in f
    ensures Fields(f + "&" + rest, '&') == [f] + Fields(rest, '&')
  {
    var s := f + "&" + rest;
    assert s[..|f|] == f;
    IndexOfAt(s, '&', |f|);
    assert s[|f| + 1..] == rest;
  }

  /** A non-empty field free of the separator is one field. */
  lemma FieldsOne(f: string)
    requires f != [] && '&' !in f
    ensures Fields(f, '&') == [f]
  {
  }

  lemma {:induction false} FieldsOfRender(items: seq<QueryItem>)
    requires forall k :: 0 <= k < |items| ==> Carriable(items[k])
    ensures Fields(Render(items), '&') == FieldStrings(items)
    decreases |items|
  {
    if items != [] {
      var f := Field(items[0]);
      assert '&' !in f;
      if |items| == 1 {
        FieldsOne(f);
      } else {
        FieldsCons(f, Render(items[1..]));
        FieldsOfRender(items[1..]);
      }
    }
  }

  lemma {:induction false} ItemsOfRendered(items: seq<QueryItem>)
    requires forall k :: 0 <= k < |items| ==> Carriable(items[k])
    ensures ItemsOf(FieldStrings(items)) == items
    decreases |items|
  {
    if items != [] {
      var fs := FieldStrings(items);
      ItemOfIsKeyValue(fs[0]);
      KeyValueOfItem(items[0]);
      assert fs[1..] == FieldStrings(items[1..]);
      ItemsOfRendered(items[1..]);
      assert items == [items[0]] + items[1..];
    }
  }

  /** Parsing a rendered list of carriable items gives the list back; in
      particular a value may itself contain `=`. */
  lemma ParseRender(items: seq<QueryItem>)
    requires forall k :: 0 <= k < |items| ==> Carriable(items[k])
    ensures ParseQueryString(Render(items)) == items
  {
    SplitIsFields(Render(items), '&');
    FieldsOfRender(items);
    ItemsOfRendered(items);
  }

  /** Fields without a name or without a value are dropped. */
  lemma ParseDropsEmptyValue()
    ensures ParseQueryString("a=") == []
  {
    SplitIsFields("a=", '&');
    ItemOfIsKeyValue("a=");
  }

  lemma ParseDropsEmptyName()
    ensures ParseQueryString("=b") == []
  {
    SplitIsFields("=b", '&');
    ItemOfIsKeyValue("=b");
    assert "=b"[1..] == "b";
  }

  /** Only the first `=` separates; leading `=` are skipped. */
  lemma ParseKeepsLaterEquals()
    ensures ParseQueryString("a=b=c") == [QueryItem("a", "b=c")]
  {
    assert Carriable(QueryItem("a", "b=c"));
    assert Render([QueryItem("a", "b=c")]) == "a=b=c";
    ParseRender([QueryItem("a", "b=c")]);
  }

  lemma ParseSkipsLeadingEquals()
    ensures ParseQueryString("=a=b") == [QueryItem("a", "b")]
  {
    SplitIsFields("=a=b", '&');
    FieldsOne("=a=b");
    assert ItemOf("=a=b") == [QueryItem("a", "b")] by {
      ItemOfIsKeyValue("=a=b");
      assert "=a=b"[1..] == "a=b";
      assert Field(QueryItem("a", "b")) == "a=b";
      KeyValueOfItem(QueryItem("a", "b"));
    }
    assert ItemsOf(["=a=b"]) == ItemOf("=a=b") + ItemsOf([]);
  }
}

=== FILE: utf8.dfy ===
/** UTF-8 (RFC 3629): the encoding both clients apply to the Basic credentials
    before base64. `Decode` is the strict partner: it rejects overlong forms,
    surrogates and code points above U+10FFFF. */
module Utf8 {
  import opened Wrappers
  import opened Bytes

  /** The code unit sequence of one Unicode scalar value (section 3 of RFC 3629). */
  function EncodeChar(c: char): (r: seq<Byte>)
    ensures 1 <= |r| <= 4
    ensures LeadLength(r[0]) == |r|
    ensures forall i :: 1 <= i < |r| ==> IsContinuation(r[i])
  {
    var n := c as int;
    if n < 0x80 then [n]
    else if n < 0x800 then [0xC0 + n / 64, 0x80 + n % 64]
    else if n < 0x10000 then [0xE0 + n / 4096, 0x80 + (n / 64) % 64, 0x80 + n % 64]
    else [0xF0 + n / 262144, 0x80 + (n / 4096) % 64, 0x80 + (n / 64) % 64, 0x80 + n % 64]
  }

  predicate IsContinuation(x: Byte) {
    0x80 <= x < 0xC0
  }

  /** How many octets the sequence led by `x` has; 0 when `x` cannot lead one. */
  function LeadLength(x: Byte): nat {
    if x < 0x80 then 1
    else if 0xC0 <= x < 0xE0 then 2
    else if 0xE0 <= x < 0xF0 then 3
    else if 0xF0 <= x < 0xF8 then 4
    else 0
  }

  /** A code point that is a Unicode scalar value, so a Dafny `char`. */
  predicate IsScalar(n: int) {
    (0 <= n < 0xD800) || (0xE000 <= n < 0x11_0000)
  }

  /** The code point of a two-octet sequence. */
  function Point2(b0: Byte, b1: Byte): int {
    (b0 as int - 0xC0) * 64 + (b1 as int - 0x80)
  }

  function Point3(b0: Byte, b1: Byte, b2: Byte): int {
    (b0 as int - 0xE0) * 4096 + (b1 as int - 0x80) * 64 + (b2 as int - 0x80)
  }

  function Point4(b0: Byte, b1: Byte, b2: Byte, b3: Byte): int {
    (b0 as int - 0xF0) * 262144 + (b1 as int - 0x80) * 4096 + (b2 as int - 0x80) * 64 + (b3 as int - 0x80)
  }

  /** The scalar value one complete sequence stands for, if it is well formed:
      no overlong form, no surrogate, nothing above U+10FFFF. */
  function DecodeSequence(g: seq<Byte>): Option<char>
    requires 1 <= |g| <= 4 && LeadLength(g[0]) == |g|
  {
    if |g| == 1 then Some(g[0] as char)
    else if exists i :: 1 <= i < |g| && !IsContinuation(g[i]) then None
    else if |g| == 2 then
      var n := Point2(g[0], g[1]);
      if 0x80 <= n then Some(n as char) else None
    else if |g| == 3 then
      var n := Point3(g[0], g[1], g[2]);
      if 0x800 <= n && IsScalar(n) then Some(n as char) else None
    else
      var n := Point4(g[0], g[1], g[2], g[3]);
      if 0x1_0000 <= n < 0x11_0000 then Some(n as char) else None
  }

  function Encode(s: string): (r: seq<Byte>)
    ensures |s| <= |r| <= 4 * |s|
    decreases |s|
  {
    if s == [] then [] else EncodeChar(s[0]) + Encode(s[1..])
  }

  /** Strict decoding; `None` for any ill-formed or truncated sequence. */
  function Decode(b: seq<Byte>): Option<string>
    decreases |b|
  {
    if b == [] then Some([])
    else
      var len := LeadLength(b[0]);
      if len == 0 || |b| < len then None
      else
        var c := DecodeSequence(b[..len]);
        if c.None? then None
        else
          var tail := Decode(b[len..]);
          if tail.None? then None else Some([c.value] + tail.value)
  }

  lemma Split64(a: int, b: int)
    requires 0 <= a && 0 <= b < 64
    ensures (a * 64 + b) / 64 == a && (a * 64 + b) % 64 == b
  {
  }

  lemma Split4096(a: int, b: int)
    requires 0 <= a && 0 <= b < 4096
    ensures (a * 4096 + b) / 4096 == a && (a * 4096 + b) % 4096 == b
  {
  }

  lemma Split262144(a: int, b: int)
    requires 0 <= a && 0 <= b < 262144
    ensures (a * 262144 + b) / 262144 == a
  {
  }

  lemma DecodeTwo(n: int)
    requires 0x80 <= n < 0x800
    ensures Point2(0xC0 + n / 64, 0x80 + n % 64) == n
  {
  }

  lemma DecodeThree(n: int)
    requires 0x800 <= n < 0x1_0000
    ensures Point3(0xE0 + n / 4096, 0x80 + (n / 64) % 64, 0x80 + n % 64) == n
  {
  }

  lemma DecodeFour(n: int)
    requires 0x1_0000 <= n < 0x11_0000
    ensures Point4(0xF0 + n / 262144, 0x80 + (n / 4096) % 64, 0x80 + (n / 64) % 64, 0x80 + n % 64) == n
  {
    var r1 := n % 262144;
    var r2 := r1 % 4096;
    assert n == (n / 262144) * 262144 + r1;
    assert r1 == (r1 / 4096) * 4096 + r2 && r1 / 4096 < 64;
    assert r2 == (r2 / 64) * 64 + r2 % 64 && r2 / 64 < 64;
    Digits4(n / 262144, r1 / 4096, r2 / 64, r2 % 64);
  }

  lemma DecodeSequenceEncodeChar(c: char)
    ensures DecodeSequence(EncodeChar(c)) == Some(c)
  {
    var n := c as int;
    var g := EncodeChar(c);
    assert forall i :: 1 <= i < |g| ==> IsContinuation(g[i]);
    if n < 0x80 {
    } else if n < 0x800 {
      DecodeTwo(n);
    } else if n < 0x10000 {
      DecodeThree(n);
    } else {
      DecodeFour(n);
    }
  }

  /** The digits of a code point written in base 64 with a three-digit
      (resp. four-digit) lead are the digits it was built from. */
  lemma Digits3(a: int, b: int, d: int)
    requires 0 <= a && 0 <= b < 64 && 0 <= d < 64
    ensures var n := a * 4096 + b * 64 + d;
            n / 4096 == a && (n / 64) % 64 == b && n % 64 == d
  {
    Split4096(a, b * 64 + d);
    assert a * 4096 + b * 64 + d == (a * 64 + b) * 64 + d;
    Split64(a * 64 + b, d);
    Split64(a, b);
  }

  lemma Digits4(a: int, b: int, d: int, e: int)
    requires 0 <= a && 0 <= b < 64 && 0 <= d < 64 && 0 <= e < 64
    ensures var n := a * 262144 + b * 4096 + d * 64 + e;
            n / 262144 == a && (n / 4096) % 64 == b && (n / 64) % 64 == d && n % 64 == e
  {
    var n := a * 262144 + b * 4096 + d * 64 + e;
    Split262144(a, b * 4096 + d * 64 + e);
    assert n == (a * 64 + b) * 4096 + (d * 64 + e);
    Split4096(a * 64 + b, d * 64 + e);
    Split64(a, b);
    assert n == ((a * 64 + b) * 64 + d) * 64 + e;
    Split64((a * 64 + b) * 64 + d, e);
    Split64(a * 64 + b, d);
  }

  lemma EncodeTwo(g: seq<Byte>)
    requires |g| == 2 && LeadLength(g[0]) == 2 && DecodeSequence(g).Some?
    ensures EncodeChar(DecodeSequence(g).value) == g
  {
    assert IsContinuation(g[1]);
    Split64(g[0] - 0xC0, g[1] - 0x80);
  }

  lemma EncodeThree(g: seq<Byte>)
    requires |g| == 3 && LeadLength(g[0]) == 3 && DecodeSequence(g).Some?
    ensures EncodeChar(DecodeSequence(g).value) == g
  {
    assert IsContinuation(g[1]) && IsContinuation(g[2]);
    Digits3(g[0] - 0xE0, g[1] - 0x80, g[2] - 0x80);
  }

  lemma EncodeFour(g: seq<Byte>)
    requires |g| == 4 && LeadLength(g[0]) == 4 && DecodeSequence(g).Some?
    ensures EncodeChar(DecodeSequence(g).value) == g
  {
    assert IsContinuation(g[1]) && IsContinuation(g[2]) && IsContinuation(g[3]);
    Digits4(g[0] - 0xF0, g[1] - 0x80, g[2] - 0x80, g[3] - 0x80);
  }

  /** Every sequence the decoder accepts is exactly the encoding of what it yields. */
  lemma EncodeCharDecodeSequence(g: seq<Byte>)
    requires 1 <= |g| <= 4 && LeadLength(g[0]) == |g|
    requires DecodeSequence(g).Some?
    ensures EncodeChar(DecodeSequence(g).value) == g
  {
    if |g| == 2 {
      EncodeTwo(g);
    } else if |g| == 3 {
      EncodeThree(g);
    } else if |g| == 4 {
      EncodeFour(g);
    }
  }

  lemma DecodeCons(c: char, rest: seq<Byte>)
    ensures Decode(EncodeChar(c) + rest) ==
      (var tail := Decode(rest);
       if tail.None? then None else Some([c] + tail.value))
  {
    var g := EncodeChar(c);
    var b := g + rest;
    assert b[..|g|] == g;
    assert b[|g|..] == rest;
    DecodeSequenceEncodeChar(c);
  }

  /** Decoding undoes encoding for every string. */
  lemma {:induction false} DecodeEncode(s: string)
    ensures Decode(Encode(s)) == Some(s)
    decreases |s|
  {
    if s != [] {
      DecodeEncode(s[1..]);
      DecodeCons(s[0], Encode(s[1..]));
      assert [s[0]] + s[1..] == s;
    }
  }

  /** Encoding works character by character. */
  lemma EncodeCons(c: char, t: string)
    ensures Encode([c] + t) == EncodeChar(c) + Encode(t)
  {
    assert ([c] + t)[1..] == t;
  }

  /** One step of a successful decode: a well-formed first sequence, then
      a decodable rest. */
  lemma DecodeUnfold(b: seq<Byte>)
    requires b != [] && Decode(b).Some?
    ensures var len := LeadLength(b[0]);
            1 <= len <= |b| && DecodeSequence(b[..len]).Some? && Decode(b[len..]).Some? &&
            Decode(b).value == [DecodeSequence(b[..len]).value] + Decode(b[len..]).value
  {
  }

  /** Whatever the decoder accepts is the encoding of its result, so the encoding is a bijection onto well-formed input. */
  lemma {:induction false} EncodeDecode(b: seq<Byte>)
    requires Decode(b).Some?
    ensures Encode(Decode(b).value) == b
    decreases |b|
  {
    if b != [] {
      DecodeUnfold(b);
      var len := LeadLength(b[0]);
      var g := b[..len];
      EncodeCharDecodeSequence(g);
      EncodeDecode(b[len..]);
      EncodeCons(DecodeSequence(g).value, Decode(b[len..]).value);
      assert b == g + b[len..];
    }
  }
}

=== FILE: weather.dfy ===
/** The weather icon for a job's health score (WeatherIcon.kt, WeatherIcon.swift). */
module Weather {
  /** The five buckets, best first. */
  datatype Bucket = Sunny | PartlyCloudy | Cloudy | Rain | Storm

  /** Lower is healthier. */
  function Severity(b: Bucket): int {
    match b
    case Sunny => 0
    case PartlyCloudy => 1
    case Cloudy => 2
    case Rain => 3
    case Storm => 4
  }

  /** Android: open-ended thresholds checked from the top, so every score above 80 is sunny. */
  function AndroidBucket(score: int): (r: Bucket)
    ensures score <= 100 ==> r == IosBucket(score)
    ensures score > 100 ==> r == Sunny && IosBucket(score) == Storm
  {
    if score > 80 then Sunny
    else if score > 60 then PartlyCloudy
    else if score > 40 then Cloudy
    else if score > 20 then Rain
    else Storm
  }

  /** A higher score never gives a worse bucket. */
  lemma AndroidMonotone(a: int, b: int)
    requires a <= b
    ensures Severity(AndroidBucket(b)) <= Severity(AndroidBucket(a))
  {
  }

  /** Each bucket covers one interval of scores. */
  lemma AndroidIntervals(score: int)
    ensures AndroidBucket(score) == Sunny <==> 80 < score
    ensures AndroidBucket(score) == PartlyCloudy <==> 60 < score <= 80
    ensures AndroidBucket(score) == Cloudy <==> 40 < score <= 60
    ensures AndroidBucket(score) == Rain <==> 20 < score <= 40
    ensures AndroidBucket(score) == Storm <==> score <= 20
  {
  }

  /** SF Symbols names of the iOS icon. */
  function IosIconName(score: int): string {
    if 81 <= score <= 100 then "sun.max.fill"
    else if 61 <= score <= 80 then "cloud.sun.fill"
    else if 41 <= score <= 60 then "cloud.fill"
    else if 21 <= score <= 40 then "cloud.rain.fill"
    else "cloud.bolt.rain.fill"
  }

  datatype IosColor = Yellow | Orange | SystemGray | SystemGray2 | SystemGray3

  function IosIconColor(score: int): IosColor {
    if 81 <= score <= 100 then Yellow
    else if 61 <= score <= 80 then Orange
    else if 41 <= score <= 60 then SystemGray
    else if 21 <= score <= 40 then SystemGray2
    else SystemGray3
  }

  /** The bucket iOS shows: closed ranges, everything else a storm. */
  function IosBucket(score: int): (r: Bucket)
    ensures IconOf(r) == IosIconName(score) && ColorOf(r) == IosIconColor(score)
  {
    if 81 <= score <= 100 then Sunny
    else if 61 <= score <= 80 then PartlyCloudy
    else if 41 <= score <= 60 then Cloudy
    else if 21 <= score <= 40 then Rain
    else Storm
  }

  function IconOf(b: Bucket): string {
    match b
    case Sunny => "sun.max.fill"
    case PartlyCloudy => "cloud.sun.fill"
    case Cloudy => "cloud.fill"
    case Rain => "cloud.rain.fill"
    case Storm => "cloud.bolt.rain.fill"
  }

  function ColorOf(b: Bucket): IosColor {
    match b
    case Sunny => Yellow
    case PartlyCloudy => Orange
    case Cloudy => SystemGray
    case Rain => SystemGray2
    case Storm => SystemGray3
  }

  /** Icon and colour are chosen by the same ranges: both are functions of one bucket. */
  lemma IosIconAndColorAgree(score: int)
    ensures IosIconName(score) == IconOf(IosBucket(score))
    ensures IosIconColor(score) == ColorOf(IosBucket(score))
  {
  }

  /** The platforms agree on scores up to 100 and disagree on every score above. */
  lemma BucketsAgreeUpTo100(score: int)
    ensures score <= 100 ==> IosBucket(score) == AndroidBucket(score)
    ensures score > 100 ==> IosBucket(score) == Storm && AndroidBucket(score) == Sunny
  {
  }
}

=== FILE: wrappers.dfy ===
/** Optional values and two-way results shared by every module of the model. */
module Wrappers {

  /** A value that may be absent: Kotlin's `T?` and Swift's `Optional<T>`. */
  datatype Option<+T> = None | Some(value: T) {

    /** The value, or `default` when absent (`?:` in Kotlin, `??` in Swift). */
    function GetOr(default: T): T {
      match this
      case Some(v) => v
      case None => default
    }
  }

  /** The outcome of an operation that either yields a value or fails with an error. */
  datatype Result<+R, +E> = Ok(value: R) | Err(error: E)
}
